=== FILE: README.md ===
# Lead bot: a verified model of its filtering and routing core

The lead bot reads the Telegram groups it has joined and forwards interesting
messages ("leads") to its subscribers. It works as follows:

- It drops repeated messages and pins each message to a region through an alias table.
- It guesses a category from taxonomy keyword stems, and skips messages that no
  subscriber could want.
- It asks a language model for a verdict, post-processes that verdict with
  fixed rules, and applies three acceptance gates.
- It fans the lead out to every subscriber whose paid subscription or two-day
  trial is live and whose region, category and keywords match.
- Subscribers manage their preferences through inline buttons. An admin
  approves paid subscriptions.
- An offline script scores the classifier with a few string rules of its own.

This project models that core in Dafny. Every decision is a pure function over
immutable data: a JSON `Value`, a `Classification`, the per-user `Prefs`, and
the subscription `Store`. Each outcome is one datatype constructor. The
contracts and lemmas state what the bot promises.

The model has these modules:

| module | file | what it covers |
|---|---|---|
| `Wrappers` | `wrappers.dfy` | `Option`, Python truthiness of an optional string |
| `Text` | `text.dfy` | `str.lower`, `in`, `strip`, `replace`, `split`, `str(int)`/`int(str)`, the hashtag and word regular expressions |
| `Seqs` | `seqs.dfy` | keep-first-occurrence de-duplication, list toggling |
| `Json` | `json.dfy` | `extract_stems` |
| `Taxonomy` | `taxonomy.dfy` | the `categories.get(...)` lookups and `has_subcats` |
| `Classifier` | `classifier.dfy` | `_sanitize_result`, `calibrate_confidence`, `_select_subset`, the self-promotion override, the classification cache, `apply_overrides` |
| `Dedup` | `dedup.dfy` | the bounded queue-plus-set of seen message ids and its daily wipe |
| `Locator` | `locator.dfy` | the alias table, region detection, the heuristic category, the subscriber pre-filter |
| `Subscribers` | `subscribers.dfy` | `Prefs` and every preference mutation of the button handlers |
| `Menu` | `menu.dfy` | `build_toggle_menu` |
| `Callbacks` | `callbacks.dfy` | the button dispatcher `callback`, `handle_payment_screenshot`, `cmd_start` |
| `Delivery` | `delivery.dfy` | `send_lead_to_users` |
| `Pipeline` | `pipeline.dfy` | the message `handler` and the cleaner |
| `Evaluation` | `evaluation.dfy` | the rules of the classifier test script |

Things outside the program are parameters:

- Telegram sends are `send: Outgoing -> bool`, where false means the send raised.
- In the button handler, whether the Telegram calls before the settings or "I paid" write went through is `sent`.
- The model call is `ask: Key -> Answer`, one of `Answered`, `ApiError`, `ParseError` or `Unusable`.
  `Unusable` stands for a reply on which `classify_text_with_ai` raises: no content,
  JSON that is not an object, or an explanation `len` or slicing cannot handle.
- The Snowball stemmer is `stemmer: string -> string`.
- RapidFuzz `is_similar(·, ·, 60)` is `similar`.
- The contact and seller regular expressions are the `Detectors`.
- The clock is `now`, in integer seconds.
- `ADMIN_ID` and the bot's own id are plain arguments.

Behaviour of the code worth knowing:

- A reply that fails to parse is returned without being cached, like an API error.
- Neither error result goes through `_sanitize_result`.
- The delivery category gate is strict. With a detected category, a subscriber
  must have chosen that category itself; chosen subcategories do not count.
- A failing expiry notice is sent outside the per-user `try`. It ends the whole
  fan-out, and no admin summary follows.
- `strip()` applies to the whole lead message, so a lead without tags ends at
  the text.
- `SELF_ID` is `None` until the bot logs in. A message without a sender id then
  counts as the bot's own.
- A reply on which `classify_text_with_ai` raises ends the handler through its
  `except Exception`: the outcome is `AiFailed` and the cache is unchanged.
- The admin's approval of a user with no entry creates one holding only the
  subscription end (`setdefault(uid, {})`); see `Callbacks.AdminCallback` below.
- "I paid" sets the screenshot flag only after the admin notice and the answer
  to the press have both gone through, and "menu:settings" starts the trial
  only after the settings screen is shown. A failing call raises out of the
  handler before the write; the other buttons write first and edit after.

## Model

| member | source | states |
|---|---|---|
| Json.ExtractStems | Telegrambot/filters.py:48-72 | null, booleans and numbers yield no keyword, a string yields exactly itself, and a dict yields its own list-valued "keywords" items first, verbatim |
| Json.ExtractListAppend | Telegrambot/filters.py:68-70 | a list yields the in-order concatenation of what its parts yield |
| Json.ExtractListSingleton | Telegrambot/filters.py:68-70 | a one-item list yields what its item yields |
| Json.ExtractMembersOther | Telegrambot/filters.py:65-67 | the loop over a dict's members is the list walk over the values of every key but "keywords" |
| Json.ExtractDictSplit | Telegrambot/filters.py:61-67 | a dict yields its list-valued "keywords" items verbatim first, then the walk of every other value in dict order |
| Json.ExtractNonListKeywords | Telegrambot/filters.py:62-67 | a "keywords" value that is not a list contributes nothing |
| Json.ExtractStrings | Telegrambot/filters.py:60-72 | when every keyword list holds strings, only strings are collected (items are otherwise copied without type filtering) |
| Json.Keywords | Telegrambot/filters.py:48-72 | the collected keywords as strings, one per collected item, in order |
| Json.Get | Telegrambot/Botparsing.py:205 | `dict.get`: None exactly when no member has the key, else the member's value |
| Taxonomy.HasSubcats | Telegrambot/ui.py:10-12 | true exactly for a dict category whose "subcategories" value is present and truthy |
| Taxonomy.Names | Telegrambot/Botparsing.py:229 | `list(categories.keys())`: the keys in dict order |
| Taxonomy.EntriesHaveStringKeywords | Telegrambot/Botparsing.py:205-213 | in a well-formed taxonomy every category and subcategory entry looked up has string keywords only |
| Taxonomy.EntryOfListed | Telegrambot/Botparsing.py:205-213 | in a well-formed taxonomy, with unique keys, each listed category and subcategory is found under its own key |
| Json.GetUnique | Telegrambot/Botparsing.py:205 | in a dict with unique keys `get` finds every member under its own key |
| Text.Lower | Telegrambot/Botparsing.py:136 | lower-casing keeps the length and folds each character on its own |
| Text.LowerIdempotent | Telegrambot/Botparsing.py:136 | lower-casing twice equals lower-casing once |
| Text.ContainsIff | Telegrambot/delivery.py:85 | Python's `sub in s` holds exactly when `sub` occurs at some position of `s` |
| Text.Strip | Telegrambot/test_classification.py:19 | `str.strip`: the result is a slice of the input with only blanks cut on either side, and it has no blank at either end |
| Text.StripTrimmed | Telegrambot/test_classification.py:19 | a string without a blank at either end is its own `strip()` |
| Text.StripHashtagsRemovesAll | Telegrambot/Botparsing.py:134 | after `re.sub(r'#\w+', '', text)` no hashtag is left |
| Text.StripHashtags | Telegrambot/Botparsing.py:134 | `re.sub(r'#\w+', '', text)` never lengthens the text, and text without `#` passes it unchanged |
| Text.Tokens | Telegrambot/Botparsing.py:138 | every `findall` token is a non-empty run of letters |
| Text.TokensSpellLetters | Telegrambot/Botparsing.py:138 | the `findall` tokens are non-empty letter runs that together spell exactly the letters of the text |
| Text.JoinSplit | Telegrambot/ui.py:440 | splitting on a character and joining back restores the string |
| Text.SplitThree | Telegrambot/ui.py:136-137 | a string with exactly two separators splits into its three parts |
| Text.ParseInt | Telegrambot/ui.py:110 | `int(s)` succeeds exactly on an optional sign followed by one or more ASCII digits, and is negative only after a minus |
| Text.ParseIntToString | Telegrambot/ui.py:440-441 | `int(str(n)) == n` |
| Classifier.Clamp | Telegrambot/ai_utils.py:104 | `max(0.0, min(1.0, x))` lies in [0, 1] and is the identity there |
| Classifier.Truncate | Telegrambot/ai_utils.py:107-108 | an explanation longer than 70 becomes its first 67 characters plus "...", exactly 70 long; shorter ones are unchanged |
| Classifier.Sanitize | Telegrambot/ai_utils.py:92-128 | confidence ends in [0, 1]; explanation at most 70; accepted iff relevant is True and confidence >= 0.7; borderline present iff relevant is True and confidence < 0.7; other fields kept |
| Classifier.SanitizeIdempotent | Telegrambot/ai_utils.py:250-253 | sanitising a sanitised result changes nothing |
| Classifier.Calibrate | Telegrambot/ai_utils.py:130-142 | the calibrated confidence always lies in [0, 1] |
| Classifier.CalibrateMonotone | Telegrambot/ai_utils.py:130-142 | calibration is non-decreasing |
| Classifier.CalibrateIdempotent | Telegrambot/ai_utils.py:130-142 | calibrated values are fixed points |
| Classifier.CalibrateThreshold | Telegrambot/ai_utils.py:130-142 | a calibrated confidence reaches 0.7 exactly when the raw one was at least 0.6 |
| Classifier.Hits | Telegrambot/ai_utils.py:150-151 | the options occurring case-insensitively in the text, and only those |
| Classifier.Subset | Telegrambot/ai_utils.py:144-161 | at most `limit` distinct options, all drawn from the input |
| Classifier.SubsetOrder | Telegrambot/ai_utils.py:151-160 | the hits come first in option order, then the remaining options in their order, cut at the limit |
| Classifier.SelectSubset | Telegrambot/ai_utils.py:144-161 | the loop with its seen set and early break computes the selection for every positive limit |
| Classifier.EarlyExit | Telegrambot/ai_utils.py:159-160 | once `limit` distinct items are collected, they are the first `limit` of the whole de-duplicated list |
| Classifier.SubsetZeroLimitCounterexample | Telegrambot/ai_utils.py:159-161 | with limit 0 the loop as written returns every candidate instead of none |
| Classifier.SelfPromo | Telegrambot/ai_utils.py:256-263 | a relevant result on text with a contact and seller wording becomes irrelevant, confidence at most 0.4, no category, reason "self_promo", not accepted; anything else is unchanged |
| Classifier.SelfPromoIdempotent | Telegrambot/ai_utils.py:256-263 | applying the override twice equals applying it once |
| Classifier.EvictOldest | Telegrambot/ai_utils.py:271-272 | eviction forgets exactly the earliest-inserted key and keeps every other entry |
| Classifier.Put | Telegrambot/ai_utils.py:270-273 | after a write the key maps to the result, other keys are unchanged, and the cache stays within 5000 entries, evicting the oldest at capacity |
| Classifier.ErrorResult | Telegrambot/ai_utils.py:224-248 | an error result is irrelevant, uncategorised, confidence 0.0, not accepted |
| Classifier.PostProcess | Telegrambot/ai_utils.py:249-263 | the reply after sanitising, calibration and the self-promotion check is sanitised, keeps the region, and only ever loses relevance |
| Classifier.Classify | Telegrambot/ai_utils.py:163-275 | a cache hit returns the stored result without the model; a miss asks the model; errors are returned uncached; a reply it cannot handle raises with the cache unchanged; a parsed answer is sanitised and cached under its key |
| Classifier.ClassifyTwiceHitsCache | Telegrambot/ai_utils.py:182-273 | asking again with the same request is served from the cache with the same result |
| Classifier.ApplyOverrides | Telegrambot/ai_utils.py:278-315 | a transfer indicator forces "трансфер", else a non-empty heuristic wins, else the category is kept; relevance is never raised, and the insurance-advert rule clears it with "Реклама страховки"; confidence only rises, exactly when heuristic and final category agree below 0.8, to min(0.85, c + 0.1) |
| Classifier.NudgeCrossesThreshold | Telegrambot/ai_utils.py:311-313 | the agreement nudge lifts a result over 0.7 exactly from [0.6, 0.7) |
| Dedup.Observe | Telegrambot/Botparsing.py:115-123 | a known id is a duplicate and changes nothing; a new id joins queue and set, the oldest leaves both past 50000; set equals queue contents, duplicate-free, at most 50000 |
| Dedup.RepeatIsDuplicate | Telegrambot/Botparsing.py:115-120 | an id observed is a duplicate when it comes again at once |
| Dedup.ObserveAllRemembers | Telegrambot/Botparsing.py:119-123 | below the bound, every observed id and every earlier id is remembered |
| Dedup.Wipe | Telegrambot/Botparsing.py:70-71 | after the wipe no id is a duplicate |
| Locator.CanonicalLocationsSorted | Telegrambot/Botparsing.py:96 | the canonical regions are exactly the alias table's regions, each once, in sorted order |
| Locator.CanonicalOrdered | Telegrambot/Botparsing.py:96 | each canonical region sorts strictly before the next, by code point |
| Locator.CanonicalDistinct | Telegrambot/Botparsing.py:96 | no canonical region appears twice, as `set(...)` promises |
| Locator.CanonicalCovers | Telegrambot/Botparsing.py:96 | a name is canonical exactly when some alias maps to it |
| Locator.AliasRegionsCanonical | Telegrambot/config.py:1-14 | every region the alias table maps to is canonical |
| Locator.MatchText | Telegrambot/Botparsing.py:134-136 | the matching text is lower-case, holds no hashtag, is no longer than the message, and is the lower-cased message itself when the message has no `#` |
| Locator.MessageStems | Telegrambot/Botparsing.py:138 | the message stems are exactly the stems of the word tokens |
| Locator.MessageStemsFromLetters | Telegrambot/Botparsing.py:138 | every message stem comes from a non-empty run of letters |
| Locator.FirstAlias | Telegrambot/Botparsing.py:159-162 | the first alias in table order that matches, with no earlier alias matching |
| Locator.DetectRegion | Telegrambot/Botparsing.py:157-171 | a detected region is canonical; there is none exactly when no alias matches the title or the text |
| Locator.TitleWins | Telegrambot/Botparsing.py:159-163 | when an alias matches the title, the text plays no part |
| Locator.RegionIsFirstMatch | Telegrambot/Botparsing.py:157-171 | the region belongs to a matching alias, every earlier alias failed there, and the text is consulted only when no alias matched the title |
| Locator.Heuristic | Telegrambot/Botparsing.py:175-182 | None exactly when no category has a keyword whose stem is a message stem; otherwise the first such category in dict order |
| Locator.Interested | Telegrambot/Botparsing.py:192-223 | the pre-filter passes for a subscriber of the region with a chosen keyword among the message stems, and never for a message without stems |
| Locator.InterestNeedsRegion | Telegrambot/Botparsing.py:192-198 | the pre-filter passes only if some subscriber lists the region |
| Locator.HeuristicChoicePassesPrefilter | Telegrambot/Botparsing.py:192-223 | with a stemmer that keeps lower-case words lower-case and a taxonomy with unique keys, a subscriber of the region who chose the heuristic category lets the message through the pre-filter |
| Subscribers.ToggleSubcat | Telegrambot/ui.py:136-149 | the subcategory's membership flips; the category is chosen iff its selection is non-empty; categories stay duplicate-free; all else is unchanged |
| Subscribers.SyncCategory | Telegrambot/ui.py:144-149 | other categories keep their membership; on a duplicate-free list the category ends chosen exactly when its selection is non-empty, and the list stays duplicate-free |
| Subscribers.ToggleSubcatTwice | Telegrambot/ui.py:136-149 | pressing a subcategory twice restores which subcategories and categories are chosen |
| Subscribers.ToggleCategory | Telegrambot/ui.py:233-250 | a category with subcategories only opens a menu; any other flips its membership |
| Subscribers.ToggleLocation | Telegrambot/ui.py:283-288 | the location's membership flips and nothing else changes |
| Subscribers.ToggleTwice | Telegrambot/ui.py:233-288 | toggling a plain category or a location twice restores membership of every item |
| Subscribers.Reset | Telegrambot/ui.py:319-325 | categories, locations and subcategories are emptied; trial, subscription and flags are untouched |
| Subscribers.SomeKeyword | Telegrambot/delivery.py:58-67 | a keyword can match only for a subscriber who chose some category or subcategory |
| Subscribers.ResetSelectsNothing | Telegrambot/ui.py:319-325 | after a reset no keyword of the subscriber can match |
| Subscribers.OpenSettings | Telegrambot/ui.py:207-211 | the trial starts now only if no trial start is stored |
| Subscribers.OpenSettingsKeepsTrial | Telegrambot/ui.py:207-211 | opening the settings again never moves an existing trial start |
| Subscribers.MarkPaid | Telegrambot/ui.py:429-432 | "I paid" sets the screenshot flag and changes nothing else in the entry |
| Subscribers.TakeScreenshot | Telegrambot/ui.py:482-490 | a screenshot is forwarded exactly when one was awaited; the flag is clear afterwards and nothing else in the entry changes |
| Subscribers.ScreenshotOnce | Telegrambot/ui.py:485-490 | a second screenshot after a handled one is ignored |
| Subscribers.Approve | Telegrambot/ui.py:443-450 | the subscription ends 30 days per month from now; trial start and both notice flags are removed; filters kept |
| Subscribers.StatusOf | Telegrambot/ui.py:74-85 | a subscription end wins; otherwise a trial ends two days after its start; otherwise no trial |
| Subscribers.ApprovedStatus | Telegrambot/ui.py:443-446 | after approval the status shows the paid period |
| Subscribers.SetDefault | Telegrambot/ui.py:103 | a new user gets empty preferences at the end of the dict; a known user is unchanged |
| Menu.Slice | Telegrambot/ui.py:37 | Python slicing: within bounds it is the sub-sequence, never longer than the list |
| Menu.ItemRows | Telegrambot/ui.py:39-41 | one row per shown item, ticked iff selected, with data "prefix:item" |
| Menu.NavRow | Telegrambot/ui.py:43-47 | the back arrow iff page > 0, the forward arrow iff page < total - 1 |
| Menu.BuildToggleMenu | Telegrambot/ui.py:28-51 | shows `items[8p:8p+8]` in order, at most 8, and the last row is the single Back button |
| Menu.ItemOnItsPage | Telegrambot/ui.py:34-41 | item i appears on page i / 8 in row i % 8, ticked exactly when selected |
| Menu.ArrowsIff | Telegrambot/ui.py:34-47 | on a page p >= 0 the back arrow shows iff p > 0 and the forward arrow iff items lie beyond the page |
| Callbacks.Decode | Telegrambot/ui.py:108-137 | the page branches are taken exactly for data starting "cat_page:" or "loc_page:"; a subcategory toggle's two names hold no ':' and reassemble into the `subcat:<cat>:<sub>` data they were split from |
| Callbacks.DecodeRest | Telegrambot/ui.py:166-466 | the later branches never yield a page or subcategory toggle; a category or location toggle names exactly the data after "cat:" or "loc:"; the parts of an approval or rejection join back into its data |
| Callbacks.DecodeCategoryButton | Telegrambot/ui.py:230-231 | a category button's data reaches the category toggle for that category |
| Callbacks.DecodeLocationButton | Telegrambot/ui.py:282-283 | a location button's data reaches the location toggle for that location |
| Callbacks.DecodeSubcategoryButton | Telegrambot/ui.py:136-137 | a subcategory button reaches the subcategory toggle with both names when neither holds ':' |
| Callbacks.DecodePageButtons | Telegrambot/ui.py:108-123 | the category and location arrows reach their page branches with the page number |
| Callbacks.SubcategoryPageButtonsIgnored | Telegrambot/ui.py:136 | a subcategory menu's arrows match no branch and do nothing |
| Callbacks.DecodeApproveButton | Telegrambot/ui.py:507-509 | the approval button sent to the admin splits into its three parts |
| Callbacks.CheckedCategories | Telegrambot/ui.py:215-218 | the category menu ticks a category iff it is chosen or has a non-empty subcategory selection |
| Callbacks.OwnReaction | Telegrambot/ui.py:108-432 | a press fails exactly for a page number `int` rejects, a subcategory menu whose lookup raises, or a failed call before the settings or "I paid" write; the trial-started screen appears exactly for a first settings visit, and the screenshot prompt exactly for a sent "I paid" |
| Callbacks.OwnEffect | Telegrambot/ui.py:135-432 | no user button changes the subscription end or the notice flags or moves an existing trial start; "menu:settings" leaves a trial started and "menu:paid" sets the screenshot flag, each only once the Telegram calls before its write went through, and otherwise changes nothing |
| Callbacks.AdminCallback | Telegrambot/ui.py:435-472 | reject changes nothing; a malformed approve or reject fails with the store unchanged; approve sets the target's subscription per `Approve`, creating the entry if needed; every other user's entry is kept as it was |
| Callbacks.Callback | Telegrambot/ui.py:97-478 | the presser's entry always exists afterwards; a user button updates only the presser's entry; approve or reject from anyone but the admin is denied with no other change |
| Callbacks.OnlyAdminSetsSubscription | Telegrambot/ui.py:435-465 | without the admin's approval no stored subscription end changes |
| Callbacks.TrialStartSticks | Telegrambot/ui.py:207-211 | a stored trial start survives every button except approval |
| Callbacks.ApprovalEffect | Telegrambot/ui.py:435-459 | the admin's approval of months m leaves the target subscribed until now + 30m days with no trial |
| Callbacks.Screenshot | Telegrambot/ui.py:480-490 | the screenshot is forwarded iff the user awaited one; the flag is then clear; otherwise nothing changes |
| Callbacks.PaidThenScreenshot | Telegrambot/ui.py:413-490 | after a "menu:paid" whose messages went through the first screenshot is forwarded and the next is not; after one whose messages failed the press fails, the entry is unchanged, and a screenshot is forwarded only if one was already awaited |
| Callbacks.SettingsStartsTrial | Telegrambot/ui.py:196-211 | once the settings screen is shown, a user without a trial gets one starting now and is told so, and a user with one keeps it; if showing the screen fails the press fails and the entry is unchanged |
| Callbacks.Start | Telegrambot/ui.py:61-85 | within 10 s of the last answered /start nothing happens and the timestamp stays; otherwise the timestamp moves and the status is shown |
| Callbacks.StartCooldownWindow | Telegrambot/ui.py:65-67 | ignored requests do not extend the cooldown |
| Delivery.AccessOf | Telegrambot/delivery.py:20-57 | paid-expired iff a subscription ended before now; no trial iff neither is stored; trial-expired iff only a trial older than two days (strict); otherwise entitled |
| Delivery.AccessMatchesStatus | Telegrambot/delivery.py:20-57 | leads flow exactly while the /start status shows a date not yet passed |
| Delivery.LapseIsFinal | Telegrambot/delivery.py:20-45 | an expired subscription or trial stays expired later |
| Delivery.SubcategoriesAloneDoNotReceive | Telegrambot/delivery.py:79-83 | with a detected category the subscriber must have chosen that category itself |
| Delivery.ChosenCategoryKeywordPasses | Telegrambot/delivery.py:72-88 | region listed, detected category chosen, and one of its keywords a raw substring of the text pass all gates |
| Delivery.ChatUrl | Telegrambot/delivery.py:90-98 | the username's t.me address, else a t.me link without its last path segment, else empty |
| Delivery.CategoryTag | Telegrambot/delivery.py:105-109 | the tag is empty exactly when there is no detected category and no chosen category |
| Delivery.LeadBody | Telegrambot/delivery.py:110-114 | the message is the composed text with the surrounding blanks removed |
| Delivery.UserUrl | Telegrambot/delivery.py:118 | the username's t.me address, else the `tg://user?id=` address |
| Delivery.LeadButtons | Telegrambot/delivery.py:116-124 | the two URL buttons exist exactly when the message has a link |
| Delivery.KeywordInText | Telegrambot/delivery.py:85 | an empty keyword matches every message, a keyword written as in the message always matches, and a matching keyword is a string no longer than the message |
| Delivery.Step | Telegrambot/delivery.py:12-139 | only a lapse can change the entry; a non-integer key is skipped exactly as such, and the no-trial skip happens exactly for an integer key whose entry has neither subscription nor trial |
| Delivery.StepAttempts | Telegrambot/delivery.py:11-139 | a lead send is attempted for an entry exactly when its id is an integer, it is entitled and it passes the gates |
| Delivery.StepNotices | Telegrambot/delivery.py:20-57 | an expiry notice is attempted only for a lapsed entry with an integer key whose flag is clear, its flag is set only after it is sent, and nothing but the flags changes |
| Delivery.ExpiredGetsNotice | Telegrambot/delivery.py:20-57 | every lapsed entry with an integer key and a clear flag is sent its notice whatever its filters; the flag is set exactly when the send succeeds |
| Delivery.NotStartedIsSkipped | Telegrambot/delivery.py:36-41 | an entry whose trial never started is skipped and left as it was |
| Delivery.Failures | Telegrambot/delivery.py:136-138 | the failed ids are exactly the entries whose lead send failed |
| Delivery.Fanout | Telegrambot/delivery.py:11-139 | the loop over the dict keeps its keys and leaves at most one outcome per entry; it stops short of the last entry only right after a failed notice |
| Delivery.FanoutStops | Telegrambot/delivery.py:11-57 | only the last visited entry can end the loop with a failed notice |
| Delivery.FanoutVisit | Telegrambot/delivery.py:11-139 | the i-th outcome and the i-th entry's final preferences are what the loop body makes of that entry as it stood before the loop |
| Delivery.FanoutUnvisited | Telegrambot/delivery.py:11 | an entry the loop does not reach keeps its preferences |
| Delivery.FanoutBeyond | Telegrambot/delivery.py:11-57 | entries after the one whose notice failed keep their preferences |
| Delivery.Deliver | Telegrambot/delivery.py:8-148 | the store keeps the same users in the same order and stays valid; there is at most one outcome per user |
| Delivery.VisitsAllUnlessAborted | Telegrambot/delivery.py:11-139 | every subscriber is visited unless a notice send failed, and then it is the last one visited |
| Delivery.AttemptedExactlyForReceivers | Telegrambot/delivery.py:11-139 | each visited entry is attempted exactly when it is owed the lead |
| Delivery.AlertIffFailures | Telegrambot/delivery.py:140-148 | the admin gets exactly one summary iff some lead send failed |
| Delivery.OnlyFlagsChange | Telegrambot/delivery.py:31-53 | the fan-out changes nothing but the two notice flags |
| Delivery.NoticesNotRepeated | Telegrambot/delivery.py:25-53 | a lapse announced in one fan-out is not announced again in a later one |
| Delivery.AnnouncedLapseIsQuiet | Telegrambot/delivery.py:20-57 | a lapsed entry whose notice flag is already set is skipped without a send |
| Pipeline.SenderName | Telegrambot/Botparsing.py:146 | a non-empty first name is the name; the name is empty exactly for an empty username behind a missing or empty first name |
| Pipeline.MessageLink | Telegrambot/Botparsing.py:309-313 | "https://t.me/c/<id without -100>/<msg id>" exactly when the chat id prints with "-100", else empty |
| Pipeline.Handle | Telegrambot/Botparsing.py:112-325 | duplicate iff the id was seen, then nothing changes; every exit before the model and a classifier exception keep the cache; a sent lead is relevant, at or above 0.7, categorised, in a canonical region with subscribers, and its category follows the transfer/heuristic rule |
| Pipeline.Route | Telegrambot/Botparsing.py:124-131 | past de-duplication, the group and own-message screens come first; a sent lead's region is the one the message reads and some subscriber lists it |
| Pipeline.Gate | Telegrambot/Botparsing.py:156-223 | no region, no subscriber for it and no subscriber stem in the message each end the handler before the model, keeping cache and store |
| Pipeline.Judge | Telegrambot/Botparsing.py:226-325 | a classifier exception ends with the cache kept; otherwise only the relevance, confidence and category gates stand between the verdict and the fan-out |
| Pipeline.Read | Telegrambot/Botparsing.py:132-186 | the text, its hashtag-free lower-cased form, its stems, the group name, the region and the heuristic category the handler derives from a message |
| Pipeline.AskedCategories | Telegrambot/Botparsing.py:228-229 | `cats_to_use`: the heuristic category alone when there is one, else every category |
| Pipeline.LeadOf | Telegrambot/Botparsing.py:308-325 | the lead carries the message text, the detected region and category, the group's name and username, the message link and the sender |
| Pipeline.HandlePrefilterExits | Telegrambot/Botparsing.py:124-223 | for a new message each early exit is taken iff its gate is the first to fail, and the message passes the pre-filter iff none is taken |
| Pipeline.HandleVerdictGates | Telegrambot/Botparsing.py:226-325 | past the pre-filter the classifier is asked for `cats_to_use` with the current cache; AiFailed iff it raises; otherwise each verdict gate's exit is taken iff it is the first to fail, and a verdict passing all three is sent unchanged through the fan-out |
| Pipeline.HandleSends | Telegrambot/Botparsing.py:112-325 | a sent lead came from a new message that passed the pre-filter, with a verdict that passed every gate and was delivered by `send_lead_to_users` |
| Pipeline.ReplayIsDropped | Telegrambot/Botparsing.py:115-120 | the same message handled again is dropped as a duplicate with nothing changed |
| Pipeline.ChatUrlOfMessageLink | Telegrambot/Botparsing.py:309-313 | for a linked message without a group username, the chat address is the message link minus the message id |
| Pipeline.Clean | Telegrambot/Botparsing.py:66-73 | the cleaner empties the de-duplication state and the classification cache together |
| Pipeline.CleanForgets | Telegrambot/Botparsing.py:66-117 | after the cleaner no message is a duplicate |
| Evaluation.Normalize | Telegrambot/test_classification.py:16-19 | None stays None; a string becomes the lower-cased form of the slice of it left after cutting the blanks at both ends, with no blank at either end |
| Evaluation.NormalizeIdempotent | Telegrambot/test_classification.py:16-19 | normalising twice equals normalising once |
| Evaluation.Rule | Telegrambot/test_classification.py:59-62 | without a trigger nothing changes; with one the category becomes the target; the note is appended exactly when the category changes |
| Evaluation.ApplyPosthocRules | Telegrambot/test_classification.py:55-74 | with no trigger, category and override come back unchanged |
| Evaluation.LastTriggerWins | Telegrambot/test_classification.py:55-74 | insurance beats внж beats transfer; any text with "страховк" ends in "страховка" |
| Evaluation.RegionIgnored | Telegrambot/test_classification.py:55 | the region argument never affects the result |
| Evaluation.OverrideOnlyOnChange | Telegrambot/test_classification.py:60-72 | the override changes only when some rule moved the category |
| Evaluation.ApplyNegativeClues | Telegrambot/test_classification.py:76-82 | a falsy value (including a missing one) comes back unchanged; a truthy value, `True` or not, becomes `False` exactly with a negative clue and one of the five categories, and is otherwise returned as it came |
| Evaluation.Candidates | Telegrambot/test_classification.py:24-51 | the case itself first; the "хочу узнать" → "подскажите" and "нужен" → "хочу" rewordings of the lower-cased text whenever their trigger occurs; the hesitant variant last for renting texts; and nothing else |
| Evaluation.GenerateVariations | Telegrambot/test_classification.py:21-52 | the candidates keeping each key's first appearance: no two equal entries, at most four per base case, every base case kept, every renting case's non-relevant variant present |
| Evaluation.HesitantIsNegative | Telegrambot/test_classification.py:76-78 | the hesitant variant's text contains a negative clue |

## Left out

- Telegram input and output, the OpenAI call, the retry decorator and the rate limiter: sends and the model become the oracles named above, so there is no timing and no concurrency.
- The stemmer, the fuzzy matcher and the contact and seller regular expressions: these are parameters and are never interpreted. `contains_negative` is imported by the handler but never called.
- Unicode `lower()`: `Text.LowerChar` folds only the Latin capitals and the basic Cyrillic capitals, including Ё.
- `int()` accepts surrounding whitespace and `_` separators; `Text.ParseInt` reads only an optional sign and ASCII digits.
- Timestamps: ISO strings and time zones are modelled as integer seconds, with naive trial starts read as UTC already.
- Metrics counters, log files, `save_subscriptions` and `metrics.json` have no effect on any decision and are left out.
- The handler's `stem_to_category` map only feeds a log line and is left out.
- Which replies make `classify_text_with_ai` raise is not interpreted: the `Unusable` answer of the oracle says so. The self-promotion override and the cache write cannot raise on a sanitised result.
- Message texts, prompt strings and menu captions beyond those the contracts mention.
- The admin's failure summary text and the "menu:paid" message to the admin: both are sends whose content is not modelled.
- `MessageNotModifiedError` handling and `event.answer` acknowledgements.
- Confidence is a Dafny `real`, so there is no floating-point rounding.
- `Pipeline.SenderName`: `getattr` defaults for missing attributes are not modelled; a sender always has both optional fields.
- `Delivery.KeywordInText`: a non-string keyword would be compared through its `str()` form, but the model lets only string keywords match. Well-formed taxonomies hold only strings (`Taxonomy.EntriesHaveStringKeywords`).
- `Evaluation.GenerateVariations`: expected labels are the three compared keys only, and `relevant` is a boolean; any extra keys of an expected dict do not take part in the key.
- `Callbacks.Callback`: page numbers are parsed with the integer reader above, and a lookup that would raise `KeyError` (a subcategory menu of an unknown category) is the `Failed` reaction.
- `Callbacks.AdminCallback`: approving a user with no entry stores only the subscription end (`setdefault(uid, {})`, Telegrambot/ui.py:445), so that user's later category, location and settings buttons raise `KeyError` (Telegrambot/ui.py:113, 127, 217, 247, 256, 285) until "reset filters" writes the lists back. The model gives such a user fresh preferences instead, and those buttons work.
- `Callbacks.AdminCallback`: `timedelta(days=30 * months)` and the addition to the current time raise `OverflowError` once the end would pass the year 9999 (about 96,000 months from now) or precede the year 1; the model's integer end never overflows.
- `Text.StripHashtags`: Python's `\w` also matches letters and digits of scripts other than Latin and Cyrillic (é, Greek, Arabic-Indic digits); the model's `IsWordChar` does not, so such a character ends a hashtag in the model but not in the bot.
- `Text.StripHashtagsRemovesAll`: holds for the narrower `\w` of `Text.StripHashtags` above.
- `Text.Tokens`: the case-insensitive letter class covers the capitals and the four Latin folds İ, ı, ſ and the Kelvin sign; any further case equivalence Python's regular expressions apply to `[а-яa-zё]` is not modelled.
- `Text.TokensSpellLetters`: holds for the letter class of `Text.Tokens` above.
- `Locator.Interested`: an empty matched stem reads as no match in the handler (Telegrambot/Botparsing.py:220-223), and which stem `next` picks from the set depends on hashing. The model assumes the stemmer maps no word to the empty string, which the Snowball stemmer never does for a non-empty word.
- `Locator.Heuristic`: a collected keyword that is not a string (a number, boolean or null inside a "keywords" list) makes `stem.lower()` raise `AttributeError` (Telegrambot/Botparsing.py:178), which ends the handler; the model skips that keyword and scans on. Under `Taxonomy.WellFormed` every keyword is a string and the two agree.
- `Locator.PrefilterHit`: a non-string keyword of a subscriber's choice raises at `word.lower()` inside `_stem` (Telegrambot/Botparsing.py:32, called from Telegrambot/Botparsing.py:206 and 213), ending the handler; the model reads it as no match. `Taxonomy.WellFormed` rules such keywords out.
- `Locator.Interested`: a selected subcategory of a category whose entry, or whose "subcategories" value, is not a dict makes `.get` raise (Telegrambot/Botparsing.py:212), ending the handler; the model reads that subcategory as an empty entry. `Taxonomy.WellFormed` demands dicts at both levels.
- `Taxonomy.HasSubcats`: a category entry that is not a dict makes `.get('subcategories')` raise (Telegrambot/ui.py:12), so the button press fails; the model reads such a category as one without subcategories. `Taxonomy.WellFormed` demands dict entries.
- `Delivery.Step`: the same lookup of a selected subcategory (Telegrambot/delivery.py:66) raises on a non-dict category entry or "subcategories" value outside any `try`, ending the whole fan-out, and with it `Delivery.Deliver` and `Pipeline.Handle`; the model reads the subcategory as an empty entry and goes on. `Taxonomy.WellFormed` rules this out.
- The analysis and dump scripts (`analyze_competitor.py`, `dump_competitor.py`) and the live classifier tests are not part of this model.

## Findings

| source | as written | input that shows it | evidently intended | confidence | as-written member | corrected member |
|---|---|---|---|---|---|---|
| Telegrambot/ai_utils.py:159-161 | the loop stops only when `len(unique_hits) == limit`, which is checked only after an append, so a limit of 0 never stops it | `_select_subset(["a"], "", limit=0)` returns `["a"]` | "up to `limit` elements", that is none for a limit of 0 | low, not executed; every caller passes 12 | Classifier.SubsetZeroLimitCounterexample | Classifier.Subset |

=== FILE: callbacks.dfy ===
/**
 * The bot's button and command handlers (Telegrambot/ui.py): decoding of the
 * callback data, the dispatch that changes a subscriber's preferences, the
 * admin-only approval, the payment-screenshot handler and the `/start`
 * cooldown.
 *
 * Sending, editing and answering messages are not modelled; each handler
 * reports what it shows as a `Reaction`.
 */
module Callbacks {
  import opened Wrappers
  import opened Text
  import opened Seqs
  import opened Json
  import opened Taxonomy
  import opened Subscribers
  import opened Menu
  import Locator

  /** The decoded callback data, one constructor per branch of `callback`, in the order tried. */
  datatype Command =
    | CatPage(page: Option<int>)
    | LocPage(page: Option<int>)
    | SubcatToggle(cat: string, sub: string)
    | MainMenu
    | Settings
    | CategoriesMenu
    | CatToggle(cat: string)
    | LocationsMenu
    | LocToggle(loc: string)
    | Close
    | MyFilters
    | ResetFilters
    | Plan
    | Sample
    | Faq
    | Subscribe
    | Paid
    | ApproveCmd(parts: seq<string>)
    | RejectCmd(parts: seq<string>)
    | Other

  /**
   * The `if`/`elif` chain of `callback`; a page number that `int` rejects is
   * `None`. A subcategory toggle reassembles into the data it came from.
   */
  function Decode(data: string): (c: Command)
    ensures c.CatPage? <==> "cat_page:" <= data
    ensures c.LocPage? <==> "loc_page:" <= data
    ensures c.SubcatToggle? ==> && ':' !in c.cat && ':' !in c.sub
                                && data == "subcat:" + c.cat + ":" + c.sub
  {
    if "cat_page:" <= data then
      assert data[0] != "loc_page:"[0];
      CatPage(ParseInt(data[9..]))
    else if "loc_page:" <= data then LocPage(ParseInt(data[9..]))
    else if "subcat:" <= data && !Contains(data, "_page:") && CountChar(data, ':') == 2 then
      var parts := Split(data, ':');
      SubcatParts(data);
      SubcatToggle(parts[1], parts[2])
    else DecodeRest(data)
  }

  /** Data of the form `subcat:<cat>:<sub>` splits into "subcat" and the two names. */
  lemma SubcatParts(data: string)
    requires "subcat:" <= data && CountChar(data, ':') == 2
    ensures var parts := Split(data, ':');
            |parts| == 3 && data == "subcat:" + parts[1] + ":" + parts[2]
  {
    var parts := Split(data, ':');
    SplitCount(data, ':');
    JoinSplit(data, ':');
    JoinThree(parts, ':');
    var rest := parts[1] + [':'] + parts[2];
    assert data == parts[0] + [':'] + rest;
    LeadingPiece(parts[0], rest, "subcat", data);
  }

  /** Three pieces joined by a separator. */
  lemma JoinThree(parts: seq<string>, c: char)
    requires |parts| == 3
    ensures Join(parts, c) == parts[0] + [c] + parts[1] + [c] + parts[2]
  {
    assert parts[1..][1..] == [parts[2]];
    assert Join(parts[1..], c) == parts[1] + [c] + parts[2];
  }

  /** A piece without `:` in front of a `:` is the part of the string before its first `:`. */
  lemma LeadingPiece(a: string, rest: string, head: string, data: string)
    requires data == a + [':'] + rest && ':' !in a
    requires head + ":" <= data && ':' !in head
    ensures a == head
  {
    var n := |a|;
    var m := |head|;
    assert data[n] == ':' && data[m] == ':';
    assert a == data[..n] && head == data[..m];
  }

  /** The rest of the chain, after the page arrows and the subcategory toggle. */
  function DecodeRest(data: string): (c: Command)
    ensures !c.CatPage? && !c.LocPage? && !c.SubcatToggle?
    ensures c.CatToggle? ==> data == "cat:" + c.cat
    ensures c.LocToggle? ==> data == "loc:" + c.loc
    ensures c.ApproveCmd? ==> "approve:" <= data && |c.parts| >= 1 && Join(c.parts, ':') == data
    ensures c.RejectCmd? ==> "reject:" <= data && |c.parts| >= 1 && Join(c.parts, ':') == data
  {
    JoinSplit(data, ':');
    if data == "menu:main" then MainMenu
    else if data == "menu:settings" then Settings
    else if data == "menu:categories" then CategoriesMenu
    else if "cat:" <= data then
      assert data == data[..4] + data[4..];
      CatToggle(data[4..])
    else if data == "menu:locations" then LocationsMenu
    else if "loc:" <= data then
      assert data == data[..4] + data[4..];
      LocToggle(data[4..])
    else if data == "menu:close" then Close
    else if data == "menu:my_filters" then MyFilters
    else if data == "menu:reset_filters" then ResetFilters
    else if data == "menu:plan" then Plan
    else if data == "menu:sample" then Sample
    else if data == "menu:faq" then Faq
    else if data == "menu:subscribe" then Subscribe
    else if data == "menu:paid" then Paid
    else if "approve:" <= data then ApproveCmd(Split(data, ':'))
    else if "reject:" <= data then RejectCmd(Split(data, ':'))
    else Other
  }

  /** The button of category `c` in the category menu decodes to toggling `c`. */
  lemma DecodeCategoryButton(c: string)
    ensures Decode(ItemData("cat", c)) == CatToggle(c)
  {
    var d := ItemData("cat", c);
    assert d[0] == 'c' && d[3] == ':';
    assert d[3] != "cat_page:"[3] && d[0] != "loc_page:"[0] && d[0] != "subcat:"[0];
    assert "cat:" <= d;
    assert d[4..] == c;
  }

  /** The button of location `l` in the location menu decodes to toggling `l`. */
  lemma DecodeLocationButton(l: string)
    ensures Decode(ItemData("loc", l)) == LocToggle(l)
  {
    var d := ItemData("loc", l);
    assert d[0] == 'l' && d[3] == ':';
    assert d[3] != "loc_page:"[3] && d[0] != "cat_page:"[0] && d[0] != "subcat:"[0] && d[0] != "cat:"[0];
    assert "loc:" <= d;
    assert d[4..] == l;
  }

  /** A subcategory button decodes to toggling that subcategory when neither name holds ':' or "_page:". */
  lemma DecodeSubcategoryButton(cat: string, sub: string)
    requires ':' !in cat && ':' !in sub
    requires !Contains(ItemData("subcat:" + cat, sub), "_page:")
    ensures Decode(ItemData("subcat:" + cat, sub)) == SubcatToggle(cat, sub)
  {
    var d := ItemData("subcat:" + cat, sub);
    assert d == "subcat" + [':'] + cat + [':'] + sub;
    SplitThree("subcat", cat, sub, ':');
    SplitCount(d, ':');
    assert CountChar(d, ':') == 2;
    assert "subcat:" <= d;
    assert !("cat_page:" <= d) by {
      assert d[0] != "cat_page:"[0];
    }
    assert !("loc_page:" <= d) by {
      assert d[0] != "loc_page:"[0];
    }
  }

  /** The page arrows of the category and location menus decode to the page they name. */
  lemma DecodePageButtons(p: int)
    ensures Decode(PageData("cat", p)) == CatPage(Some(p))
    ensures Decode(PageData("loc", p)) == LocPage(Some(p))
  {
    ParseIntToString(p);
    var c := PageData("cat", p);
    var l := PageData("loc", p);
    assert c[9..] == IntToString(p) && c[..9] == "cat_page:";
    assert l[9..] == IntToString(p) && l[..9] == "loc_page:";
    assert !("cat_page:" <= l) by {
      assert l[0] != "cat_page:"[0];
    }
  }

  /** Data starting with "approve:" reaches the approval branch. */
  lemma DecodeApprove(data: string)
    requires "approve:" <= data
    ensures Decode(data) == ApproveCmd(Split(data, ':'))
  {
    assert data[0] == 'a';
    SkipsPagesAndSubcat(data);
    assert !(data == "menu:main" || data == "menu:settings" || data == "menu:categories" || data == "menu:locations"
             || data == "menu:close" || data == "menu:my_filters" || data == "menu:reset_filters" || data == "menu:plan"
             || data == "menu:sample" || data == "menu:faq" || data == "menu:subscribe" || data == "menu:paid") by {
      assert data[0] != 'm';
    }
    assert !("cat:" <= data) && !("loc:" <= data);
  }

  /** Data starting with anything but `c`, `l` or `s` skips the page arrows and the subcategory toggle. */
  lemma SkipsPagesAndSubcat(data: string)
    requires |data| > 0 && data[0] != 'c' && data[0] != 'l' && data[0] != 's'
    ensures Decode(data) == DecodeRest(data)
  {
    assert !("cat_page:" <= data) && !("loc_page:" <= data) && !("subcat:" <= data);
  }

  /** The "I paid" button reaches its own branch. */
  lemma DecodePaid()
    ensures Decode("menu:paid") == Paid
  {
    var d := "menu:paid";
    assert d[0] == 'm';
    SkipsPagesAndSubcat(d);
    assert !("cat:" <= d) && !("loc:" <= d);
  }

  /** The settings button reaches its own branch. */
  lemma DecodeSettings()
    ensures Decode("menu:settings") == Settings
  {
    var d := "menu:settings";
    assert d[0] == 'm';
    SkipsPagesAndSubcat(d);
    assert !("cat:" <= d) && !("loc:" <= d);
  }

  /** The page arrows of a subcategory menu fall through every branch: they do nothing. */
  lemma SubcategoryPageButtonsIgnored(cat: string, p: int)
    ensures Decode(PageData("subcat:" + cat, p)) == Other
  {
    var d := PageData("subcat:" + cat, p);
    assert d[..7] == "subcat:";
    assert d[7 + |cat|..] == "_page:" + IntToString(p);
    ContainsAt(d, "_page:", 7 + |cat|);
    RestOfOther(d);
  }

  /** No command of the rest of the chain starts with `s`. */
  lemma RestOfOther(d: string)
    requires |d| > 0 && d[0] == 's'
    ensures DecodeRest(d) == Other
  {
  }

  // ---------------------------------------------------------------------------
  // Dispatch
  // ---------------------------------------------------------------------------

  const CategoriesTitle: string := "Категории (✅ = выбрано)"
  const LocationsTitle: string := "Локации (✅ = выбрано)"
  const SettingsKey: string := "menu:settings"

  /** What a handler shows in reply. */
  datatype Reaction =
    | ShowMenu(menu: ToggleMenu)
    | ShowStatus(categories: nat, locations: nat, status: Status)
    | ShowScreen
    | TrialStarted
    | FiltersReset
    | AwaitScreenshot
    | Denied
    | Approved(uid: string, until: int)
    | Rejected(uid: string)
    | Failed
    | Acknowledged

  datatype CallbackResult = CallbackResult(store: Store, reaction: Reaction)

  /** The categories the category menu ticks: chosen, or with a non-empty subcategory selection. */
  function CheckedCategories(names: seq<string>, p: Prefs): (r: seq<string>)
    ensures forall c :: c in r <==> c in names && (c in p.categories || |Selected(p, c)| > 0)
  {
    if |names| == 0 then []
    else
      assert names == [names[0]] + names[1..];
      var c := names[0];
      (if c in p.categories || |Selected(p, c)| > 0 then [c] else []) + CheckedCategories(names[1..], p)
  }

  /** `list(categories[cat]['subcategories'].keys())`, or None where that lookup raises. */
  function SubcategoryNames(t: seq<Member>, cat: string): Option<seq<string>> {
    match Get(t, cat)
    case Some(Dict(ms)) =>
      (match Get(ms, SubcategoriesKey)
       case Some(Dict(subs)) => Some(Names(subs))
       case _ => None)
    case _ => None
  }

  function SubcategoryMenu(t: seq<Member>, cat: string, p: Prefs): Reaction {
    match SubcategoryNames(t, cat)
    case Some(names) =>
      ShowMenu(BuildToggleMenu("Подкатегории «" + cat + "» (✅ = выбрано)", names, Selected(p, cat),
                               "subcat:" + cat, SettingsKey, 0))
    case None => Failed
  }

  function CategoryMenu(t: seq<Member>, p: Prefs): Reaction {
    ShowMenu(BuildToggleMenu(CategoriesTitle, Names(t), CheckedCategories(Names(t), p), "cat", SettingsKey, 0))
  }

  function LocationMenu(p: Prefs, page: int): Reaction {
    ShowMenu(BuildToggleMenu(LocationsTitle, Locator.CanonicalLocations, p.locations, "loc", SettingsKey, page))
  }

  /**
   * The change a non-admin command makes to the presser's own preferences.
   * `sent` says whether the Telegram calls a branch makes before it writes
   * went through: the settings screen edit for "menu:settings", the admin
   * notice and the answer for "I paid". Either button writes only then.
   */
  function OwnEffect(c: Command, t: seq<Member>, p: Prefs, now: int, sent: bool): (r: Prefs)
    requires !c.ApproveCmd? && !c.RejectCmd?
    ensures r.subscriptionEnd == p.subscriptionEnd
    ensures p.trialStart.Some? ==> r.trialStart == p.trialStart
    ensures r.trialExpiredNotified == p.trialExpiredNotified && r.paidExpiredNotified == p.paidExpiredNotified
    ensures c.Paid? && sent ==> r.awaitingScreenshot
    ensures c.Settings? && sent ==> r.trialStart.Some?
    ensures (c.Paid? || c.Settings?) && !sent ==> r == p
  {
    match c
    case SubcatToggle(cat, sub) => ToggleSubcat(p, cat, sub)
    case Settings => if sent then OpenSettings(p, now) else p
    case CatToggle(cat) => ToggleCategory(t, p, cat)
    case LocToggle(loc) => ToggleLocation(p, loc)
    case ResetFilters => Reset(p)
    case Paid => if sent then MarkPaid(p) else p
    case _ => p
  }

  /**
   * What a non-admin command shows, given the preferences before and after it.
   * A press fails exactly where the handler raises: a page number `int`
   * rejects, a subcategory menu whose lookup raises, or a failed call before
   * the settings or "I paid" write.
   */
  function OwnReaction(c: Command, t: seq<Member>, p: Prefs, p1: Prefs, sent: bool): (r: Reaction)
    requires !c.ApproveCmd? && !c.RejectCmd?
    ensures r == Failed <==>
              || ((c.CatPage? || c.LocPage?) && c.page.None?)
              || (c.SubcatToggle? && SubcategoryNames(t, c.cat).None?)
              || (c.CatToggle? && HasSubcats(t, c.cat) && SubcategoryNames(t, c.cat).None?)
              || ((c.Settings? || c.Paid?) && !sent)
    ensures r == TrialStarted <==> c.Settings? && sent && p.trialStart.None?
    ensures r == AwaitScreenshot <==> c.Paid? && sent
  {
    match c
    case CatPage(page) =>
      (match page
       case Some(n) => ShowMenu(BuildToggleMenu(CategoriesTitle, Names(t), p.categories, "cat", SettingsKey, n))
       case None => Failed)
    case LocPage(page) =>
      (match page
       case Some(n) => LocationMenu(p, n)
       case None => Failed)
    case SubcatToggle(cat, _) => SubcategoryMenu(t, cat, p1)
    case MainMenu => ShowStatus(|p.categories|, |p.locations|, StatusOf(p))
    case Settings => if !sent then Failed else if p.trialStart.None? then TrialStarted else ShowScreen
    case CategoriesMenu => CategoryMenu(t, p)
    case CatToggle(cat) => if HasSubcats(t, cat) then SubcategoryMenu(t, cat, p) else CategoryMenu(t, p1)
    case LocationsMenu => LocationMenu(p, 0)
    case LocToggle(_) => LocationMenu(p1, 0)
    case ResetFilters => FiltersReset
    case Paid => if sent then AwaitScreenshot else Failed
    case Other => Acknowledged
    case _ => ShowScreen
  }

  /**
   * `approve:<uid>:<months>` and `reject:<uid>`, already known to come from
   * the admin. A target without an entry gets fresh preferences here, where
   * the bot stores only the subscription end.
   */
  function AdminCallback(s: Store, c: Command, now: int): (r: CallbackResult)
    requires ValidStore(s)
    requires c.ApproveCmd? || c.RejectCmd?
    ensures ValidStore(r.store)
    ensures c.RejectCmd? ==> r.store == s
    ensures c.ApproveCmd? && |c.parts| == 3 && ParseInt(c.parts[2]).Some? ==>
              var months := ParseInt(c.parts[2]).value;
              && c.parts[1] in r.store.prefs
              && r.store.prefs[c.parts[1]] == Approve(Lookup(s, c.parts[1]), now, months)
              && r.reaction == Approved(c.parts[1], now + 30 * months * DaySeconds)
    ensures forall u :: u in s.prefs ==> u in r.store.prefs
    ensures forall u :: u in s.prefs && !(c.ApproveCmd? && |c.parts| == 3 && u == c.parts[1]) ==>
              r.store.prefs[u] == s.prefs[u]
    ensures r.reaction == Failed <==>
              || (c.ApproveCmd? && (|c.parts| != 3 || ParseInt(c.parts[2]).None?))
              || (c.RejectCmd? && |c.parts| != 2)
    ensures r.reaction == Failed ==> r.store == s
    ensures c.RejectCmd? && |c.parts| == 2 ==> r.reaction == Rejected(c.parts[1])
  {
    match c
    case ApproveCmd(parts) =>
      if |parts| != 3 then CallbackResult(s, Failed)
      else
        (match ParseInt(parts[2])
         case None => CallbackResult(s, Failed)
         case Some(months) =>
           var target := parts[1];
           var s2 := SetDefault(s, target);
           var p2 := Approve(s2.prefs[target], now, months);
           CallbackResult(Update(s2, target, p2), Approved(target, p2.subscriptionEnd.value)))
    case RejectCmd(parts) =>
      if |parts| != 2 then CallbackResult(s, Failed) else CallbackResult(s, Rejected(parts[1]))
  }

  /**
   * `callback(event)`: the sender's preferences are first created if missing,
   * then the decoded command runs. `admin` is `ADMIN_ID`; `now` is the time of
   * the press in seconds; `sent` is whether the Telegram calls made before
   * the settings or "I paid" write went through.
   */
  function Callback(s: Store, t: seq<Member>, sender: int, admin: int, data: string, now: int, sent: bool): (r: CallbackResult)
    requires ValidStore(s)
    ensures ValidStore(r.store)
    ensures IntToString(sender) in r.store.prefs
    ensures var c := Decode(data);
            !c.ApproveCmd? && !c.RejectCmd? ==>
              var p := Lookup(s, IntToString(sender));
              r.store == Update(SetDefault(s, IntToString(sender)), IntToString(sender), OwnEffect(c, t, p, now, sent))
    ensures (Decode(data).ApproveCmd? || Decode(data).RejectCmd?) && sender != admin ==>
              r == CallbackResult(SetDefault(s, IntToString(sender)), Denied)
  {
    var uid := IntToString(sender);
    var s1 := SetDefault(s, uid);
    var p := s1.prefs[uid];
    var c := Decode(data);
    if c.ApproveCmd? || c.RejectCmd? then
      if sender != admin then CallbackResult(s1, Denied) else AdminCallback(s1, c, now)
    else
      var p1 := OwnEffect(c, t, p, now, sent);
      CallbackResult(Update(s1, uid, p1), OwnReaction(c, t, p, p1, sent))
  }

  /** Only the admin's approval ever changes a stored subscription end. */
  lemma OnlyAdminSetsSubscription(s: Store, t: seq<Member>, sender: int, admin: int, data: string, now: int, sent: bool, u: string)
    requires ValidStore(s)
    requires sender != admin || !Decode(data).ApproveCmd?
    ensures Lookup(Callback(s, t, sender, admin, data, now, sent).store, u).subscriptionEnd == Lookup(s, u).subscriptionEnd
  {
  }

  /** A trial start, once stored, survives every button except the admin's approval. */
  lemma TrialStartSticks(s: Store, t: seq<Member>, sender: int, admin: int, data: string, now: int, sent: bool, u: string)
    requires ValidStore(s)
    requires Lookup(s, u).trialStart.Some?
    requires !Decode(data).ApproveCmd?
    ensures Lookup(Callback(s, t, sender, admin, data, now, sent).store, u).trialStart == Lookup(s, u).trialStart
  {
  }

  /** The approval button the admin is sent decodes to its three parts. */
  lemma DecodeApproveButton(target: string, months: int)
    requires ':' !in target
    ensures Decode("approve:" + target + ":" + IntToString(months)) == ApproveCmd(["approve", target, IntToString(months)])
  {
    var data := "approve:" + target + ":" + IntToString(months);
    var digits := IntToString(months);
    assert data == "approve" + [':'] + target + [':'] + digits;
    assert ':' !in digits by {
      forall i | 0 <= i < |digits| ensures digits[i] != ':' {
      }
    }
    SplitThree("approve", target, digits, ':');
    assert data[..8] == "approve:";
    DecodeApprove(data);
  }

  /** A successful approval leaves the target subscribed until `now` plus 30 days per month, trial removed. */
  lemma ApprovalEffect(s: Store, t: seq<Member>, admin: int, target: string, months: int, now: int, sent: bool)
    requires ValidStore(s)
    requires ':' !in target
    ensures var r := Callback(s, t, admin, admin, "approve:" + target + ":" + IntToString(months), now, sent);
            && r.reaction == Approved(target, now + 30 * months * DaySeconds)
            && StatusOf(Lookup(r.store, target)) == Subscribed(now + 30 * months * DaySeconds)
            && Lookup(r.store, target).trialStart.None?
  {
    var data := "approve:" + target + ":" + IntToString(months);
    DecodeApproveButton(target, months);
    ParseIntToString(months);
    var c := ApproveCmd(["approve", target, IntToString(months)]);
    var s1 := SetDefault(s, IntToString(admin));
    assert Callback(s, t, admin, admin, data, now, sent) == AdminCallback(s1, c, now);
  }

  /**
   * Opening the settings starts the trial of a user without one, at the time
   * of the press, once the settings screen is shown; if showing it fails,
   * the press changes nothing.
   */
  lemma SettingsStartsTrial(s: Store, t: seq<Member>, sender: int, admin: int, now: int, sent: bool)
    requires ValidStore(s)
    ensures var uid := IntToString(sender);
            var r := Callback(s, t, sender, admin, "menu:settings", now, sent);
            && (sent && Lookup(s, uid).trialStart.None? ==>
                  Lookup(r.store, uid).trialStart == Some(now) && r.reaction == TrialStarted)
            && (sent && Lookup(s, uid).trialStart.Some? ==>
                  Lookup(r.store, uid) == Lookup(s, uid) && r.reaction == ShowScreen)
            && (!sent ==> Lookup(r.store, uid) == Lookup(s, uid) && r.reaction == Failed)
  {
    DecodeSettings();
  }

  // ---------------------------------------------------------------------------
  // The payment screenshot and /start
  // ---------------------------------------------------------------------------

  datatype ScreenshotResult = ScreenshotResult(store: Store, forwarded: bool)

  /** `handle_payment_screenshot`: unknown users and users not awaiting a screenshot are ignored. */
  function Screenshot(s: Store, sender: int): (r: ScreenshotResult)
    requires ValidStore(s)
    ensures ValidStore(r.store)
    ensures r.forwarded <==> Lookup(s, IntToString(sender)).awaitingScreenshot
    ensures !r.forwarded ==> r.store == s
    ensures !Lookup(r.store, IntToString(sender)).awaitingScreenshot
  {
    var uid := IntToString(sender);
    var p := Lookup(s, uid);
    if p.awaitingScreenshot then
      var o := TakeScreenshot(p);
      ScreenshotResult(Update(s, uid, o.prefs), o.forwarded)
    else ScreenshotResult(s, false)
  }

  /**
   * Pressing "I paid", once the admin has been told, and then sending a
   * screenshot forwards it exactly once; if telling the admin failed, the
   * press changes nothing and a screenshot forwards only if one was already
   * awaited.
   */
  lemma PaidThenScreenshot(s: Store, t: seq<Member>, sender: int, admin: int, now: int, sent: bool)
    requires ValidStore(s)
    ensures var r := Callback(s, t, sender, admin, "menu:paid", now, sent);
            var first := Screenshot(r.store, sender);
            && (sent ==> first.forwarded && !Screenshot(first.store, sender).forwarded)
            && (!sent ==>
                  && r.reaction == Failed
                  && Lookup(r.store, IntToString(sender)) == Lookup(s, IntToString(sender))
                  && (first.forwarded <==> Lookup(s, IntToString(sender)).awaitingScreenshot))
  {
    DecodePaid();
  }

  const StartCooldown: int := 10

  datatype StartScreen = StartScreen(categories: nat, locations: nat, status: Status)
  datatype StartResult = StartResult(lastStart: map<string, int>, screen: Option<StartScreen>)

  /**
   * `cmd_start`: a `/start` within 10 seconds of the user's last answered one
   * is ignored without moving the timestamp; otherwise the welcome shows the
   * filter counts and the subscription status. It never creates preferences.
   */
  function Start(lastStart: map<string, int>, s: Store, sender: int, now: int): (r: StartResult)
    ensures var uid := IntToString(sender);
            var prev := if uid in lastStart then lastStart[uid] else 0;
            && (now - prev < StartCooldown ==> r == StartResult(lastStart, None))
            && (now - prev >= StartCooldown ==>
                  && r.lastStart == lastStart[uid := now]
                  && r.screen.Some?
                  && r.screen.value.status == StatusOf(Lookup(s, uid)))
  {
    var uid := IntToString(sender);
    var prev := if uid in lastStart then lastStart[uid] else 0;
    if now - prev < StartCooldown then StartResult(lastStart, None)
    else
      var p := Lookup(s, uid);
      StartResult(lastStart[uid := now], Some(StartScreen(|p.categories|, |p.locations|, StatusOf(p))))
  }

  /**
   * After an answered `/start` at `t0`, requests before `t0 + 10` are ignored,
   * and ignored requests do not push the window: the next one at or after
   * `t0 + 10` is answered.
   */
  lemma StartCooldownWindow(last: map<string, int>, s: Store, sender: int, t0: int, t1: int, t2: int)
    requires Start(last, s, sender, t0).screen.Some?
    requires t0 <= t1 < t0 + StartCooldown && t2 >= t0 + StartCooldown
    ensures var first := Start(last, s, sender, t0);
            var ignored := Start(first.lastStart, s, sender, t1);
            && ignored.screen.None?
            && Start(ignored.lastStart, s, sender, t2).screen.Some?
  {
  }
}

=== FILE: classifier.dfy ===
/**
 * The classifier gateway and its deterministic post-processing
 * (Telegrambot/ai_utils.py): result sanitising, confidence calibration,
 * candidate-list selection, the self-promotion override, the bounded
 * classification cache, and the heuristic `apply_overrides` rules.
 *
 * The language-model call is an oracle `ask` from the request key to an
 * answer; retries and rate limiting happen inside that oracle.
 */
module Classifier {
  import opened Wrappers
  import opened Text
  import opened Seqs

  /** Confidence from which a relevant result counts as accepted. */
  const ConfThreshold: real := 0.7
  const MaxExplanation: nat := 70
  const CacheCapacity: nat := 5000
  const SubsetLimit: nat := 12

  /**
   * The reply's "relevant" field. The source tests it both with `is True`
   * (sanitising) and by truthiness (the override and the handler), so a
   * truthy value other than `true` is kept apart.
   */
  datatype Relevance = IsTrue | OtherTruthy | Falsy {
    predicate Holds() {
      !Falsy?
    }
  }

  /** The JSON object the model answered with; `confidence` is None when absent or not a number. */
  datatype Reply = Reply(
    relevant: Relevance,
    category: Option<string>,
    region: Option<string>,
    explanation: string,
    confidence: Option<real>)

  /** A classification result dict. `borderline` true stands for the key being present. */
  datatype Classification = Classification(
    relevant: Relevance,
    category: Option<string>,
    region: Option<string>,
    explanation: string,
    confidence: real,
    accepted: bool,
    borderline: bool,
    overrideReason: Option<string>)

  // ---------------------------------------------------------------------------
  // _sanitize_result
  // ---------------------------------------------------------------------------

  function Min(a: real, b: real): real {
    if a <= b then a else b
  }

  /** `max(0.0, min(1.0, x))`. */
  function Clamp(x: real): (r: real)
    ensures 0.0 <= r <= 1.0
    ensures 0.0 <= x <= 1.0 ==> r == x
    ensures x < 0.0 ==> r == 0.0
    ensures x > 1.0 ==> r == 1.0
  {
    if x < 0.0 then 0.0 else if x > 1.0 then 1.0 else x
  }

  /** An explanation over 70 characters becomes its first 67 followed by "...". */
  function Truncate(e: string): (r: string)
    ensures |r| <= MaxExplanation
    ensures |e| <= MaxExplanation ==> r == e
    ensures |e| > MaxExplanation ==> |r| == MaxExplanation && e[..67] <= r && r[67..] == "..."
  {
    if |e| > MaxExplanation then e[..67] + "..." else e
  }

  /** `_sanitize_result`: clamps confidence, truncates the explanation, derives the flags. */
  function Sanitize(c: Classification): (r: Classification)
    ensures 0.0 <= r.confidence <= 1.0
    ensures 0.0 <= c.confidence <= 1.0 ==> r.confidence == c.confidence
    ensures |r.explanation| <= MaxExplanation
    ensures |c.explanation| <= MaxExplanation ==> r.explanation == c.explanation
    ensures r.accepted <==> r.relevant == IsTrue && r.confidence >= ConfThreshold
    ensures r.borderline <==> r.relevant == IsTrue && r.confidence < ConfThreshold
    ensures r.relevant == c.relevant && r.category == c.category && r.region == c.region
    ensures r.overrideReason == c.overrideReason
  {
    var conf := Clamp(c.confidence);
    c.(explanation := Truncate(c.explanation),
       confidence := conf,
       accepted := c.relevant == IsTrue && conf >= ConfThreshold,
       borderline := c.relevant == IsTrue && conf < ConfThreshold)
  }

  predicate Sanitized(c: Classification) {
    && 0.0 <= c.confidence <= 1.0
    && |c.explanation| <= MaxExplanation
    && (c.accepted <==> c.relevant == IsTrue && c.confidence >= ConfThreshold)
    && (c.borderline <==> c.relevant == IsTrue && c.confidence < ConfThreshold)
  }

  /** Sanitising a sanitised result changes nothing, so applying it twice is harmless. */
  lemma SanitizeIdempotent(c: Classification)
    ensures Sanitized(Sanitize(c))
    ensures Sanitized(c) ==> Sanitize(c) == c
    ensures Sanitize(Sanitize(c)) == Sanitize(c)
  {
  }

  /** The dict first handed to `_sanitize_result`: the reply with a non-numeric confidence read as 0.0. */
  function FromReply(reply: Reply): Classification {
    Classification(reply.relevant, reply.category, reply.region, reply.explanation,
                   reply.confidence.GetOr(0.0), false, false, None)
  }

  // ---------------------------------------------------------------------------
  // calibrate_confidence
  // ---------------------------------------------------------------------------

  /** `calibrate_confidence`: five buckets, anything below 0.5 kept but clamped. */
  function Calibrate(raw: real): (r: real)
    ensures 0.0 <= r <= 1.0
  {
    Clamp(if raw >= 0.9 then 0.92
          else if 0.8 <= raw < 0.9 then 0.85
          else if 0.6 <= raw < 0.8 then 0.7
          else if 0.5 <= raw < 0.6 then 0.55
          else raw)
  }

  /** Calibration never reverses the order of two confidences. */
  lemma CalibrateMonotone(x: real, y: real)
    requires x <= y
    ensures Calibrate(x) <= Calibrate(y)
  {
  }

  /** Calibrated values are fixed points: calibrating twice equals calibrating once. */
  lemma CalibrateIdempotent(x: real)
    ensures Calibrate(Calibrate(x)) == Calibrate(x)
  {
  }

  /** After calibration a result reaches the 0.7 threshold exactly when the raw confidence was at least 0.6. */
  lemma CalibrateThreshold(x: real)
    ensures Calibrate(x) >= ConfThreshold <==> x >= 0.6
  {
  }

  // ---------------------------------------------------------------------------
  // _select_subset
  // ---------------------------------------------------------------------------

  /** The options whose lower-cased form occurs in the lower-cased text, in option order. */
  function Hits(options: seq<string>, text: string): (r: seq<string>)
    ensures forall o :: o in r <==> o in options && Contains(Lower(text), Lower(o))
  {
    if |options| == 0 then []
    else
      var rest := Hits(options[1..], text);
      assert options == [options[0]] + options[1..];
      if Contains(Lower(text), Lower(options[0])) then [options[0]] + rest else rest
  }

  /**
   * The candidate list the prompt offers: the text's hits first, then the
   * remaining options, duplicates dropped, at most `limit` of them.
   */
  function Subset(options: seq<string>, text: string, limit: nat): (r: seq<string>)
    ensures |r| <= limit
    ensures Distinct(r)
    ensures forall o :: o in r ==> o in options
  {
    var all := FirstOccurrences(Hits(options, text) + options);
    Take(all, limit)
  }

  /** The ordering promise of the selection: hits in option order, then the other options in order. */
  lemma SubsetOrder(options: seq<string>, text: string, limit: nat)
    ensures Subset(options, text, limit)
         == Take(FirstOccurrences(Hits(options, text))
                 + FirstOccurrences(Without(options, Hits(options, text))), limit)
  {
    FirstOccurrencesAppend(Hits(options, text), options);
  }

  /** The selection as written: with a limit of 0 the `len == limit` test never fires. */
  function SubsetAsWritten(options: seq<string>, text: string, limit: nat): seq<string> {
    var all := FirstOccurrences(Hits(options, text) + options);
    if limit == 0 then all else Take(all, limit)
  }

  /** `_select_subset`, its loop over `hits + options` with the seen set and the early break. */
  method SelectSubset(options: seq<string>, text: string, limit: nat) returns (unique: seq<string>)
    ensures unique == SubsetAsWritten(options, text, limit)
    ensures limit > 0 ==> unique == Subset(options, text, limit)
  {
    var all := Hits(options, text) + options;
    unique := [];
    var seen: set<string> := {};
    var i := 0;
    while i < |all|
      invariant 0 <= i <= |all|
      invariant unique == FirstOccurrences(all[..i])
      invariant forall x :: x in seen <==> x in unique
      invariant limit > 0 ==> |unique| < limit
    {
      SnocPrefix(all, i);
      if all[i] !in seen {
        unique := unique + [all[i]];
        seen := seen + {all[i]};
      }
      i := i + 1;
      assert unique == FirstOccurrences(all[..i]);
      if |unique| == limit {
        EarlyExit(all, i, limit);
        return;
      }
    }
    assert all[..i] == all;
    assert unique == FirstOccurrences(all);
    assert limit > 0 ==> Take(unique, limit) == unique;
  }

  lemma SnocPrefix(all: seq<string>, i: nat)
    requires i < |all|
    ensures FirstOccurrences(all[..i + 1])
         == if all[i] in all[..i] then FirstOccurrences(all[..i]) else FirstOccurrences(all[..i]) + [all[i]]
  {
    assert all[..i + 1] == all[..i] + [all[i]];
    FirstOccurrencesSnoc(all[..i], all[i]);
  }

  /** Once `limit` distinct candidates are collected, they are the first `limit` of the whole list. */
  lemma EarlyExit(all: seq<string>, i: nat, limit: nat)
    requires i <= |all| && limit > 0 && |FirstOccurrences(all[..i])| == limit
    ensures FirstOccurrences(all[..i]) == Take(FirstOccurrences(all), limit)
  {
    FirstOccurrencesPrefix(all[..i], all[i..]);
    assert all[..i] + all[i..] == all;
    TakePrefix(FirstOccurrences(all[..i]), FirstOccurrences(all), limit);
  }

  /** With limit 0 the selection returns every candidate instead of none. */
  lemma SubsetZeroLimitCounterexample()
    ensures SubsetAsWritten(["a"], "", 0) == ["a"]
    ensures Subset(["a"], "", 0) == []
  {
    assert Hits(["a"], "") == [] by {
      assert !Contains(Lower(""), Lower("a"));
    }
    assert [] + ["a"] == ["a"];
    assert FirstOccurrences(["a"]) == ["a"] by {
      assert ["a"][..0] == [];
    }
  }

  // ---------------------------------------------------------------------------
  // Self-promotion override
  // ---------------------------------------------------------------------------

  /** The regular-expression detectors of ai_utils.py, applied to lower-cased text. */
  datatype Detectors = Detectors(contact: string -> bool, seller: string -> bool)

  const SelfPromoExplanation: string := "Self-promo с контактами"
  const SelfPromoReason: string := "self_promo"

  predicate IsSelfPromo(c: Classification, text: string, d: Detectors) {
    c.relevant.Holds() && d.contact(Lower(text)) && d.seller(Lower(text))
  }

  /** A relevant result for text with both a contact and seller wording is turned into a rejection. */
  function SelfPromo(c: Classification, text: string, d: Detectors): (r: Classification)
    ensures IsSelfPromo(c, text, d) ==>
              && r.relevant == Falsy && r.category.None? && !r.accepted && !r.borderline
              && r.confidence <= 0.4 && r.confidence <= Clamp(c.confidence)
              && r.overrideReason == Some(SelfPromoReason)
              && r.region == c.region
    ensures !IsSelfPromo(c, text, d) ==> r == c
  {
    if IsSelfPromo(c, text, d) then
      Sanitize(c.(relevant := Falsy,
                  explanation := SelfPromoExplanation,
                  confidence := Min(c.confidence, 0.4),
                  overrideReason := Some(SelfPromoReason),
                  category := None))
    else c
  }

  /** The self-promotion override is idempotent. */
  lemma SelfPromoIdempotent(c: Classification, text: string, d: Detectors)
    ensures SelfPromo(SelfPromo(c, text, d), text, d) == SelfPromo(c, text, d)
  {
  }

  // ---------------------------------------------------------------------------
  // The classification cache
  // ---------------------------------------------------------------------------

  /** The cache key: the text and the two candidate lists actually sent. */
  datatype Key = Key(text: string, categories: seq<string>, locations: seq<string>)

  /** A dict in insertion order: `order` lists the keys oldest first. */
  datatype Cache = Cache(order: seq<Key>, entries: map<Key, Classification>)

  ghost predicate ValidCache(c: Cache) {
    && Distinct(c.order)
    && (forall k :: k in c.entries <==> k in c.order)
    && |c.order| <= CacheCapacity
  }

  const EmptyCache: Cache := Cache([], map[])

  /** `_classify_cache.pop(next(iter(_classify_cache)))`: forgets the earliest-inserted key. */
  function EvictOldest(c: Cache): (r: Cache)
    requires ValidCache(c) && |c.order| > 0
    ensures ValidCache(r)
    ensures r.order == c.order[1..]
    ensures c.order[0] !in r.entries
    ensures forall k :: k in r.entries ==> k in c.entries && r.entries[k] == c.entries[k]
  {
    Cache(c.order[1..], c.entries - {c.order[0]})
  }

  /**
   * The cache write: evict the oldest entry when the cache is full, then store
   * the key (a key already present keeps its place in the insertion order).
   */
  function Put(c: Cache, k: Key, v: Classification): (r: Cache)
    requires ValidCache(c)
    ensures ValidCache(r)
    ensures k in r.entries && r.entries[k] == v
    ensures forall k' :: k' in r.entries && k' != k ==> k' in c.entries && r.entries[k'] == c.entries[k']
    ensures k !in c.entries && |c.order| < CacheCapacity ==> r.order == c.order + [k]
    ensures k !in c.entries && |c.order| >= CacheCapacity ==> r.order == c.order[1..] + [k]
  {
    var c1 := if |c.order| >= CacheCapacity then EvictOldest(c) else c;
    if k in c1.entries then
      Cache(c1.order, c1.entries[k := v])
    else
      assert Distinct(c1.order + [k]);
      Cache(c1.order + [k], c1.entries[k := v])
  }

  // ---------------------------------------------------------------------------
  // classify_text_with_ai
  // ---------------------------------------------------------------------------

  /**
   * What the retried model call produced for a request. `Unusable` is a reply
   * that makes `classify_text_with_ai` itself raise: a message without
   * content, JSON that is not an object, or an explanation on which `len`,
   * slicing or the appended "..." fails (a number, a long dict or list).
   */
  datatype Answer =
    | Answered(reply: Reply)
    | ApiError(message: string)
    | ParseError(message: string)
    | Unusable

  /** The classifier's result and cache, or the exception it raised with the cache it left. */
  datatype Classified =
    | Classified(result: Classification, cache: Cache, askedModel: bool)
    | Raised(cache: Cache, askedModel: bool)

  function ErrorResult(explanation: string): (r: Classification)
    ensures r.relevant == Falsy && r.category.None? && r.confidence == 0.0 && !r.accepted
  {
    Classification(Falsy, None, None, explanation, 0.0, false, false, None)
  }

  /** Sanitise, calibrate, sanitise again, then the self-promotion check. */
  function PostProcess(reply: Reply, text: string, d: Detectors): (r: Classification)
    ensures Sanitized(r)
    ensures r.region == reply.region
    ensures r.relevant == reply.relevant || r.relevant == Falsy
  {
    var first := Sanitize(FromReply(reply));
    var second := Sanitize(first.(confidence := Calibrate(first.confidence)));
    SelfPromo(second, text, d)
  }

  function CacheKey(text: string, categories: seq<string>, locations: seq<string>): Key {
    Key(text, Subset(categories, text, SubsetLimit), Subset(locations, text, SubsetLimit))
  }

  /** `classify_text_with_ai`. */
  function Classify(text: string, categories: seq<string>, locations: seq<string>,
                    cache: Cache, ask: Key -> Answer, d: Detectors): (out: Classified)
    requires ValidCache(cache)
    ensures ValidCache(out.cache)
    ensures var key := CacheKey(text, categories, locations);
            && (key in cache.entries ==> out == Classified(cache.entries[key], cache, false))
            && (key !in cache.entries ==> out.askedModel)
            && (out.Raised? <==> key !in cache.entries && ask(key).Unusable?)
            && (out.Raised? ==> out.cache == cache)
            && (key !in cache.entries && (ask(key).ApiError? || ask(key).ParseError?) ==>
                  out.cache == cache && out.result.relevant == Falsy && out.result.confidence == 0.0)
            && (key !in cache.entries && ask(key).Answered? ==>
                  && Sanitized(out.result)
                  && key in out.cache.entries && out.cache.entries[key] == out.result
                  && |out.cache.order| <= CacheCapacity)
  {
    var key := CacheKey(text, categories, locations);
    if key in cache.entries then
      Classified(cache.entries[key], cache, false)
    else
      match ask(key)
      case ApiError(e) => Classified(ErrorResult("OpenAI error: " + e), cache, true)
      case ParseError(e) => Classified(ErrorResult("Ошибка парсинга ответа ИИ: " + e), cache, true)
      case Unusable => Raised(cache, true)
      case Answered(reply) =>
        var result := PostProcess(reply, text, d);
        Classified(result, Put(cache, key, result), true)
  }

  /** Asking again with the same request is answered from the cache, without the model. */
  lemma ClassifyTwiceHitsCache(text: string, categories: seq<string>, locations: seq<string>,
                               cache: Cache, ask: Key -> Answer, ask2: Key -> Answer, d: Detectors)
    requires ValidCache(cache)
    requires ask(CacheKey(text, categories, locations)).Answered?
    ensures var first := Classify(text, categories, locations, cache, ask, d);
            && first.Classified?
            && Classify(text, categories, locations, first.cache, ask2, d) == Classified(first.result, first.cache, false)
  {
  }

  // ---------------------------------------------------------------------------
  // apply_overrides
  // ---------------------------------------------------------------------------

  const Transfer: string := "трансфер"
  const TransferIndicators: seq<string> :=
    ["из аэропорта", "в аэропорт", "встреча", "шаттл", "такси", "подвоз", "трансфер", "поездка",
     "водитель", "подвезти"]
  const SalesyWords: seq<string> := ["купить", "оформить", "предлагаем", "продаем", "продаю", "выгодно"]
  const QuestionIndicators: seq<string> :=
    ["сколько стоит", "нужна", "хочу", "подскажите", "как получить", "какая", "можно ли"]
  const InsuranceExplanation: string := "Реклама страховки"

  /** The insurance-advert rule: insurance, salesy wording, and no question wording. */
  predicate InsuranceAd(lower: string) {
    Contains(lower, "страховка") && ContainsAny(lower, SalesyWords) && !ContainsAny(lower, QuestionIndicators)
  }

  /** The category after the heuristic and transfer rules. */
  function OverrideCategory(c: Classification, lower: string, heuristic: Option<string>): Option<string> {
    if ContainsAny(lower, TransferIndicators) then Some(Transfer)
    else if Truthy(heuristic) then heuristic
    else c.category
  }

  /** `apply_overrides(cla, lower_text, category_heuristic)`. */
  function ApplyOverrides(c: Classification, lower: string, heuristic: Option<string>): (r: Classification)
    ensures ContainsAny(lower, TransferIndicators) ==> r.category == Some(Transfer)
    ensures !ContainsAny(lower, TransferIndicators) && Truthy(heuristic) ==> r.category == heuristic
    ensures !ContainsAny(lower, TransferIndicators) && !Truthy(heuristic) ==> r.category == c.category
    ensures r.relevant == c.relevant || r.relevant == Falsy
    ensures InsuranceAd(lower) ==> r.relevant == Falsy && r.explanation == InsuranceExplanation
    ensures !InsuranceAd(lower) ==> r.relevant == c.relevant && r.explanation == c.explanation
    ensures r.confidence >= c.confidence
    ensures r.confidence != c.confidence <==>
              Truthy(heuristic) && r.category == heuristic && c.confidence < 0.8
    ensures r.confidence != c.confidence ==> r.confidence == Min(0.85, c.confidence + 0.1)
    ensures r.region == c.region && r.accepted == c.accepted && r.borderline == c.borderline
    ensures r.overrideReason == c.overrideReason
  {
    var category := OverrideCategory(c, lower, heuristic);
    var c1 := c.(category := category);
    var c2 := if InsuranceAd(lower) then c1.(relevant := Falsy, explanation := InsuranceExplanation) else c1;
    if Truthy(heuristic) && category == heuristic && c.confidence < 0.8 then
      c2.(confidence := Min(0.85, c.confidence + 0.1))
    else c2
  }

  /** The agreement nudge lifts a result over the 0.7 threshold exactly from [0.6, 0.7). */
  lemma NudgeCrossesThreshold(c: Classification, lower: string, heuristic: Option<string>)
    requires Truthy(heuristic) && OverrideCategory(c, lower, heuristic) == heuristic
    requires c.confidence < ConfThreshold
    ensures ApplyOverrides(c, lower, heuristic).confidence >= ConfThreshold <==> c.confidence >= 0.6
  {
  }
}

=== FILE: dedup.dfy ===
/**
 * Message de-duplication in the listener (Telegrambot/Botparsing.py): a FIFO
 * queue of recent message ids mirrored by a set, bounded at 50000 ids, and
 * the daily cleaner that empties both at once.
 */
module Dedup {
  import opened Seqs

  const MaxSeenIds: nat := 50000

  /** `seen_queue` (oldest first) and `seen_set`. */
  datatype Seen = Seen(queue: seq<int>, members: set<int>)

  /** The set mirrors the queue, which holds each id once and at most 50000 of them. */
  ghost predicate Valid(s: Seen) {
    && Distinct(s.queue)
    && (forall id :: id in s.members <==> id in s.queue)
    && |s.queue| <= MaxSeenIds
  }

  const Empty: Seen := Seen([], {})

  datatype Observation = Observation(duplicate: bool, seen: Seen)

  /**
   * The de-duplication step of the handler: a known id is reported and
   * nothing changes; a new id is appended to both structures and, once the
   * queue exceeds the bound, the oldest id leaves both.
   */
  function Observe(s: Seen, id: int): (r: Observation)
    requires Valid(s)
    ensures Valid(r.seen)
    ensures r.duplicate <==> id in s.members
    ensures r.duplicate ==> r.seen == s
    ensures !r.duplicate ==> id in r.seen.members
    ensures !r.duplicate && |s.queue| < MaxSeenIds ==> r.seen.queue == s.queue + [id]
    ensures !r.duplicate && |s.queue| == MaxSeenIds ==>
              r.seen.queue == s.queue[1..] + [id] && s.queue[0] !in r.seen.members
  {
    if id in s.members then Observation(true, s)
    else
      var q := s.queue + [id];
      var m := s.members + {id};
      DistinctSnoc(s.queue, id);
      if |q| > MaxSeenIds then
        DistinctTail(q);
        Observation(false, Seen(q[1..], m - {q[0]}))
      else
        Observation(false, Seen(q, m))
  }

  /** A message seen once is a duplicate when it arrives again right after. */
  lemma RepeatIsDuplicate(s: Seen, id: int)
    requires Valid(s)
    ensures Observe(Observe(s, id).seen, id).duplicate
  {
  }

  /** Observing ids one after the other. */
  function ObserveAll(s: Seen, ids: seq<int>): (r: Seen)
    requires Valid(s)
    ensures Valid(r)
    decreases |ids|
  {
    if |ids| == 0 then s else ObserveAll(Observe(s, ids[0]).seen, ids[1..])
  }

  /** Without reaching the bound, every observed id is still remembered. */
  lemma {:induction false} ObserveAllRemembers(s: Seen, ids: seq<int>)
    requires Valid(s)
    requires |s.queue| + |ids| <= MaxSeenIds
    ensures forall id :: id in ids ==> id in ObserveAll(s, ids).members
    ensures forall id :: id in s.members ==> id in ObserveAll(s, ids).members
    decreases |ids|
  {
    if |ids| > 0 {
      var s1 := Observe(s, ids[0]).seen;
      assert |s1.queue| <= |s.queue| + 1;
      ObserveAllRemembers(s1, ids[1..]);
      assert ids == [ids[0]] + ids[1..];
    }
  }

  /** The cleaner's wipe of `seen_queue` and `seen_set`: afterwards no id is a duplicate. */
  function Wipe(s: Seen): (r: Seen)
    ensures Valid(r)
    ensures forall id :: !Observe(r, id).duplicate
  {
    Empty
  }
}

=== FILE: delivery.dfy ===
/**
 * `send_lead_to_users` (Telegrambot/delivery.py): the fan-out of one accepted
 * lead to every subscriber, in the order of the subscriptions dict.
 *
 * For each entry the paid subscription is checked first, then the trial; an
 * expired one is announced once and the entry is skipped. An entitled
 * subscriber then passes three gates: the region, the AI category and a
 * keyword of their choices found in the message. Failed lead sends are
 * collected and reported to the admin. A failed expiry notice is not caught:
 * it ends the whole fan-out.
 *
 * Sending is an oracle `send` that says whether Telegram accepted a message.
 */
module Delivery {
  import opened Wrappers
  import opened Text
  import opened Seqs
  import opened Json
  import opened Taxonomy
  import opened Subscribers

  /** The arguments of `send_lead_to_users` that shape what is sent. */
  datatype Lead = Lead(
    groupName: string,
    groupUsername: Option<string>,
    senderName: string,
    senderId: int,
    senderUsername: Option<string>,
    text: string,
    link: string,
    region: string,
    detected: Option<string>)

  // ---------------------------------------------------------------------------
  // Access: paid subscription first, then the trial
  // ---------------------------------------------------------------------------

  datatype Access = Entitled | TrialNotStarted | TrialExpired | PaidExpired

  /**
   * A stored subscription end decides alone: it lapses strictly after the end.
   * Without one, a trial that never started gives nothing, and a started one
   * lapses strictly more than two days after its start.
   */
  function AccessOf(p: Prefs, now: int): (a: Access)
    ensures a == PaidExpired <==> p.subscriptionEnd.Some? && now > p.subscriptionEnd.value
    ensures a == TrialNotStarted <==> p.subscriptionEnd.None? && p.trialStart.None?
    ensures a == TrialExpired <==>
              p.subscriptionEnd.None? && p.trialStart.Some? && now - p.trialStart.value > TrialSeconds
  {
    match p.subscriptionEnd
    case Some(end) => if now > end then PaidExpired else Entitled
    case None =>
      match p.trialStart
      case None => TrialNotStarted
      case Some(start) => if now - start > TrialSeconds then TrialExpired else Entitled
  }

  /** Delivery and the status line of `/start` agree: leads flow exactly while the status shows a date not yet passed. */
  lemma AccessMatchesStatus(p: Prefs, now: int)
    ensures AccessOf(p, now) == Entitled <==>
              match StatusOf(p)
              case Subscribed(until) => now <= until
              case OnTrial(until) => now <= until
              case NoTrial => false
  {
  }

  /** A lapsed subscription or trial stays lapsed as time goes on. */
  lemma LapseIsFinal(p: Prefs, now: int, later: int)
    requires now <= later
    requires AccessOf(p, now) == PaidExpired || AccessOf(p, now) == TrialExpired
    ensures AccessOf(p, later) == AccessOf(p, now)
  {
  }

  // ---------------------------------------------------------------------------
  // The three gates
  // ---------------------------------------------------------------------------

  /**
   * `kw.lower() in text.lower()` for one collected keyword: an empty keyword
   * occurs in every message, and a keyword written as in the message always
   * occurs in it.
   */
  predicate KeywordInText(text: string, v: Value): (r: bool)
    ensures v.Str? && v.s == "" ==> r
    ensures v.Str? && Contains(text, v.s) ==> r
    ensures r ==> v.Str? && |v.s| <= |text|
  {
    if v.Str? then
      ContainsTrivial(Lower(text));
      assert Contains(text, v.s) ==> Contains(Lower(text), Lower(v.s)) by {
        if Contains(text, v.s) { ContainsLower(text, v.s); }
      }
      assert Contains(Lower(text), Lower(v.s)) ==> |v.s| <= |text| by {
        if Contains(Lower(text), Lower(v.s)) { ContainsShorter(Lower(text), Lower(v.s)); }
      }
      Contains(Lower(text), Lower(v.s))
    else false
  }

  /**
   * The region is among the subscriber's locations; an AI category, when
   * there is one, is among their categories; and a keyword of a chosen
   * category or selected subcategory occurs in the message.
   */
  predicate PassesGates(t: seq<Member>, p: Prefs, lead: Lead) {
    && lead.region in p.locations
    && (Truthy(lead.detected) ==> lead.detected.value in p.categories)
    && SomeKeyword(t, p, (v: Value) => KeywordInText(lead.text, v))
  }

  /** The subscriber is owed the lead. */
  predicate Receives(t: seq<Member>, p: Prefs, lead: Lead, now: int) {
    AccessOf(p, now) == Entitled && PassesGates(t, p, lead)
  }

  /**
   * The AI category gate is strict: a subscriber who picked only subcategories
   * of the detected category, and not the category itself, never gets the lead.
   */
  lemma SubcategoriesAloneDoNotReceive(t: seq<Member>, p: Prefs, lead: Lead, now: int)
    requires Truthy(lead.detected) && lead.detected.value !in p.categories
    ensures !Receives(t, p, lead, now)
  {
  }

  /** A subscriber who chose the detected category and a keyword of it that occurs in the text passes all gates in that region. */
  lemma ChosenCategoryKeywordPasses(t: seq<Member>, p: Prefs, lead: Lead, i: nat)
    requires lead.region in p.locations
    requires Truthy(lead.detected) && lead.detected.value in p.categories
    requires i < |ExtractStems(Entry(t, lead.detected.value))|
    requires KeywordInText(lead.text, ExtractStems(Entry(t, lead.detected.value))[i])
    ensures PassesGates(t, p, lead)
  {
    var hit := (v: Value) => KeywordInText(lead.text, v);
    assert EntryHit(Entry(t, lead.detected.value), hit);
  }

  // ---------------------------------------------------------------------------
  // The lead message
  // ---------------------------------------------------------------------------

  const TMe: string := "https://t.me/"

  /** The clickable chat address: the public username, else the message link without its last path segment. */
  function ChatUrl(groupUsername: Option<string>, link: string): (r: string)
    ensures Truthy(groupUsername) ==> r == TMe + groupUsername.value
    ensures !Truthy(groupUsername) && TMe <= link ==>
              |r| < |link| && link == r + "/" + link[|r| + 1..] && '/' !in link[|r| + 1..]
    ensures !Truthy(groupUsername) && !(TMe <= link) ==> r == ""
  {
    if Truthy(groupUsername) then TMe + groupUsername.value
    else if TMe <= link then
      assert link[|TMe| - 1] == '/';
      var i := LastIndexOf(link, '/');
      assert link == link[..i] + "/" + link[i + 1..];
      link[..i]
    else ""
  }

  function GroupDisplay(url: string, name: string): string {
    if url != "" then "<a href=\"" + url + "\">" + name + "</a>" else name
  }

  function RegionTag(region: string): string {
    if region != "" then "#" + Lower(region) else ""
  }

  /** The AI category's tag, else the subscriber's first category's, else none. */
  function CategoryTag(detected: Option<string>, categories: seq<string>): (r: string)
    ensures r == "" <==> !Truthy(detected) && |categories| == 0
  {
    if Truthy(detected) then "#" + Lower(detected.value)
    else if |categories| > 0 then "#" + Lower(categories[0])
    else ""
  }

  /** The message before `.strip()`. */
  function RawBody(lead: Lead, p: Prefs): string {
    "🗨 " + GroupDisplay(ChatUrl(lead.groupUsername, lead.link), lead.groupName) + " | " + lead.senderName
    + "\n\n- " + lead.text + "\n\n"
    + RegionTag(lead.region) + " " + CategoryTag(lead.detected, p.categories)
  }

  /**
   * The lead text: the header line, the quoted message and the tags, with
   * trailing blanks removed. The header starts with a non-blank, so only the
   * end can lose characters, and only blank ones.
   */
  function LeadBody(lead: Lead, p: Prefs): (r: string)
    ensures var raw := RawBody(lead, p);
            && r <= raw
            && (forall j :: |r| <= j < |raw| ==> IsSpace(raw[j]))
            && (!IsSpace(raw[|raw| - 1]) ==> r == raw)
  {
    var raw := RawBody(lead, p);
    assert !IsSpace(raw[0]);
    Strip(raw)
  }

  datatype UrlButton = UrlButton(caption: string, url: string)

  /** The sender's profile: by username when there is one, else by id. */
  function UserUrl(senderUsername: Option<string>, senderId: int): (r: string)
    ensures Truthy(senderUsername) ==> r == TMe + senderUsername.value
    ensures !Truthy(senderUsername) ==> r == "tg://user?id=" + IntToString(senderId)
  {
    if Truthy(senderUsername) then TMe + senderUsername.value
    else "tg://user?id=" + IntToString(senderId)
  }

  /** The "Сообщение" and "Пользователь" buttons, only when the message has a link. */
  function LeadButtons(lead: Lead): (r: seq<UrlButton>)
    ensures lead.link == "" <==> r == []
    ensures r != [] ==> r == [UrlButton("Сообщение", lead.link),
                              UrlButton("Пользователь", UserUrl(lead.senderUsername, lead.senderId))]
  {
    if lead.link != "" then
      [UrlButton("Сообщение", lead.link), UrlButton("Пользователь", UserUrl(lead.senderUsername, lead.senderId))]
    else []
  }

  datatype Expiry = Paid | Trial

  /** What the bot tries to send. */
  datatype Outgoing =
    | ExpiryNotice(uid: int, kind: Expiry)
    | LeadMessage(uid: int, body: string, buttons: seq<UrlButton>)

  // ---------------------------------------------------------------------------
  // One subscriber
  // ---------------------------------------------------------------------------

  /** What happened to one entry of the subscriptions dict. */
  datatype Outcome =
    | NotNumeric
    | NoTrialYet
    | Lapsed(kind: Expiry, notified: bool)
    | NoticeFailed(kind: Expiry)
    | WrongRegion
    | WrongCategory
    | NoKeyword
    | Delivered(uid: int)
    | DeliveryFailed(uid: int)
  {
    predicate Attempted() { Delivered? || DeliveryFailed? }
  }

  datatype StepResult = StepResult(prefs: Prefs, outcome: Outcome)

  /** The notice flag for a kind of lapse. */
  function Notified(p: Prefs, kind: Expiry): bool {
    if kind == Paid then p.paidExpiredNotified else p.trialExpiredNotified
  }

  function SetNotified(p: Prefs, kind: Expiry): (r: Prefs)
    ensures Notified(r, kind)
    ensures r.subscriptionEnd == p.subscriptionEnd && r.trialStart == p.trialStart
    ensures r.categories == p.categories && r.locations == p.locations && r.subcats == p.subcats
  {
    if kind == Paid then p.(paidExpiredNotified := true) else p.(trialExpiredNotified := true)
  }

  /** A lapse is announced only while its flag is clear; a delivered notice sets the flag. */
  function Lapse(p: Prefs, uid: int, kind: Expiry, send: Outgoing -> bool): (r: StepResult)
  {
    if Notified(p, kind) then StepResult(p, Lapsed(kind, false))
    else if send(ExpiryNotice(uid, kind)) then StepResult(SetNotified(p, kind), Lapsed(kind, true))
    else StepResult(p, NoticeFailed(kind))
  }

  /** The body of the loop for the entry `u` with preferences `p`. */
  function Step(t: seq<Member>, lead: Lead, now: int, send: Outgoing -> bool, u: string, p: Prefs): (r: StepResult)
    ensures !r.outcome.Lapsed? ==> r.prefs == p
    ensures r.outcome.NotNumeric? <==> ParseInt(u).None?
    ensures r.outcome.NoTrialYet? <==> ParseInt(u).Some? && AccessOf(p, now) == TrialNotStarted
  {
    match ParseInt(u)
    case None => StepResult(p, NotNumeric)
    case Some(uid) =>
      match AccessOf(p, now)
      case PaidExpired => Lapse(p, uid, Paid, send)
      case TrialExpired => Lapse(p, uid, Trial, send)
      case TrialNotStarted => StepResult(p, NoTrialYet)
      case Entitled =>
        if lead.region !in p.locations then StepResult(p, WrongRegion)
        else if Truthy(lead.detected) && lead.detected.value !in p.categories then StepResult(p, WrongCategory)
        else if !SomeKeyword(t, p, (v: Value) => KeywordInText(lead.text, v)) then StepResult(p, NoKeyword)
        else if send(LeadMessage(uid, LeadBody(lead, p), LeadButtons(lead))) then StepResult(p, Delivered(uid))
        else StepResult(p, DeliveryFailed(uid))
  }

  /**
   * The lead is sent to an entry exactly when its key is an integer and the
   * subscriber is owed the lead, and the outcome records whether Telegram
   * accepted that very message.
   */
  lemma StepAttempts(t: seq<Member>, lead: Lead, now: int, send: Outgoing -> bool, u: string, p: Prefs)
    ensures var r := Step(t, lead, now, send, u, p);
            && (r.outcome.Attempted() <==> ParseInt(u).Some? && Receives(t, p, lead, now))
            && (r.outcome.Attempted() ==>
                  && r.outcome.uid == ParseInt(u).value
                  && (r.outcome.Delivered? <==> send(LeadMessage(r.outcome.uid, LeadBody(lead, p), LeadButtons(lead)))))
  {
  }

  /**
   * A lapse is announced only while its flag is clear, and an announced or
   * already-announced lapse leaves the flag set. Nothing but the flags ever
   * changes.
   */
  lemma StepNotices(t: seq<Member>, lead: Lead, now: int, send: Outgoing -> bool, u: string, p: Prefs)
    ensures var r := Step(t, lead, now, send, u, p);
            && (r.outcome.Lapsed? || r.outcome.NoticeFailed? ==> ParseInt(u).Some?)
            && ((r.outcome.Lapsed? && r.outcome.notified) || r.outcome.NoticeFailed? ==> !Notified(p, r.outcome.kind))
            && (r.outcome.Lapsed? ==> Notified(r.prefs, r.outcome.kind))
            && (r.outcome.Lapsed? || r.outcome.NoticeFailed? ==>
                  AccessOf(p, now) == (if r.outcome.kind == Paid then PaidExpired else TrialExpired))
            && r.prefs == p.(trialExpiredNotified := r.prefs.trialExpiredNotified,
                             paidExpiredNotified := r.prefs.paidExpiredNotified)
  {
  }

  /**
   * Conversely, every lapsed entry with an integer key and a clear flag is
   * sent its notice, whatever its regions, categories and keywords; the flag
   * is set exactly when Telegram accepts the notice.
   */
  lemma ExpiredGetsNotice(t: seq<Member>, lead: Lead, now: int, send: Outgoing -> bool, u: string, p: Prefs, kind: Expiry)
    requires ParseInt(u).Some?
    requires AccessOf(p, now) == (if kind == Paid then PaidExpired else TrialExpired)
    requires !Notified(p, kind)
    ensures var uid := ParseInt(u).value;
            Step(t, lead, now, send, u, p)
              == if send(ExpiryNotice(uid, kind)) then StepResult(SetNotified(p, kind), Lapsed(kind, true))
                 else StepResult(p, NoticeFailed(kind))
  {
    if kind == Trial {
      assert AccessOf(p, now) == TrialExpired;
    }
  }

  /** A user whose trial has not started gets nothing, and the entry is left as it was. */
  lemma NotStartedIsSkipped(t: seq<Member>, lead: Lead, now: int, send: Outgoing -> bool, u: string, p: Prefs)
    requires ParseInt(u).Some?
    requires AccessOf(p, now) == TrialNotStarted
    ensures Step(t, lead, now, send, u, p) == StepResult(p, NoTrialYet)
  {
  }

  // ---------------------------------------------------------------------------
  // The fan-out
  // ---------------------------------------------------------------------------

  /** `failed_uids`: the ids whose lead send failed, in the order tried. */
  function Failures(log: seq<Outcome>): (r: seq<int>)
    ensures |r| <= |log|
    ensures forall x :: x in r <==> DeliveryFailed(x) in log
  {
    if |log| == 0 then []
    else
      assert log == [log[0]] + log[1..];
      (if log[0].DeliveryFailed? then [log[0].uid] else []) + Failures(log[1..])
  }

  /** The loop body for one lead, as a function of the entry's key and preferences. */
  function Judge(t: seq<Member>, lead: Lead, now: int, send: Outgoing -> bool): (string, Prefs) -> StepResult {
    (u: string, p: Prefs) => Step(t, lead, now, send, u, p)
  }

  /** What the loop leaves behind: the dict of preferences and one outcome per visited entry. */
  datatype Run = Run(prefs: map<string, Prefs>, log: seq<Outcome>)

  /**
   * The loop over the entries `keys`, in order, `step` being its body. Each
   * entry is judged on the preferences it has when reached; a failed notice
   * ends the loop.
   */
  function Fanout(keys: seq<string>, prefs: map<string, Prefs>, step: (string, Prefs) -> StepResult): (r: Run)
    requires forall i :: 0 <= i < |keys| ==> keys[i] in prefs
    ensures r.prefs.Keys == prefs.Keys
    ensures |r.log| <= |keys|
    ensures |r.log| < |keys| ==> |r.log| > 0 && r.log[|r.log| - 1].NoticeFailed?
  {
    if |keys| == 0 then Run(prefs, [])
    else
      var u := keys[0];
      var st := step(u, prefs[u]);
      if st.outcome.NoticeFailed? then Run(prefs[u := st.prefs], [st.outcome])
      else
        var rest := Fanout(keys[1..], prefs[u := st.prefs], step);
        Run(rest.prefs, [st.outcome] + rest.log)
  }

  /** Only the last visited entry can be a failed notice. */
  lemma {:induction false} FanoutStops(keys: seq<string>, prefs: map<string, Prefs>, step: (string, Prefs) -> StepResult)
    requires forall i :: 0 <= i < |keys| ==> keys[i] in prefs
    ensures forall i :: 0 <= i < |Fanout(keys, prefs, step).log| - 1 ==> !Fanout(keys, prefs, step).log[i].NoticeFailed?
  {
    if |keys| > 0 {
      var u := keys[0];
      var st := step(u, prefs[u]);
      if !st.outcome.NoticeFailed? {
        var p2 := prefs[u := st.prefs];
        FanoutStops(keys[1..], p2, step);
        var rest := Fanout(keys[1..], p2, step);
        var r := Fanout(keys, prefs, step);
        assert r.log == [st.outcome] + rest.log;
        forall i | 0 < i < |r.log| - 1 ensures !r.log[i].NoticeFailed? {
          assert r.log[i] == rest.log[i - 1];
        }
      }
    }
  }

  /**
   * With distinct keys each visited entry is judged on its original
   * preferences, and its outcome and new preferences are that step's.
   */
  lemma {:induction false} FanoutVisit(keys: seq<string>, prefs: map<string, Prefs>, step: (string, Prefs) -> StepResult, i: nat)
    requires forall i :: 0 <= i < |keys| ==> keys[i] in prefs
    requires Distinct(keys)
    requires i < |Fanout(keys, prefs, step).log|
    ensures Fanout(keys, prefs, step).log[i] == step(keys[i], prefs[keys[i]]).outcome
    ensures Fanout(keys, prefs, step).prefs[keys[i]] == step(keys[i], prefs[keys[i]]).prefs
  {
    var u := keys[0];
    var st := step(u, prefs[u]);
    var r := Fanout(keys, prefs, step);
    if !st.outcome.NoticeFailed? {
      var p2 := prefs[u := st.prefs];
      var rest := Fanout(keys[1..], p2, step);
      assert r.log == [st.outcome] + rest.log;
      if i > 0 {
        assert keys[1..][i - 1] == keys[i] && keys[i] != u;
        FanoutVisit(keys[1..], p2, step, i - 1);
      } else {
        FanoutUnvisited(keys[1..], p2, step, u);
      }
    }
  }

  /** An entry the loop does not reach keeps its preferences. */
  lemma {:induction false} FanoutUnvisited(keys: seq<string>, prefs: map<string, Prefs>, step: (string, Prefs) -> StepResult, u: string)
    requires forall i :: 0 <= i < |keys| ==> keys[i] in prefs
    requires u in prefs && u !in keys
    ensures Fanout(keys, prefs, step).prefs[u] == prefs[u]
  {
    if |keys| > 0 {
      var v := keys[0];
      var st := step(v, prefs[v]);
      if !st.outcome.NoticeFailed? {
        FanoutUnvisited(keys[1..], prefs[v := st.prefs], step, u);
      }
    }
  }

  /** Entries after the last one visited keep their preferences. */
  lemma {:induction false} FanoutBeyond(keys: seq<string>, prefs: map<string, Prefs>, step: (string, Prefs) -> StepResult, i: nat)
    requires forall i :: 0 <= i < |keys| ==> keys[i] in prefs
    requires Distinct(keys)
    requires |Fanout(keys, prefs, step).log| <= i < |keys|
    ensures Fanout(keys, prefs, step).prefs[keys[i]] == prefs[keys[i]]
  {
    var u := keys[0];
    var st := step(u, prefs[u]);
    assert keys[i] != u;
    if !st.outcome.NoticeFailed? {
      var p2 := prefs[u := st.prefs];
      assert keys[1..][i - 1] == keys[i];
      FanoutBeyond(keys[1..], p2, step, i - 1);
    }
  }

  /** The order's entries are keys of the dict. */
  lemma OrderKeyed(s: Store)
    requires ValidStore(s)
    ensures forall i :: 0 <= i < |s.order| ==> s.order[i] in s.prefs
  {
    forall i | 0 <= i < |s.order| ensures s.order[i] in s.prefs {
      assert s.order[i] in s.order;
    }
  }

  /** The whole call: the loop, then the admin alert when some send failed and no notice failure cut the run short. */
  datatype Delivery = Delivery(store: Store, log: seq<Outcome>, failed: seq<int>, alertAdmin: bool)

  /** Whether the last visited entry's notice failed, which ends the call before the admin alert. */
  predicate Aborted(log: seq<Outcome>) {
    |log| > 0 && log[|log| - 1].NoticeFailed?
  }

  function Deliver(t: seq<Member>, s: Store, lead: Lead, now: int, send: Outgoing -> bool): (r: Delivery)
    requires ValidStore(s)
    ensures ValidStore(r.store) && r.store.order == s.order
    ensures |r.log| <= |s.order|
  {
    OrderKeyed(s);
    var run := Fanout(s.order, s.prefs, Judge(t, lead, now, send));
    var failed := Failures(run.log);
    Delivery(Store(s.order, run.prefs), run.log, failed, !Aborted(run.log) && |failed| > 0)
  }

  /** Every subscriber is visited unless a notice failed, and then the failing entry is the last visited. */
  lemma VisitsAllUnlessAborted(t: seq<Member>, s: Store, lead: Lead, now: int, send: Outgoing -> bool)
    requires ValidStore(s)
    ensures var r := Deliver(t, s, lead, now, send);
            (forall i :: 0 <= i < |r.log| ==> !r.log[i].NoticeFailed?) ==> |r.log| == |s.order|
  {
  }

  /**
   * The lead is attempted for a visited entry exactly when its key is an
   * integer and the subscriber is entitled and passes every gate.
   */
  lemma AttemptedExactlyForReceivers(t: seq<Member>, s: Store, lead: Lead, now: int, send: Outgoing -> bool, i: nat)
    requires ValidStore(s)
    requires i < |Deliver(t, s, lead, now, send).log|
    ensures Deliver(t, s, lead, now, send).log[i].Attempted() <==>
              ParseInt(s.order[i]).Some? && Receives(t, s.prefs[s.order[i]], lead, now)
  {
    OrderKeyed(s);
    FanoutVisit(s.order, s.prefs, Judge(t, lead, now, send), i);
    StepAttempts(t, lead, now, send, s.order[i], s.prefs[s.order[i]]);
  }

  /** The admin hears about failures exactly when some lead send failed and the loop ran to its end. */
  lemma AlertIffFailures(t: seq<Member>, s: Store, lead: Lead, now: int, send: Outgoing -> bool)
    requires ValidStore(s)
    ensures Deliver(t, s, lead, now, send).alertAdmin <==>
              && (exists x :: DeliveryFailed(x) in Deliver(t, s, lead, now, send).log)
              && forall i :: 0 <= i < |Deliver(t, s, lead, now, send).log| ==> !Deliver(t, s, lead, now, send).log[i].NoticeFailed?
  {
    OrderKeyed(s);
    var run := Fanout(s.order, s.prefs, Judge(t, lead, now, send));
    var log := run.log;
    var failed := Failures(log);
    FanoutStops(s.order, s.prefs, Judge(t, lead, now, send));
    assert (forall i :: 0 <= i < |log| ==> !log[i].NoticeFailed?) <==> !Aborted(log);
    assert |failed| > 0 <==> exists x :: DeliveryFailed(x) in log by {
      if |failed| > 0 {
        assert DeliveryFailed(failed[0]) in log;
      }
      if exists x :: DeliveryFailed(x) in log {
        var x :| DeliveryFailed(x) in log;
        assert x in failed;
      }
    }
  }

  /** The fan-out changes only the two notice flags. */
  lemma OnlyFlagsChange(t: seq<Member>, s: Store, lead: Lead, now: int, send: Outgoing -> bool, u: string)
    requires ValidStore(s)
    requires u in s.prefs
    ensures var q := Deliver(t, s, lead, now, send).store.prefs[u];
            var p := s.prefs[u];
            q == p.(trialExpiredNotified := q.trialExpiredNotified, paidExpiredNotified := q.paidExpiredNotified)
  {
    OrderKeyed(s);
    var step := Judge(t, lead, now, send);
    var r := Fanout(s.order, s.prefs, step);
    assert u in s.order;
    var i :| 0 <= i < |s.order| && s.order[i] == u;
    if i < |r.log| {
      FanoutVisit(s.order, s.prefs, step, i);
      StepNotices(t, lead, now, send, u, s.prefs[u]);
    } else {
      FanoutBeyond(s.order, s.prefs, step, i);
    }
  }

  /** An entry whose lapse was already announced is skipped without a notice. */
  lemma AnnouncedLapseIsQuiet(t: seq<Member>, lead: Lead, now: int, send: Outgoing -> bool, u: string, p: Prefs, kind: Expiry)
    requires ParseInt(u).Some?
    requires AccessOf(p, now) == (if kind == Paid then PaidExpired else TrialExpired)
    requires Notified(p, kind)
    ensures Step(t, lead, now, send, u, p).outcome == Lapsed(kind, false)
  {
  }

  /**
   * A lapse is announced at most once: an entry the first run found lapsed
   * is, when a later run reaches it, skipped without a notice.
   */
  lemma NoticesNotRepeated(t: seq<Member>, s: Store, lead: Lead, now: int, send: Outgoing -> bool,
                           lead2: Lead, later: int, send2: Outgoing -> bool, i: nat)
    requires ValidStore(s)
    requires now <= later
    requires i < |Deliver(t, s, lead, now, send).log|
    requires Deliver(t, s, lead, now, send).log[i].Lapsed?
    requires i < |Deliver(t, Deliver(t, s, lead, now, send).store, lead2, later, send2).log|
    ensures Deliver(t, Deliver(t, s, lead, now, send).store, lead2, later, send2).log[i]
         == Lapsed(Deliver(t, s, lead, now, send).log[i].kind, false)
  {
    var r := Deliver(t, s, lead, now, send);
    OrderKeyed(s);
    OrderKeyed(r.store);
    var u := s.order[i];
    var p := s.prefs[u];
    var st := Step(t, lead, now, send, u, p);
    FanoutVisit(s.order, s.prefs, Judge(t, lead, now, send), i);
    var q := r.store.prefs[u];
    StepNotices(t, lead, now, send, u, p);
    var kind := st.outcome.kind;
    LapseIsFinal(p, now, later);
    assert AccessOf(q, later) == AccessOf(p, later);
    AnnouncedLapseIsQuiet(t, lead2, later, send2, u, q, kind);
    FanoutVisit(s.order, r.store.prefs, Judge(t, lead2, later, send2), i);
  }
}

=== FILE: evaluation.dfy ===
/**
 * The offline evaluation rules of the classifier test script
 * (Telegrambot/test_classification.py): label normalisation, the post-hoc
 * category rules, the negative-clue softening and the generation of test
 * variations.
 */
module Evaluation {
  import opened Wrappers
  import opened Text
  import opened Seqs
  import Classifier

  // ---------------------------------------------------------------------------
  // normalize
  // ---------------------------------------------------------------------------

  /** `normalize(s)`: None stays None, a string is stripped and lower-cased. */
  function Normalize(s: Option<string>): (r: Option<string>)
    ensures r.None? <==> s.None?
    ensures r.Some? ==> |r.value| <= |s.value| && Lower(r.value) == r.value
    ensures r.Some? && |r.value| > 0 ==> !IsSpace(r.value[0]) && !IsSpace(r.value[|r.value| - 1])
    ensures s.Some? ==> exists y, i :: StripWitness(s.value, y, i) && r.value == Lower(y)
  {
    match s
    case None => None
    case Some(x) =>
      var y := Strip(x);
      assert exists y', i :: StripWitness(x, y', i) && Lower(y) == Lower(y') by {
        var i :| StripWitness(x, y, i);
      }
      LowerIdempotent(y);
      assert |y| > 0 ==> !IsSpace(Lower(y)[0]) && !IsSpace(Lower(y)[|y| - 1]) by {
        if |y| > 0 {
          LowerCharKeepsSpace(y[0]);
          LowerCharKeepsSpace(y[|y| - 1]);
        }
      }
      Some(Lower(y))
  }

  /** Normalising a normalised label changes nothing. */
  lemma NormalizeIdempotent(s: Option<string>)
    ensures Normalize(Normalize(s)) == Normalize(s)
  {
    if s.Some? {
      var y := Normalize(s).value;
      StripTrimmed(y);
    }
  }

  // ---------------------------------------------------------------------------
  // apply_posthoc_rules
  // ---------------------------------------------------------------------------

  const TransferTriggers: seq<string> :=
    ["из аэропорта", "в аэропорт", "шаттл", "такси", "подвезти", "поездка", "встреча"]
  const VnjTriggers: seq<string> :=
    ["внж", "гражданство", "резидентство", "документы", "иммиграция", "оформить внж", "как получить внж"]
  const InsuranceTriggers: seq<string> := ["страховк"]

  const TransferCategory: string := "трансфер"
  const VnjCategory: string := "внж"
  const InsuranceCategory: string := "страховка"

  /** A category label and the override note. */
  datatype Labels = Labels(category: Option<string>, override: Option<string>)

  /** `override or ""`. */
  function OrEmpty(o: Option<string>): string {
    if Truthy(o) then o.value else ""
  }

  /**
   * One post-hoc rule: a trigger in the text forces `target`, and the note is
   * appended to the override exactly when that changes the category.
   */
  function Rule(low: string, triggers: seq<string>, target: string, note: string, l: Labels): (r: Labels)
    ensures !ContainsAny(low, triggers) ==> r == l
    ensures ContainsAny(low, triggers) ==> r.category == Some(target)
    ensures r.override != l.override ==> l.category != r.category
    ensures l.category != r.category ==> r.override == Some(OrEmpty(l.override) + note)
  {
    if ContainsAny(low, triggers) then
      if l.category != Some(target) then Labels(Some(target), Some(OrEmpty(l.override) + note))
      else Labels(Some(target), l.override)
    else l
  }

  /** `apply_posthoc_rules(text, category, region, override)`; the region is accepted and ignored. */
  function ApplyPosthocRules(text: string, category: Option<string>, region: Option<string>,
                             override: Option<string>): (r: Labels)
    ensures (!ContainsAny(Lower(text), TransferTriggers) && !ContainsAny(Lower(text), VnjTriggers)
             && !ContainsAny(Lower(text), InsuranceTriggers)) ==> r == Labels(category, override)
  {
    var low := Lower(text);
    var l1 := Rule(low, TransferTriggers, TransferCategory, " post-hoc transfer override", Labels(category, override));
    var l2 := Rule(low, VnjTriggers, VnjCategory, " post-hoc внж override", l1);
    Rule(low, InsuranceTriggers, InsuranceCategory, " post-hoc страховка override", l2)
  }

  /**
   * The rules run transfer, then внж, then страховка, so the last rule whose
   * trigger occurs decides the category; any text mentioning insurance ends
   * in the insurance category.
   */
  lemma LastTriggerWins(text: string, category: Option<string>, region: Option<string>, override: Option<string>)
    ensures var r := ApplyPosthocRules(text, category, region, override);
            var low := Lower(text);
            && (Contains(low, "страховк") ==> r.category == Some(InsuranceCategory))
            && (!Contains(low, "страховк") && ContainsAny(low, VnjTriggers) ==> r.category == Some(VnjCategory))
            && ((!Contains(low, "страховк") && !ContainsAny(low, VnjTriggers) && ContainsAny(low, TransferTriggers))
                ==> r.category == Some(TransferCategory))
  {
    var low := Lower(text);
    if Contains(low, "страховк") {
      assert "страховк" in InsuranceTriggers;
    } else {
      assert !ContainsAny(low, InsuranceTriggers);
    }
  }

  /** The region argument plays no part. */
  lemma RegionIgnored(text: string, category: Option<string>, r1: Option<string>, r2: Option<string>,
                      override: Option<string>)
    ensures ApplyPosthocRules(text, category, r1, override) == ApplyPosthocRules(text, category, r2, override)
  {
  }

  /** The override note changes only when some rule actually moved the category. */
  lemma OverrideOnlyOnChange(text: string, category: Option<string>, region: Option<string>, override: Option<string>)
    ensures var low := Lower(text);
            var l1 := Rule(low, TransferTriggers, TransferCategory, " post-hoc transfer override", Labels(category, override));
            var l2 := Rule(low, VnjTriggers, VnjCategory, " post-hoc внж override", l1);
            var r := ApplyPosthocRules(text, category, region, override);
            r.override != override ==> category != l1.category || l1.category != l2.category || l2.category != r.category
  {
  }

  // ---------------------------------------------------------------------------
  // apply_negative_clues
  // ---------------------------------------------------------------------------

  const NegativeClues: seq<string> :=
    ["думаю", "просто смотрю", "пока не готов", "рассматриваю", "не готов", "пока не буду"]
  const SoftenedCategories: seq<string> := ["недвижимость", "аренда", "аренда авто", "трансфер", "экскурсии"]

  /**
   * `apply_negative_clues(text, relevant, category)`: a hesitant wording
   * turns a positive verdict negative, for five categories only; it never
   * turns a negative verdict positive. `relevant` is whatever `get("relevant")`
   * gave, tested only for truthiness, so any other value comes back as it was.
   */
  function ApplyNegativeClues(text: string, relevant: Classifier.Relevance, category: Option<string>): (r: Classifier.Relevance)
    ensures !relevant.Holds() ==> r == relevant
    ensures r != relevant <==>
              relevant.Holds() && ContainsAny(Lower(text), NegativeClues) && category.Some?
              && category.value in SoftenedCategories
    ensures r != relevant ==> r == Classifier.Falsy
  {
    if ContainsAny(Lower(text), NegativeClues) && relevant.Holds() && category.Some? && category.value in SoftenedCategories
    then Classifier.Falsy
    else relevant
  }

  // ---------------------------------------------------------------------------
  // generate_variations
  // ---------------------------------------------------------------------------

  /** The expected labels of a test case. */
  datatype Expected = Expected(relevant: bool, category: Option<string>, region: Option<string>)

  /**
   * A test text with its expected labels. The de-duplication key of the
   * source is the text with the three labels, so two cases share a key
   * exactly when they are equal.
   */
  datatype Case = Case(text: string, expected: Expected)

  const Pondering: string := " пока просто рассматриваю"

  /** The base case mentions renting ("снимать" or "снять"). */
  predicate AboutRenting(text: string) {
    Contains(Lower(text), "снимать") || Contains(Lower(text), "снять")
  }

  /** The hesitant variant of a renting request, expected non-relevant. */
  function Hesitant(c: Case): Case {
    Case(c.text + Pondering, c.expected.(relevant := false))
  }

  /**
   * The candidates a base case offers, in the order the source tries them:
   * the case itself, the "хочу узнать" → "подскажите" rewording, the
   * "нужен" → "хочу" rewording (both of the lower-cased text), and the
   * hesitant variant.
   */
  function Candidates(c: Case): (r: seq<Case>)
    ensures 1 <= |r| <= 4 && r[0] == c
    ensures AboutRenting(c.text) ==> r[|r| - 1] == Hesitant(c)
    ensures !AboutRenting(c.text) ==> |r| <= 3 && forall x :: x in r ==> x.expected == c.expected
    ensures Contains(Lower(c.text), "хочу узнать") ==>
              Case(ReplaceAll(Lower(c.text), "хочу узнать", "подскажите"), c.expected) in r
    ensures Contains(Lower(c.text), "нужен") ==> Case(ReplaceAll(Lower(c.text), "нужен", "хочу"), c.expected) in r
    ensures |r| == 1 + (if Contains(Lower(c.text), "хочу узнать") then 1 else 0)
                     + (if Contains(Lower(c.text), "нужен") then 1 else 0)
                     + (if AboutRenting(c.text) then 1 else 0)
  {
    var low := Lower(c.text);
    [c]
    + (if Contains(low, "хочу узнать") then [Case(ReplaceAll(low, "хочу узнать", "подскажите"), c.expected)] else [])
    + (if Contains(low, "нужен") then [Case(ReplaceAll(low, "нужен", "хочу"), c.expected)] else [])
    + (if AboutRenting(c.text) then [Hesitant(c)] else [])
  }

  /** Every candidate of every base case, in order. */
  function AllCandidates(base: seq<Case>): (r: seq<Case>)
    ensures |r| <= 4 * |base|
    ensures forall c :: c in base ==> c in r
  {
    if |base| == 0 then []
    else
      var init := base[..|base| - 1];
      var last := base[|base| - 1];
      assert base == init + [last];
      AllCandidates(init) + Candidates(last)
  }

  /**
   * `generate_variations(base_tests)`: the candidates of all base cases, each
   * key kept at its first appearance.
   */
  method GenerateVariations(base: seq<Case>) returns (variants: seq<Case>)
    ensures variants == FirstOccurrences(AllCandidates(base))
    ensures Distinct(variants)
    ensures |variants| <= 4 * |base|
    ensures forall c :: c in base ==> c in variants
    ensures forall c :: c in base && AboutRenting(c.text) ==> Hesitant(c) in variants
  {
    variants := [];
    var seen: set<Case> := {};
    var i := 0;
    while i < |base|
      invariant 0 <= i <= |base|
      invariant variants == FirstOccurrences(AllCandidates(base[..i]))
      invariant forall x :: x in seen <==> x in variants
    {
      assert base[..i + 1][..i] == base[..i];
      assert AllCandidates(base[..i + 1]) == AllCandidates(base[..i]) + Candidates(base[i]);
      variants, seen := KeepNew(variants, seen, AllCandidates(base[..i]), Candidates(base[i]));
      i := i + 1;
    }
    assert base[..i] == base;
    forall c | c in base && AboutRenting(c.text)
      ensures Hesitant(c) in variants
    {
      HesitantCandidate(base, c);
    }
  }

  /**
   * The inner loop of `generate_variations`: each candidate whose key is not
   * yet in `seen` is appended and its key recorded.
   */
  method KeepNew(variants: seq<Case>, seen: set<Case>, done: seq<Case>, cands: seq<Case>)
    returns (kept: seq<Case>, seen': set<Case>)
    requires variants == FirstOccurrences(done)
    requires forall x :: x in seen <==> x in variants
    ensures kept == FirstOccurrences(done + cands)
    ensures forall x :: x in seen' <==> x in kept
  {
    kept, seen' := variants, seen;
    var j := 0;
    assert done + cands[..0] == done;
    while j < |cands|
      invariant 0 <= j <= |cands|
      invariant kept == FirstOccurrences(done + cands[..j])
      invariant forall x :: x in seen' <==> x in kept
    {
      var x := cands[j];
      FirstOccurrencesSnoc(done + cands[..j], x);
      assert done + cands[..j + 1] == (done + cands[..j]) + [x];
      if x !in seen' {
        kept := kept + [x];
        seen' := seen' + {x};
      }
      j := j + 1;
    }
    assert cands[..j] == cands;
  }

  /** A renting case's hesitant variant is among the candidates. */
  lemma {:induction false} HesitantCandidate(base: seq<Case>, c: Case)
    requires c in base && AboutRenting(c.text)
    ensures Hesitant(c) in AllCandidates(base)
  {
    var init := base[..|base| - 1];
    var last := base[|base| - 1];
    assert base == init + [last];
    if c == last {
      assert Hesitant(c) in Candidates(last);
    } else {
      HesitantCandidate(init, c);
    }
  }

  /** The hesitant variant's lower-cased text mentions "рассматриваю". */
  lemma HesitantMentionsPondering(c: Case)
    ensures Contains(Lower(Hesitant(c).text), "рассматриваю")
  {
    HesitantText(c);
    ContainsLowerSuffix(c.text + " пока просто ", "рассматриваю");
  }

  lemma HesitantText(c: Case)
    ensures Hesitant(c).text == (c.text + " пока просто ") + "рассматриваю"
  {
  }

  /** The hesitant wording is itself a negative clue, so the variant's text would be softened. */
  lemma HesitantIsNegative(c: Case)
    ensures ContainsAny(Lower(Hesitant(c).text), NegativeClues)
  {
    HesitantMentionsPondering(c);
    ContainsOneOf(Lower(Hesitant(c).text), NegativeClues, "рассматриваю");
  }
}

=== FILE: json.dfy ===
/**
 * The category taxonomy as loaded from JSON, and `extract_stems`
 * (Telegrambot/filters.py), the recursive walk that collects every keyword
 * of a category together with those of its nested subcategories.
 */
module Json {
  import opened Wrappers

  /** A JSON value. An object is a Python dict: its members in insertion order, keys unique. */
  datatype Value =
    | Null
    | Bool(b: bool)
    | Num(n: real)
    | Str(s: string)
    | List(items: seq<Value>)
    | Dict(members: seq<Member>)

  datatype Member = Member(key: string, value: Value)

  const KeywordsKey: string := "keywords"
  const SubcategoriesKey: string := "subcategories"

  /** `d.get(key)` on a dict. */
  function Get(ms: seq<Member>, key: string): (r: Option<Value>)
    ensures r.None? <==> forall i :: 0 <= i < |ms| ==> ms[i].key != key
    ensures r.Some? ==> exists i :: 0 <= i < |ms| && ms[i] == Member(key, r.value)
  {
    if |ms| == 0 then None
    else if ms[0].key == key then Some(ms[0].value)
    else Get(ms[1..], key)
  }

  /** No two members share a key, as in any dict `json.load` returns. */
  predicate UniqueKeys(ms: seq<Member>) {
    forall i, j :: 0 <= i < j < |ms| ==> ms[i].key != ms[j].key
  }

  /** With unique keys, `get` finds every member under its own key. */
  lemma {:induction false} GetUnique(ms: seq<Member>, i: nat)
    requires UniqueKeys(ms)
    requires i < |ms|
    ensures Get(ms, ms[i].key) == Some(ms[i].value)
  {
    if i > 0 {
      assert ms[0].key != ms[i].key;
      assert UniqueKeys(ms[1..]) by {
        forall a, b | 0 <= a < b < |ms| - 1 ensures ms[1..][a].key != ms[1..][b].key {
          assert ms[1..][a] == ms[a + 1] && ms[1..][b] == ms[b + 1];
        }
      }
      GetUnique(ms[1..], i - 1);
      assert ms[1..][i - 1] == ms[i];
    }
  }

  /** `v.get(key, {})` where `v` is expected to be a dict; anything else reads as empty. */
  function GetOrEmpty(v: Value, key: string): Value {
    match v
    case Dict(ms) => Get(ms, key).GetOr(Dict([]))
    case _ => Dict([])
  }

  /** The items of a list-valued "keywords" member, copied verbatim; nothing for any other shape. */
  function KeywordItems(ms: seq<Member>): seq<Value> {
    match Get(ms, KeywordsKey)
    case Some(List(items)) => items
    case _ => []
  }

  /**
   * `extract_stems(entry)`: a string is its own keyword, null, booleans and
   * numbers have none, and a dict starts with its own keyword list.
   */
  function ExtractStems(v: Value): (r: seq<Value>)
    ensures v.Str? ==> r == [v]
    ensures v.Null? || v.Bool? || v.Num? ==> r == []
    ensures v.Dict? ==> KeywordItems(v.members) <= r
    decreases v
  {
    match v
    case Dict(ms) => KeywordItems(ms) + ExtractMembers(ms)
    case List(items) => ExtractAll(items)
    case Str(_) => [v]
    case _ => []
  }

  /** The recursion into the items of a list. */
  function ExtractAll(items: seq<Value>): seq<Value>
    decreases items
  {
    if |items| == 0 then [] else ExtractStems(items[0]) + ExtractAll(items[1..])
  }

  /** One dict member of the loop over `entry.items()`: the "keywords" key is skipped. */
  function ExtractMember(m: Member): seq<Value>
    decreases m
  {
    if m.key == KeywordsKey then [] else ExtractStems(m.value)
  }

  function ExtractMembers(ms: seq<Member>): seq<Value>
    decreases ms
  {
    if |ms| == 0 then [] else ExtractMember(ms[0]) + ExtractMembers(ms[1..])
  }

  /** The values of the members other than "keywords", in dict order. */
  function OtherValues(ms: seq<Member>): (r: seq<Value>)
    ensures |r| <= |ms|
  {
    if |ms| == 0 then []
    else (if ms[0].key == KeywordsKey then [] else [ms[0].value]) + OtherValues(ms[1..])
  }

  /** A list yields the concatenation, in order, of what its parts yield. */
  lemma {:induction false} ExtractListAppend(a: seq<Value>, b: seq<Value>)
    ensures ExtractStems(List(a + b)) == ExtractStems(List(a)) + ExtractStems(List(b))
    decreases |a|
  {
    if |a| > 0 {
      assert (a + b)[1..] == a[1..] + b;
      ExtractListAppend(a[1..], b);
    } else {
      assert a + b == b;
    }
  }

  /** A one-item list yields exactly what its item yields. */
  lemma ExtractListSingleton(x: Value)
    ensures ExtractStems(List([x])) == ExtractStems(x)
  {
    assert ExtractAll([x]) == ExtractStems(x) + ExtractAll([]);
  }

  lemma {:induction false} ExtractMembersOther(ms: seq<Member>)
    ensures ExtractMembers(ms) == ExtractAll(OtherValues(ms))
  {
    if |ms| > 0 {
      ExtractMembersOther(ms[1..]);
      var head := if ms[0].key == KeywordsKey then [] else [ms[0].value];
      ExtractListAppend(head, OtherValues(ms[1..]));
      if ms[0].key != KeywordsKey {
        ExtractListSingleton(ms[0].value);
      }
    }
  }

  /**
   * A dict yields the items of its "keywords" list first, then whatever the
   * other members yield, in dict order, as if they formed one list.
   */
  lemma ExtractDictSplit(ms: seq<Member>)
    ensures ExtractStems(Dict(ms)) == KeywordItems(ms) + ExtractStems(List(OtherValues(ms)))
  {
    ExtractMembersOther(ms);
  }

  /** A "keywords" value that is not a list contributes nothing at all. */
  lemma ExtractNonListKeywords(ms: seq<Member>)
    requires Get(ms, KeywordsKey).None? || !Get(ms, KeywordsKey).value.List?
    ensures ExtractStems(Dict(ms)) == ExtractStems(List(OtherValues(ms)))
  {
    ExtractMembersOther(ms);
  }

  // ---------------------------------------------------------------------------
  // Taxonomies whose keyword lists hold only strings
  // ---------------------------------------------------------------------------

  predicate AllStr(vs: seq<Value>) {
    forall i :: 0 <= i < |vs| ==> vs[i].Str?
  }

  /** Every "keywords" list anywhere inside `v` holds only strings. */
  predicate StringKeywords(v: Value)
    decreases v
  {
    match v
    case Dict(ms) => AllStr(KeywordItems(ms)) && MembersStringKeywords(ms)
    case List(items) => AllStringKeywords(items)
    case _ => true
  }

  predicate AllStringKeywords(items: seq<Value>)
    decreases items
  {
    |items| == 0 || (StringKeywords(items[0]) && AllStringKeywords(items[1..]))
  }

  predicate MemberStringKeywords(m: Member)
    decreases m
  {
    StringKeywords(m.value)
  }

  predicate MembersStringKeywords(ms: seq<Member>)
    decreases ms
  {
    |ms| == 0 || (MemberStringKeywords(ms[0]) && MembersStringKeywords(ms[1..]))
  }

  /** When every keyword list holds strings, the walk collects strings only. */
  lemma {:induction false} ExtractStrings(v: Value)
    requires StringKeywords(v)
    ensures AllStr(ExtractStems(v))
    decreases v
  {
    match v
    case Dict(ms) => ExtractMembersStrings(ms);
    case List(items) => ExtractAllStrings(items);
    case _ =>
  }

  lemma {:induction false} ExtractAllStrings(items: seq<Value>)
    requires AllStringKeywords(items)
    ensures AllStr(ExtractAll(items))
    decreases items
  {
    if |items| > 0 {
      ExtractStrings(items[0]);
      ExtractAllStrings(items[1..]);
    }
  }

  lemma {:induction false} ExtractMemberStrings(m: Member)
    requires MemberStringKeywords(m)
    ensures AllStr(ExtractMember(m))
    decreases m
  {
    if m.key != KeywordsKey {
      ExtractStrings(m.value);
    }
  }

  lemma {:induction false} ExtractMembersStrings(ms: seq<Member>)
    requires MembersStringKeywords(ms)
    ensures AllStr(ExtractMembers(ms))
    decreases ms
  {
    if |ms| > 0 {
      ExtractMemberStrings(ms[0]);
      ExtractMembersStrings(ms[1..]);
    }
  }

  /** Every member of a dict whose keyword lists hold strings has the same property. */
  lemma {:induction false} MembersStringKeywordsGet(ms: seq<Member>, key: string)
    requires MembersStringKeywords(ms)
    requires Get(ms, key).Some?
    ensures StringKeywords(Get(ms, key).value)
    decreases ms
  {
    if ms[0].key != key {
      MembersStringKeywordsGet(ms[1..], key);
    }
  }

  /** The text of a sequence of string values. */
  function Texts(vs: seq<Value>): (r: seq<string>)
    requires AllStr(vs)
    ensures |r| == |vs| && forall i :: 0 <= i < |vs| ==> vs[i] == Str(r[i])
  {
    if |vs| == 0 then [] else [vs[0].s] + Texts(vs[1..])
  }

  /** The keyword strings of a taxonomy entry. */
  function Keywords(v: Value): (r: seq<string>)
    requires StringKeywords(v)
    ensures |r| == |ExtractStems(v)|
    ensures forall i :: 0 <= i < |r| ==> ExtractStems(v)[i] == Str(r[i])
  {
    ExtractStrings(v);
    Texts(ExtractStems(v))
  }
}

=== FILE: locator.dfy ===
/**
 * The listener's matching steps (Telegrambot/Botparsing.py): the text used
 * for matching, the stems of its words, region detection over the alias
 * table (Telegrambot/config.py), the first-match heuristic category, and the
 * subscriber pre-filter.
 *
 * The Snowball stemmer and RapidFuzz's `is_similar(alias, s, threshold=60)`
 * are parameters.
 */
module Locator {
  import opened Wrappers
  import opened Text
  import opened Seqs
  import opened Json
  import opened Taxonomy
  import opened Subscribers

  datatype Alias = Alias(alias: string, region: string)

  /** `LOCATION_ALIAS`, in table order. */
  const LocationAlias: seq<Alias> := [
    Alias("анталия", "Анталия"),
    Alias("анталья", "Анталия"),
    Alias("кемер", "Кемер"),
    Alias("стамбул", "Стамбул"),
    Alias("белдиби", "Бельдиби"),
    Alias("бельдиби", "Бельдиби"),
    Alias("гейнюк", "Гёйнюк"),
    Alias("гёйнюк", "Гёйнюк"),
    Alias("манавгат", "Манавгат"),
    Alias("чамьюва", "Чамьюва"),
    Alias("турция", "Турция"),
    Alias("сиде", "Сиде")
  ]

  /** `sorted(set(LOCATION_ALIAS.values()))`. */
  const CanonicalLocations: seq<string> :=
    ["Анталия", "Бельдиби", "Гёйнюк", "Кемер", "Манавгат", "Сиде", "Стамбул", "Турция", "Чамьюва"]

  /** Code-point order on strings, the order of Python's `sorted`. */
  predicate Before(a: string, b: string) {
    || (|a| < |b| && a == b[..|a|])
    || (exists k :: 0 <= k < |a| && k < |b| && a[..k] == b[..k] && a[k] < b[k])
  }

  /** The canonical list holds each region of the alias table once, in sorted order. */
  lemma CanonicalLocationsSorted()
    ensures Distinct(CanonicalLocations)
    ensures forall i :: 0 <= i < |CanonicalLocations| - 1 ==> Before(CanonicalLocations[i], CanonicalLocations[i + 1])
    ensures forall r :: r in CanonicalLocations <==> exists a :: a in LocationAlias && a.region == r
  {
    CanonicalOrdered();
    CanonicalDistinct();
    CanonicalCovers();
  }

  /** A string whose first differing character is smaller comes first. */
  lemma BeforeAt(a: string, b: string, k: nat)
    requires k < |a| && k < |b| && a[..k] == b[..k] && a[k] < b[k]
    ensures Before(a, b)
  {
  }

  lemma CanonicalOrdered()
    ensures forall i :: 0 <= i < |CanonicalLocations| - 1 ==> Before(CanonicalLocations[i], CanonicalLocations[i + 1])
  {
    var c := CanonicalLocations;
    BeforeAt(c[0], c[1], 0);
    BeforeAt(c[1], c[2], 0);
    BeforeAt(c[2], c[3], 0);
    BeforeAt(c[3], c[4], 0);
    BeforeAt(c[4], c[5], 0);
    assert c[5][..1] == c[6][..1];
    BeforeAt(c[5], c[6], 1);
    BeforeAt(c[6], c[7], 0);
    BeforeAt(c[7], c[8], 0);
  }

  lemma CanonicalDistinct()
    ensures Distinct(CanonicalLocations)
  {
    var c := CanonicalLocations;
    var heads := ['А', 'Б', 'Г', 'К', 'М', 'С', 'С', 'Т', 'Ч'];
    assert forall i :: 0 <= i < |c| ==> c[i][0] == heads[i];
    assert c[5][1] != c[6][1];
  }

  lemma CanonicalCovers()
    ensures forall r :: r in CanonicalLocations <==> exists a :: a in LocationAlias && a.region == r
  {
    var c := CanonicalLocations;
    AliasRegionsCanonical();
    forall r | exists a :: a in LocationAlias && a.region == r
      ensures r in c
    {
      var a :| a in LocationAlias && a.region == r;
      var i :| 0 <= i < |LocationAlias| && LocationAlias[i] == a;
    }
    forall r | r in c
      ensures exists a :: a in LocationAlias && a.region == r
    {
      var i :| 0 <= i < |c| && c[i] == r;
      var k := [0, 4, 6, 2, 8, 11, 3, 10, 9][i];
      assert LocationAlias[k].region == r;
    }
  }

  /** Every region of the alias table is canonical. */
  lemma AliasRegionsCanonical()
    ensures forall i :: 0 <= i < |LocationAlias| ==> LocationAlias[i].region in CanonicalLocations
  {
    forall i | 0 <= i < |LocationAlias| ensures LocationAlias[i].region in CanonicalLocations {
      var k := [0, 0, 3, 6, 1, 1, 2, 2, 4, 8, 7, 5][i];
      assert CanonicalLocations[k] == LocationAlias[i].region;
    }
  }

  // ---------------------------------------------------------------------------
  // The text used for matching
  // ---------------------------------------------------------------------------

  /** Hashtags removed, then lower-cased. */
  function MatchText(text: string): (r: string)
    ensures |r| <= |text|
    ensures forall i :: !HashtagAt(r, i)
    ensures Lower(r) == r
    ensures '#' !in text ==> r == Lower(text)
  {
    var clean := StripHashtags(text);
    StripHashtagsRemovesAll(text);
    var r := Lower(clean);
    assert forall i :: HashtagAt(r, i) ==> HashtagAt(clean, i);
    LowerIdempotent(clean);
    r
  }

  /** `_stem(word)`: the stemmer applied to the lower-cased word. */
  function Stem(stemmer: string -> string, word: string): string {
    stemmer(Lower(word))
  }

  /** `{_stem(tok) for tok in WORD_RE.findall(lower_text)}`. */
  function MessageStems(stemmer: string -> string, lower: string): (r: set<string>)
    ensures forall w :: w in r <==> exists tok :: tok in Tokens(lower) && w == Stem(stemmer, tok)
  {
    set tok | tok in Tokens(lower) :: Stem(stemmer, tok)
  }

  /** Every stem of the message comes from a non-empty run of letters. */
  lemma MessageStemsFromLetters(stemmer: string -> string, lower: string, w: string)
    requires w in MessageStems(stemmer, lower)
    ensures exists tok :: tok in Tokens(lower) && |tok| > 0 && AllLetters(tok) && w == Stem(stemmer, tok)
  {
  }

  // ---------------------------------------------------------------------------
  // Region detection
  // ---------------------------------------------------------------------------

  /** `alias in hay or is_similar(alias, hay, threshold=60)`. */
  predicate AliasHit(alias: string, hay: string, similar: (string, string) -> bool) {
    Contains(hay, alias) || similar(alias, hay)
  }

  function FirstAlias(hay: string, similar: (string, string) -> bool): (i: nat)
    ensures i <= |LocationAlias|
    ensures i < |LocationAlias| ==> AliasHit(LocationAlias[i].alias, hay, similar)
    ensures forall j :: 0 <= j < i ==> !AliasHit(LocationAlias[j].alias, hay, similar)
  {
    FirstIndex(LocationAlias, (a: Alias) => AliasHit(a.alias, hay, similar))
  }

  /**
   * The aliases are tried in table order against the lower-cased group
   * title and, only when none matches there, against the matching text; the
   * first alias that matches gives the region.
   */
  function DetectRegion(title: string, lower: string, similar: (string, string) -> bool): (r: Option<string>)
    ensures r.Some? ==> r.value in CanonicalLocations
    ensures r.None? <==> forall j :: 0 <= j < |LocationAlias| ==>
                           !AliasHit(LocationAlias[j].alias, Lower(title), similar)
                           && !AliasHit(LocationAlias[j].alias, lower, similar)
  {
    var i := FirstAlias(Lower(title), similar);
    if i < |LocationAlias| then
      AliasRegionsCanonical();
      Some(LocationAlias[i].region)
    else
      var j := FirstAlias(lower, similar);
      if j < |LocationAlias| then
        AliasRegionsCanonical();
        Some(LocationAlias[j].region)
      else None
  }

  /** When some alias matches the title, the message text plays no part in the region. */
  lemma TitleWins(title: string, lower1: string, lower2: string, similar: (string, string) -> bool, a: Alias)
    requires a in LocationAlias && AliasHit(a.alias, Lower(title), similar)
    ensures DetectRegion(title, lower1, similar) == DetectRegion(title, lower2, similar)
    ensures DetectRegion(title, lower1, similar).Some?
  {
  }

  /** Alias `k` matches `hay`, maps to `region`, and no earlier alias matches `hay`. */
  predicate FirstMatchAt(k: int, hay: string, region: string, similar: (string, string) -> bool) {
    && 0 <= k < |LocationAlias|
    && AliasHit(LocationAlias[k].alias, hay, similar)
    && LocationAlias[k].region == region
    && forall j :: 0 <= j < k ==> !AliasHit(LocationAlias[j].alias, hay, similar)
  }

  /** The region is that of an alias that matched, and every earlier alias did not match there;
      the text is searched only when no alias at all matched the title. */
  lemma RegionIsFirstMatch(title: string, lower: string, similar: (string, string) -> bool)
    requires DetectRegion(title, lower, similar).Some?
    ensures exists k, hay :: && (hay == Lower(title) || hay == lower)
                             && FirstMatchAt(k, hay, DetectRegion(title, lower, similar).value, similar)
                             && (hay != Lower(title) ==>
                                   forall j :: 0 <= j < |LocationAlias| ==> !AliasHit(LocationAlias[j].alias, Lower(title), similar))
  {
    var r := DetectRegion(title, lower, similar).value;
    var i := FirstAlias(Lower(title), similar);
    if i < |LocationAlias| {
      assert FirstMatchAt(i, Lower(title), r, similar);
    } else {
      var j := FirstAlias(lower, similar);
      assert FirstMatchAt(j, lower, r, similar);
    }
  }

  // ---------------------------------------------------------------------------
  // Heuristic category and the subscriber pre-filter
  // ---------------------------------------------------------------------------

  /** `_stem_in_text(stem.lower(), stems_in_text)` for one collected keyword. */
  predicate HeuristicHit(stemmer: string -> string, stems: set<string>, v: Value) {
    v.Str? && Stem(stemmer, Lower(v.s)) in stems
  }

  predicate CategoryMatches(stemmer: string -> string, stems: set<string>, m: Member) {
    m.key != "" && EntryHit(m.value, (v: Value) => HeuristicHit(stemmer, stems, v))
  }

  /**
   * The first category, in taxonomy order, with a keyword whose stem is among
   * the message stems. A category named "" never counts: the source keeps
   * scanning after it, and an empty name is falsy downstream.
   */
  function Heuristic(t: seq<Member>, stemmer: string -> string, stems: set<string>): (r: Option<string>)
    ensures r.None? <==> forall i :: 0 <= i < |t| ==> !CategoryMatches(stemmer, stems, t[i])
    ensures r.Some? ==> exists i :: && 0 <= i < |t| && t[i].key == r.value
                                    && CategoryMatches(stemmer, stems, t[i])
                                    && forall j :: 0 <= j < i ==> !CategoryMatches(stemmer, stems, t[j])
    ensures r.Some? ==> r.value != ""
  {
    var i := FirstIndex(t, (m: Member) => CategoryMatches(stemmer, stems, m));
    if i < |t| then Some(t[i].key) else None
  }

  /** A keyword collected for a subscriber matches when its lower-cased stem is a message stem. */
  predicate PrefilterHit(stemmer: string -> string, stems: set<string>, v: Value) {
    v.Str? && Lower(Stem(stemmer, v.s)) in stems
  }

  /** Some subscriber lists the region. */
  predicate RegionHasSubscribers(subs: Store, region: string) {
    exists u :: u in subs.prefs && region in subs.prefs[u].locations
  }

  /**
   * Some subscriber of the region chose a category or subcategory with a
   * keyword among the message stems. The handler takes the first such stem
   * and treats an empty one as no match; with message stems that are never
   * empty, as the stemmer's are, that cannot change the answer. A message
   * without stems never passes.
   */
  predicate Interested(t: seq<Member>, subs: Store, region: string, stemmer: string -> string, stems: set<string>): (r: bool)
    ensures stems == {} ==> !r
  {
    exists u :: u in subs.prefs && region in subs.prefs[u].locations
                && SomeKeyword(t, subs.prefs[u], (v: Value) => PrefilterHit(stemmer, stems, v))
  }

  /** Without subscribers for the region the pre-filter cannot pass. */
  lemma InterestNeedsRegion(t: seq<Member>, subs: Store, region: string, stemmer: string -> string, stems: set<string>)
    requires Interested(t, subs, region, stemmer, stems)
    ensures RegionHasSubscribers(subs, region)
  {
  }

  /**
   * When the stemmer keeps lower-case words lower-case (`_stem` only ever
   * stems a lower-cased word), a subscriber of the region who chose the
   * heuristic category lets the message through the pre-filter.
   */
  lemma HeuristicChoicePassesPrefilter(t: seq<Member>, subs: Store, region: string,
                                       stemmer: string -> string, stems: set<string>, u: string)
    requires forall w :: Lower(stemmer(Lower(w))) == stemmer(Lower(w))
    requires Heuristic(t, stemmer, stems).Some?
    requires UniqueKeys(t)
    requires u in subs.prefs && region in subs.prefs[u].locations
    requires Heuristic(t, stemmer, stems).value in subs.prefs[u].categories
    ensures Interested(t, subs, region, stemmer, stems)
  {
    var i := FirstIndex(t, (m: Member) => CategoryMatches(stemmer, stems, m));
    var c := t[i].key;
    var entry := t[i].value;
    GetUnique(t, i);
    assert Entry(t, c) == entry;
    var k :| 0 <= k < |ExtractStems(entry)| && HeuristicHit(stemmer, stems, ExtractStems(entry)[k]);
    var v := ExtractStems(entry)[k];
    LowerIdempotent(v.s);
    assert PrefilterHit(stemmer, stems, v);
    assert EntryHit(Entry(t, c), (v: Value) => PrefilterHit(stemmer, stems, v));
  }
}

=== FILE: menu.dfy ===
/**
 * `build_toggle_menu` (Telegrambot/ui.py): one page of eight checkbox
 * buttons, the page arrows, and the Back button.
 */
module Menu {
  import opened Text

  const ItemsPerPage: nat := 8
  const CheckMark: string := "✅ "
  const PrevLabel: string := "⬅️"
  const NextLabel: string := "➡️"
  const BackLabel: string := "◀️ Назад"

  /** An inline button: its caption and the callback data it sends back. */
  datatype Button = Button(caption: string, data: string)

  datatype ToggleMenu = ToggleMenu(title: string, rows: seq<seq<Button>>)

  /** A slice bound as Python normalises it: negative counts from the end, both clamped to the list. */
  function SliceIndex(i: int, n: nat): (r: nat)
    ensures r <= n
    ensures 0 <= i <= n ==> r == i
  {
    if i < 0 then (if n + i < 0 then 0 else n + i)
    else if i > n then n
    else i
  }

  /** Python's `s[a:b]`. */
  function Slice<T>(s: seq<T>, a: int, b: int): (r: seq<T>)
    ensures |r| <= |s|
    ensures 0 <= a <= b <= |s| ==> r == s[a..b]
  {
    var i := SliceIndex(a, |s|);
    var j := SliceIndex(b, |s|);
    if i < j then s[i..j] else []
  }

  /** `(len(items) - 1) // ITEMS_PER_PAGE + 1`; the divisor is positive, so Dafny's division floors like Python's. */
  function TotalPages(n: nat): int {
    (n - 1) / ItemsPerPage + 1
  }

  /** The data a menu button sends: `f"{prefix}:{item}"`. */
  function ItemData(prefix: string, item: string): string {
    prefix + ":" + item
  }

  /** The data a page arrow sends: `f"{prefix}_page:{page}"`. */
  function PageData(prefix: string, page: int): string {
    prefix + "_page:" + IntToString(page)
  }

  function ItemButton(item: string, selected: seq<string>, prefix: string): (b: Button)
    ensures b.data == ItemData(prefix, item)
    ensures item in selected ==> b.caption == CheckMark + item
    ensures item !in selected ==> b.caption == item
  {
    Button((if item in selected then CheckMark else "") + item, ItemData(prefix, item))
  }

  function ItemRows(items: seq<string>, selected: seq<string>, prefix: string): (r: seq<seq<Button>>)
    ensures |r| == |items|
    ensures forall i :: 0 <= i < |items| ==> r[i] == [ItemButton(items[i], selected, prefix)]
  {
    if |items| == 0 then [] else [[ItemButton(items[0], selected, prefix)]] + ItemRows(items[1..], selected, prefix)
  }

  function NavRow(prefix: string, page: int, total: int): (r: seq<Button>)
    ensures |r| <= 2
    ensures (Button(PrevLabel, PageData(prefix, page - 1)) in r) <==> page > 0
    ensures (Button(NextLabel, PageData(prefix, page + 1)) in r) <==> page < total - 1
    ensures forall b :: b in r ==> b.caption == PrevLabel || b.caption == NextLabel
  {
    (if page > 0 then [Button(PrevLabel, PageData(prefix, page - 1))] else [])
    + (if page < total - 1 then [Button(NextLabel, PageData(prefix, page + 1))] else [])
  }

  /** `build_toggle_menu(title, items, selected, prefix, back_key, page)`. */
  function BuildToggleMenu(title: string, items: seq<string>, selected: seq<string>,
                           prefix: string, backKey: string, page: int): (m: ToggleMenu)
    ensures m.title == title
    ensures |m.rows| >= 1 && m.rows[|m.rows| - 1] == [Button(BackLabel, backKey)]
    ensures var shown := Slice(items, page * ItemsPerPage, page * ItemsPerPage + ItemsPerPage);
            && |shown| <= ItemsPerPage
            && |shown| < |m.rows|
            && forall i :: 0 <= i < |shown| ==> m.rows[i] == [ItemButton(shown[i], selected, prefix)]
  {
    var start := page * ItemsPerPage;
    var shown := Slice(items, start, start + ItemsPerPage);
    var nav := NavRow(prefix, page, TotalPages(|items|));
    ToggleMenu(title, ItemRows(shown, selected, prefix)
                      + (if |nav| > 0 then [nav] else [])
                      + [[Button(BackLabel, backKey)]])
  }

  /** The navigation row of a menu, when it has one. */
  function Arrows(m: ToggleMenu, itemCount: nat): seq<Button>
    requires itemCount < |m.rows|
  {
    if itemCount + 2 == |m.rows| then m.rows[itemCount] else []
  }

  /** Every item appears on page `i / 8`, in row `i % 8`, marked exactly when selected. */
  lemma ItemOnItsPage(title: string, items: seq<string>, selected: seq<string>, prefix: string, backKey: string, i: nat)
    requires i < |items|
    ensures var m := BuildToggleMenu(title, items, selected, prefix, backKey, i / ItemsPerPage);
            i % ItemsPerPage < |m.rows| - 1 && m.rows[i % ItemsPerPage] == [ItemButton(items[i], selected, prefix)]
  {
    var p := i / ItemsPerPage;
    var start := p * ItemsPerPage;
    var stop := if start + ItemsPerPage <= |items| then start + ItemsPerPage else |items|;
    assert Slice(items, start, start + ItemsPerPage) == items[start..stop];
    assert items[start..stop][i % ItemsPerPage] == items[i];
  }

  /**
   * On a page `p >= 0` the back arrow is offered exactly when `p > 0`, and the
   * forward arrow exactly when some item lies beyond this page.
   */
  lemma ArrowsIff(title: string, items: seq<string>, selected: seq<string>, prefix: string, backKey: string, page: nat)
    ensures var m := BuildToggleMenu(title, items, selected, prefix, backKey, page);
            var shown := Slice(items, page * ItemsPerPage, page * ItemsPerPage + ItemsPerPage);
            && (Button(PrevLabel, PageData(prefix, page - 1)) in Arrows(m, |shown|) <==> page > 0)
            && ((Button(NextLabel, PageData(prefix, page + 1)) in Arrows(m, |shown|))
                <==> |items| > (page + 1) * ItemsPerPage)
  {
    var n := |items|;
    var total := TotalPages(n);
    assert page < total - 1 <==> n > (page + 1) * ItemsPerPage by {
      if n == 0 {
        assert total == 0;
      } else {
        DivBounds(n - 1, page + 1);
      }
    }
  }

  /** For a positive divisor of 8, `k <= x / 8` exactly when `8 * k <= x`. */
  lemma DivBounds(x: nat, k: nat)
    ensures k <= x / ItemsPerPage <==> k * ItemsPerPage <= x
  {
    if k <= x / ItemsPerPage {
      assert k * ItemsPerPage <= (x / ItemsPerPage) * ItemsPerPage;
    }
  }
}

=== FILE: pipeline.dfy ===
/**
 * The listener's `handler` (Telegrambot/Botparsing.py): one incoming message
 * through de-duplication, region detection, the heuristic category, the
 * subscriber pre-filter, the classifier, the overrides and the acceptance
 * gates, ending in the fan-out; and the daily cleaner.
 *
 * Telegram, the OpenAI call, the stemmer, the fuzzy matcher and the clock are
 * parameters (`Env`).
 */
module Pipeline {
  import opened Wrappers
  import opened Text
  import opened Json
  import opened Dedup
  import opened Classifier
  import opened Locator
  import opened Subscribers
  import opened Delivery

  /** A user who sent the message. */
  datatype Sender = Sender(id: int, firstName: Option<string>, username: Option<string>)

  /** What the handler reads from a `NewMessage` event and its chat. */
  datatype Event = Event(
    id: int,
    isGroup: bool,
    isChannel: bool,
    chatId: int,
    senderId: Option<int>,
    rawText: Option<string>,
    title: Option<string>,
    chatUsername: Option<string>,
    sender: Option<Sender>)

  /** Everything outside the model that the handler consults. */
  datatype Env = Env(
    taxonomy: seq<Member>,
    stemmer: string -> string,
    similar: (string, string) -> bool,
    ask: Key -> Answer,
    detectors: Detectors,
    selfId: Option<int>,
    now: int,
    send: Outgoing -> bool)

  /** The module-level state the handler keeps between messages. */
  datatype State = State(seen: Seen, cache: Cache)

  ghost predicate ValidState(st: State) {
    Dedup.Valid(st.seen) && ValidCache(st.cache)
  }

  /** Where the handler stopped, one constructor per `return`. */
  datatype Outcome =
    | Deduplicated
    | NotGroup
    | OwnMessage
    | NoRegion
    | NoSubscribersForRegion
    | NoCategoryMatch
    | AiFailed
    | AiDropped(verdict: Classification)
    | LowConfidence(verdict: Classification)
    | AiNoCategory(verdict: Classification)
    | Sent(verdict: Classification, lead: Lead, delivery: Delivery)

  datatype Handled = Handled(state: State, store: Store, outcome: Outcome)

  const Untitled: string := "Без названия"
  const MessageLinkPrefix: string := "https://t.me/c/"

  /**
   * `sender_name`: the first name when it is non-empty, else the username as
   * the f-string would show it, so the name is empty only for an empty
   * username behind a missing or empty first name.
   */
  function SenderName(s: Sender): (r: string)
    ensures Truthy(s.firstName) ==> r == s.firstName.value
    ensures r == "" <==> !Truthy(s.firstName) && s.username == Some("")
  {
    if Truthy(s.firstName) then s.firstName.value
    else match s.username
         case Some(u) => u
         case None => "None"
  }

  /**
   * The link to a message of a supergroup, whose chat id prints as
   * `-100<short>`; other chats get no link.
   */
  function MessageLink(chatId: int, id: int): (r: string)
    ensures r != "" <==> "-100" <= IntToString(chatId)
    ensures r != "" ==> r == MessageLinkPrefix + IntToString(chatId)[4..] + "/" + IntToString(id)
  {
    var c := IntToString(chatId);
    if "-100" <= c then MessageLinkPrefix + c[4..] + "/" + IntToString(id) else ""
  }

  /** What the handler reads off a message before its gates. */
  datatype Reading = Reading(
    text: string,
    lower: string,
    stems: set<string>,
    groupName: string,
    region: Option<string>,
    heuristic: Option<string>)

  /**
   * The message text, its matching text without hashtags, the message stems,
   * the group name, the region (title first) and the heuristic category.
   */
  function Read(ev: Event, env: Env): (r: Reading)
    ensures r.text == ev.rawText.GetOr("") && r.lower == MatchText(r.text)
    ensures r.stems == MessageStems(env.stemmer, r.lower)
    ensures r.groupName == ev.title.GetOr(Untitled)
    ensures r.region == DetectRegion(r.groupName, r.lower, env.similar)
    ensures r.heuristic == Heuristic(env.taxonomy, env.stemmer, r.stems)
  {
    var text := ev.rawText.GetOr("");
    var lower := MatchText(text);
    var stems := MessageStems(env.stemmer, lower);
    var groupName := ev.title.GetOr(Untitled);
    Reading(text, lower, stems, groupName, DetectRegion(groupName, lower, env.similar),
            Heuristic(env.taxonomy, env.stemmer, stems))
  }

  /** `cats_to_use`: only the heuristic category when there is one, else every category. */
  function AskedCategories(t: seq<Member>, h: Option<string>): (r: seq<string>)
    ensures h.Some? ==> r == [h.value]
    ensures h.None? ==> r == Taxonomy.Names(t)
  {
    if h.Some? then [h.value] else Taxonomy.Names(t)
  }

  /** The lead handed to `send_lead_to_users`; a message without a sender entity is attributed to its chat. */
  function LeadOf(ev: Event, rd: Reading, region: string, category: Option<string>): (r: Lead)
    ensures r.text == rd.text && r.region == region && r.detected == category
    ensures r.groupName == rd.groupName && r.groupUsername == ev.chatUsername
    ensures r.link == MessageLink(ev.chatId, ev.id)
    ensures r.senderId == (if ev.sender.Some? then ev.sender.value.id else ev.chatId)
  {
    match ev.sender
    case Some(s) =>
      Lead(rd.groupName, ev.chatUsername, SenderName(s), s.id, s.username, rd.text,
           MessageLink(ev.chatId, ev.id), region, category)
    case None =>
      Lead(rd.groupName, ev.chatUsername, rd.groupName, ev.chatId, None, rd.text,
           MessageLink(ev.chatId, ev.id), region, category)
  }

  /** `handler(event)` on the current state and subscriptions. */
  function Handle(st: State, store: Store, ev: Event, env: Env): (r: Handled)
    requires ValidState(st) && ValidStore(store)
    ensures ValidState(r.state) && ValidStore(r.store)
    ensures r.outcome.Deduplicated? <==> ev.id in st.seen.members
    ensures r.outcome.Deduplicated? ==> r.state == st
    ensures !r.outcome.Sent? ==> r.store == store
    ensures r.outcome.Sent? ==> r.store == r.outcome.delivery.store
    ensures !r.outcome.Deduplicated? ==> ev.id in r.state.seen.members
    ensures r.outcome.Sent? ==>
              var o := r.outcome;
              && o.verdict.relevant.Holds()
              && o.verdict.confidence >= ConfThreshold
              && Truthy(o.verdict.category)
              && o.lead.detected == o.verdict.category
              && o.lead.region in CanonicalLocations
              && o.verdict.region == Some(o.lead.region)
              && RegionHasSubscribers(store, o.lead.region)
    ensures (|| r.outcome.Deduplicated? || r.outcome.NotGroup? || r.outcome.OwnMessage? || r.outcome.NoRegion?
             || r.outcome.NoSubscribersForRegion? || r.outcome.NoCategoryMatch? || r.outcome.AiFailed?) ==>
              r.state.cache == st.cache
    ensures r.outcome.Sent? ==>
              var lower := MatchText(ev.rawText.GetOr(""));
              var h := Heuristic(env.taxonomy, env.stemmer, MessageStems(env.stemmer, lower));
              && (ContainsAny(lower, TransferIndicators) ==> r.outcome.lead.detected == Some(Transfer))
              && (!ContainsAny(lower, TransferIndicators) && h.Some? ==> r.outcome.lead.detected == h)
  {
    var obs := Observe(st.seen, ev.id);
    if obs.duplicate then Handled(st, store, Deduplicated)
    else Route(st.(seen := obs.seen), store, ev, env)
  }

  /** A message from a group or channel, not sent by the bot itself. */
  predicate Screened(ev: Event, env: Env) {
    (ev.isGroup || ev.isChannel) && ev.senderId != env.selfId
  }

  /** A region was found, some subscriber lists it, and some such subscriber's stem is in the message. */
  predicate Passes(store: Store, env: Env, rd: Reading) {
    && rd.region.Some?
    && RegionHasSubscribers(store, rd.region.value)
    && Interested(env.taxonomy, store, rd.region.value, env.stemmer, rd.stems)
  }

  /** A screened message that gets past the subscriber pre-filter, so the model is consulted. */
  predicate PassesPrefilter(store: Store, ev: Event, env: Env) {
    Screened(ev, env) && Passes(store, env, Read(ev, env))
  }

  /**
   * What an accepted verdict promises: relevant, confident, categorised, and
   * the lead carries the category the transfer and heuristic rules chose.
   */
  predicate Accepted(o: Outcome, rd: Reading)
    requires o.Sent?
  {
    && o.verdict.relevant.Holds()
    && o.verdict.confidence >= ConfThreshold
    && Truthy(o.verdict.category)
    && o.lead.detected == o.verdict.category
    && (ContainsAny(rd.lower, TransferIndicators) ==> o.lead.detected == Some(Transfer))
    && (!ContainsAny(rd.lower, TransferIndicators) && Truthy(rd.heuristic) ==> o.lead.detected == rd.heuristic)
  }

  /** A sent outcome whose region the reading found and some subscriber lists, with an accepted verdict. */
  predicate Routed(o: Outcome, store: Store, rd: Reading)
    requires o.Sent?
  {
    && rd.region == Some(o.lead.region)
    && o.verdict.region == Some(o.lead.region)
    && RegionHasSubscribers(store, o.lead.region)
    && Accepted(o, rd)
  }

  /** The handler after de-duplication: the two screens, then the gates on what the message reads. */
  function Route(st: State, store: Store, ev: Event, env: Env): (r: Handled)
    requires ValidState(st) && ValidStore(store)
    ensures ValidState(r.state) && ValidStore(r.store) && r.state.seen == st.seen
    ensures !r.outcome.Deduplicated?
    ensures !r.outcome.Sent? ==> r.store == store
    ensures r.outcome.Sent? ==> r.store == r.outcome.delivery.store && Routed(r.outcome, store, Read(ev, env))
    ensures (|| r.outcome.NotGroup? || r.outcome.OwnMessage? || r.outcome.NoRegion?
             || r.outcome.NoSubscribersForRegion? || r.outcome.NoCategoryMatch? || r.outcome.AiFailed?) ==>
              r.state.cache == st.cache
  {
    if !(ev.isGroup || ev.isChannel) then Handled(st, store, NotGroup)
    else if ev.senderId == env.selfId then Handled(st, store, OwnMessage)
    else Gate(st, store, ev, env, Read(ev, env))
  }

  /** The region, subscriber and pre-filter gates on the reading `rd` of the message. */
  function Gate(st: State, store: Store, ev: Event, env: Env, rd: Reading): (r: Handled)
    requires ValidState(st) && ValidStore(store)
    ensures ValidState(r.state) && ValidStore(r.store) && r.state.seen == st.seen
    ensures !r.outcome.Deduplicated? && !r.outcome.NotGroup? && !r.outcome.OwnMessage?
    ensures !r.outcome.Sent? ==> r.store == store
    ensures r.outcome.Sent? ==> r.store == r.outcome.delivery.store && Routed(r.outcome, store, rd)
    ensures (|| r.outcome.NoRegion? || r.outcome.NoSubscribersForRegion? || r.outcome.NoCategoryMatch?
             || r.outcome.AiFailed?) ==>
              r.state.cache == st.cache
  {
    match rd.region
    case None => Handled(st, store, NoRegion)
    case Some(region) =>
      if !RegionHasSubscribers(store, region) then Handled(st, store, NoSubscribersForRegion)
      else if !Interested(env.taxonomy, store, region, env.stemmer, rd.stems) then Handled(st, store, NoCategoryMatch)
      else Judge(st, store, ev, env, rd, region)
  }

  /** The classifier call for the reading `rd`, with the categories `cats_to_use`. */
  function Consult(cache: Cache, rd: Reading, env: Env): (r: Classified)
    requires ValidCache(cache)
    ensures ValidCache(r.cache)
    ensures r.Raised? ==> r.cache == cache
  {
    Classify(rd.text, AskedCategories(env.taxonomy, rd.heuristic), CanonicalLocations, cache, env.ask, env.detectors)
  }

  /** The classifier's result with the detected region written in, after `apply_overrides`. */
  function Verdict(cl: Classified, rd: Reading, region: string): (r: Classification)
    requires cl.Classified?
    ensures r.region == Some(region)
    ensures r.relevant.Holds() ==> cl.result.relevant.Holds()
    ensures ContainsAny(rd.lower, TransferIndicators) ==> r.category == Some(Transfer)
    ensures !ContainsAny(rd.lower, TransferIndicators) && Truthy(rd.heuristic) ==> r.category == rd.heuristic
  {
    ApplyOverrides(cl.result.(region := Some(region)), rd.lower, rd.heuristic)
  }

  /**
   * The handler past the pre-filter: the classifier call, the overrides with
   * the detected region, the relevance, confidence and category gates, and
   * the fan-out.
   */
  function Judge(st: State, store: Store, ev: Event, env: Env, rd: Reading, region: string): (r: Handled)
    requires ValidState(st) && ValidStore(store)
    ensures ValidState(r.state) && ValidStore(r.store) && r.state.seen == st.seen
    ensures r.outcome.AiFailed? || r.outcome.AiDropped? || r.outcome.LowConfidence? || r.outcome.AiNoCategory? || r.outcome.Sent?
    ensures !r.outcome.Sent? ==> r.store == store
    ensures r.outcome.AiFailed? ==> r.state.cache == st.cache
    ensures r.outcome.Sent? ==>
              && r.store == r.outcome.delivery.store
              && r.outcome.lead.region == region
              && r.outcome.verdict.region == Some(region)
              && Accepted(r.outcome, rd)
  {
    var cl := Consult(st.cache, rd, env);
    var st2 := st.(cache := cl.cache);
    if cl.Raised? then Handled(st2, store, AiFailed)
    else
      var cla := Verdict(cl, rd, region);
      if !cla.relevant.Holds() then Handled(st2, store, AiDropped(cla))
      else if cla.confidence < ConfThreshold then Handled(st2, store, LowConfidence(cla))
      else if !Truthy(cla.category) then Handled(st2, store, AiNoCategory(cla))
      else
        var lead := LeadOf(ev, rd, region, cla.category);
        var d := Deliver(env.taxonomy, store, lead, env.now, env.send);
        Handled(st2, d.store, Sent(cla, lead, d))
  }

  /** Each gate on the reading is passed, or its exit is taken exactly when it is the first to fail. */
  lemma GateExits(st: State, store: Store, ev: Event, env: Env, rd: Reading)
    requires ValidState(st) && ValidStore(store)
    ensures var o := Gate(st, store, ev, env, rd).outcome;
            && (o.NoRegion? <==> rd.region.None?)
            && (o.NoSubscribersForRegion? <==> rd.region.Some? && !RegionHasSubscribers(store, rd.region.value))
            && (o.NoCategoryMatch? <==>
                  && rd.region.Some? && RegionHasSubscribers(store, rd.region.value)
                  && !Interested(env.taxonomy, store, rd.region.value, env.stemmer, rd.stems))
  {
    match rd.region
    case None =>
    case Some(region) =>
      if RegionHasSubscribers(store, region) && Interested(env.taxonomy, store, region, env.stemmer, rd.stems) {
        assert Gate(st, store, ev, env, rd) == Judge(st, store, ev, env, rd, region);
      }
  }

  /** A reading that passes every gate goes on to the classifier. */
  lemma GatePasses(st: State, store: Store, ev: Event, env: Env, rd: Reading)
    requires ValidState(st) && ValidStore(store)
    requires Passes(store, env, rd)
    ensures Gate(st, store, ev, env, rd) == Judge(st, store, ev, env, rd, rd.region.value)
  {
  }

  /**
   * The classifier is asked with the state's cache and the cache it returns
   * is kept. An exception there is the only way to `AiFailed`; otherwise the
   * overridden verdict meets the relevance, confidence and category gates in
   * that order, and one that passes all three is sent as it stands.
   */
  lemma JudgeGates(st: State, store: Store, ev: Event, env: Env, rd: Reading, region: string)
    requires ValidState(st) && ValidStore(store)
    ensures var r := Judge(st, store, ev, env, rd, region);
            var cl := Consult(st.cache, rd, env);
            && r.state == st.(cache := cl.cache)
            && (r.outcome.AiFailed? <==> cl.Raised?)
            && (cl.Classified? ==>
                  var cla := Verdict(cl, rd, region);
                  && (r.outcome.AiDropped? <==> !cla.relevant.Holds())
                  && (r.outcome.LowConfidence? <==> cla.relevant.Holds() && cla.confidence < ConfThreshold)
                  && (r.outcome.AiNoCategory? <==>
                        cla.relevant.Holds() && cla.confidence >= ConfThreshold && !Truthy(cla.category))
                  && (r.outcome.Sent? <==>
                        cla.relevant.Holds() && cla.confidence >= ConfThreshold && Truthy(cla.category))
                  && (!r.outcome.AiFailed? ==> r.outcome.verdict == cla)
                  && (r.outcome.Sent? ==>
                        && r.outcome.lead == LeadOf(ev, rd, region, cla.category)
                        && r.outcome.delivery == Deliver(env.taxonomy, store, r.outcome.lead, env.now, env.send)))
  {
    var cl := Consult(st.cache, rd, env);
    if cl.Classified? {
      var cla := Verdict(cl, rd, region);
      if cla.relevant.Holds() && cla.confidence >= ConfThreshold && Truthy(cla.category) {
        var lead := LeadOf(ev, rd, region, cla.category);
        assert Judge(st, store, ev, env, rd, region).outcome
            == Sent(cla, lead, Deliver(env.taxonomy, store, lead, env.now, env.send));
      }
    }
  }

  /**
   * For a new message each exit before the model is taken exactly when its
   * gate is the first to fail: not a group, the bot's own message, no
   * region, nobody in the region, no subscriber's stem in the message.
   */
  lemma HandlePrefilterExits(st: State, store: Store, ev: Event, env: Env)
    requires ValidState(st) && ValidStore(store)
    requires ev.id !in st.seen.members
    ensures var o := Handle(st, store, ev, env).outcome;
            var rd := Read(ev, env);
            && (o.NotGroup? <==> !(ev.isGroup || ev.isChannel))
            && (o.OwnMessage? <==> (ev.isGroup || ev.isChannel) && ev.senderId == env.selfId)
            && (o.NoRegion? <==> Screened(ev, env) && rd.region.None?)
            && (o.NoSubscribersForRegion? <==>
                  Screened(ev, env) && rd.region.Some? && !RegionHasSubscribers(store, rd.region.value))
            && (o.NoCategoryMatch? <==>
                  && Screened(ev, env) && rd.region.Some? && RegionHasSubscribers(store, rd.region.value)
                  && !Interested(env.taxonomy, store, rd.region.value, env.stemmer, rd.stems))
            && (PassesPrefilter(store, ev, env) <==>
                  !(o.NotGroup? || o.OwnMessage? || o.NoRegion? || o.NoSubscribersForRegion? || o.NoCategoryMatch?))
  {
    var st1 := st.(seen := Observe(st.seen, ev.id).seen);
    assert Handle(st, store, ev, env) == Route(st1, store, ev, env);
    if Screened(ev, env) {
      assert Route(st1, store, ev, env) == Gate(st1, store, ev, env, Read(ev, env));
      GateExits(st1, store, ev, env, Read(ev, env));
    }
  }

  /**
   * Past the pre-filter the handler asks the classifier for the heuristic
   * category alone when there is one, else for every category, and keeps the
   * cache it returns. An exception there ends the handler; otherwise the
   * overridden verdict meets the relevance, confidence and category gates in
   * order, and a verdict that passes all three is sent, as it stands, to the
   * subscribers through `send_lead_to_users`.
   */
  lemma HandleVerdictGates(st: State, store: Store, ev: Event, env: Env)
    requires ValidState(st) && ValidStore(store)
    requires ev.id !in st.seen.members
    requires PassesPrefilter(store, ev, env)
    ensures var r := Handle(st, store, ev, env);
            var rd := Read(ev, env);
            var region := rd.region.value;
            var cl := Consult(st.cache, rd, env);
            && rd.region.Some?
            && r.state == State(Observe(st.seen, ev.id).seen, cl.cache)
            && (r.outcome.AiFailed? <==> cl.Raised?)
            && (cl.Classified? ==>
                  var cla := Verdict(cl, rd, region);
                  && (r.outcome.AiDropped? <==> !cla.relevant.Holds())
                  && (r.outcome.LowConfidence? <==> cla.relevant.Holds() && cla.confidence < ConfThreshold)
                  && (r.outcome.AiNoCategory? <==>
                        cla.relevant.Holds() && cla.confidence >= ConfThreshold && !Truthy(cla.category))
                  && (r.outcome.Sent? <==>
                        cla.relevant.Holds() && cla.confidence >= ConfThreshold && Truthy(cla.category))
                  && (!r.outcome.AiFailed? ==> r.outcome.verdict == cla)
                  && (r.outcome.Sent? ==>
                        && r.outcome.lead == LeadOf(ev, rd, region, cla.category)
                        && r.outcome.delivery == Deliver(env.taxonomy, store, r.outcome.lead, env.now, env.send)))
  {
    var st1 := st.(seen := Observe(st.seen, ev.id).seen);
    var rd := Read(ev, env);
    assert Handle(st, store, ev, env) == Route(st1, store, ev, env);
    assert Route(st1, store, ev, env) == Gate(st1, store, ev, env, rd);
    GatePasses(st1, store, ev, env, rd);
    JudgeGates(st1, store, ev, env, rd, rd.region.value);
  }

  /** A sent lead came from a new message that passed every gate, the subscriber pre-filter included. */
  lemma HandleSends(st: State, store: Store, ev: Event, env: Env)
    requires ValidState(st) && ValidStore(store)
    requires Handle(st, store, ev, env).outcome.Sent?
    ensures ev.id !in st.seen.members
    ensures PassesPrefilter(store, ev, env)
    ensures Consult(st.cache, Read(ev, env), env).Classified?
    ensures var o := Handle(st, store, ev, env).outcome;
            var cla := Verdict(Consult(st.cache, Read(ev, env), env), Read(ev, env), o.lead.region);
            && Read(ev, env).region == Some(o.lead.region)
            && o.verdict == cla
            && cla.relevant.Holds() && cla.confidence >= ConfThreshold && Truthy(cla.category)
            && o.delivery == Deliver(env.taxonomy, store, o.lead, env.now, env.send)
  {
    HandlePrefilterExits(st, store, ev, env);
    HandleVerdictGates(st, store, ev, env);
  }

  /** A message delivered again (same id) is dropped without touching anything. */
  lemma ReplayIsDropped(st: State, store: Store, ev: Event, env: Env, env2: Env)
    requires ValidState(st) && ValidStore(store)
    ensures var first := Handle(st, store, ev, env);
            Handle(first.state, first.store, ev, env2) == Handled(first.state, first.store, Deduplicated)
  {
    var first := Handle(st, store, ev, env);
    assert ev.id in first.state.seen.members;
    assert Observe(first.state.seen, ev.id).duplicate;
  }

  /** A chat without a public username is linked through its message link, minus the message id. */
  lemma ChatUrlOfMessageLink(chatId: int, id: int)
    requires MessageLink(chatId, id) != ""
    ensures ChatUrl(None, MessageLink(chatId, id)) == MessageLinkPrefix + IntToString(chatId)[4..]
  {
    var link := MessageLink(chatId, id);
    var c := IntToString(chatId);
    var head := MessageLinkPrefix + c[4..];
    var digits := IntToString(id);
    assert link == head + "/" + digits;
    assert TMe <= link by {
      assert link[..|TMe|] == TMe;
    }
    assert '/' !in digits by {
      forall i | 0 <= i < |digits| ensures digits[i] != '/' {
      }
    }
    LastSeparator(link, head, digits);
  }

  /** The last separator of `a + "/" + b`, when `b` holds none, is the one after `a`. */
  lemma LastSeparator(s: string, a: string, b: string)
    requires s == a + "/" + b && '/' !in b
    ensures '/' in s && LastIndexOf(s, '/') == |a|
  {
    assert s[|a|] == '/';
    var i := LastIndexOf(s, '/');
    assert forall k :: i < k < |s| ==> s[k] != '/' by {
      forall k | i < k < |s| ensures s[k] != '/' {
        assert s[k] == s[i + 1..][k - i - 1];
      }
    }
    assert forall k :: |a| < k < |s| ==> s[k] != '/' by {
      forall k | |a| < k < |s| ensures s[k] != '/' {
        assert s[k] == b[k - |a| - 1];
      }
    }
  }

  /**
   * The daily cleaner empties the de-duplication queue and set and the
   * classification cache together.
   */
  function Clean(st: State): (r: State)
    ensures ValidState(r)
    ensures r.cache == EmptyCache
    ensures forall id :: !Observe(r.seen, id).duplicate
  {
    State(Wipe(st.seen), EmptyCache)
  }

  /** After the cleaner a message is never a duplicate and goes to the model if it gets that far. */
  lemma CleanForgets(st: State, store: Store, ev: Event, env: Env)
    requires ValidStore(store)
    ensures !Handle(Clean(st), store, ev, env).outcome.Deduplicated?
  {
    var c := Clean(st);
    assert !Observe(c.seen, ev.id).duplicate;
  }
}

=== FILE: seqs.dfy ===
/**
 * List operations the bot performs on Python lists: keeping first occurrences
 * (the "seen" loop of candidate selection), `list.remove`, and the
 * remove-or-append toggle used by every preference button.
 */
module Seqs {

  predicate Distinct<T(==,!new)>(s: seq<T>) {
    forall i, j :: 0 <= i < j < |s| ==> s[i] != s[j]
  }

  /** `s` with every element after its first occurrence dropped, order kept. */
  function FirstOccurrences<T(==,!new)>(s: seq<T>): (r: seq<T>)
    ensures Distinct(r)
    ensures forall x :: x in r <==> x in s
    ensures |r| <= |s|
  {
    if |s| == 0 then []
    else
      var p := FirstOccurrences(s[..|s| - 1]);
      var x := s[|s| - 1];
      assert s == s[..|s| - 1] + [x];
      if x in p then p else p + [x]
  }

  /** The elements of `s` that do not occur in `a`, in order. */
  function Without<T(==,!new)>(s: seq<T>, a: seq<T>): (r: seq<T>)
    ensures forall x :: x in r <==> x in s && x !in a
  {
    if |s| == 0 then []
    else
      var p := Without(s[..|s| - 1], a);
      var x := s[|s| - 1];
      assert s == s[..|s| - 1] + [x];
      if x in a then p else p + [x]
  }

  /** Keeping first occurrences of a longer list only extends the result. */
  lemma {:induction false} FirstOccurrencesPrefix<T(!new)>(s: seq<T>, t: seq<T>)
    ensures FirstOccurrences(s) <= FirstOccurrences(s + t)
    decreases |t|
  {
    if |t| == 0 {
      assert s + t == s;
    } else {
      var t' := t[..|t| - 1];
      FirstOccurrencesPrefix(s, t');
      assert (s + t)[..|s + t| - 1] == s + t';
    }
  }

  /** Appending one element adds it to the first occurrences exactly when it is new. */
  lemma FirstOccurrencesSnoc<T(!new)>(s: seq<T>, x: T)
    ensures FirstOccurrences(s + [x]) == if x in s then FirstOccurrences(s) else FirstOccurrences(s) + [x]
  {
    assert (s + [x])[..|s + [x]| - 1] == s;
  }

  lemma WithoutSnoc<T(!new)>(s: seq<T>, x: T, a: seq<T>)
    ensures Without(s + [x], a) == if x in a then Without(s, a) else Without(s, a) + [x]
  {
    assert (s + [x])[..|s + [x]| - 1] == s;
  }

  /**
   * First occurrences of `a + b`: those of `a`, then those of the elements of
   * `b` that `a` does not already hold, each part in its own order.
   */
  lemma {:induction false} FirstOccurrencesAppend<T(!new)>(a: seq<T>, b: seq<T>)
    ensures FirstOccurrences(a + b) == FirstOccurrences(a) + FirstOccurrences(Without(b, a))
    decreases |b|
  {
    if |b| == 0 {
      assert a + b == a;
      assert Without(b, a) == [];
      assert FirstOccurrences(Without(b, a)) == [];
      assert FirstOccurrences(a) + [] == FirstOccurrences(a);
    } else {
      var b', x := SplitLast(b);
      var w := Without(b', a);
      FirstOccurrencesAppend(a, b');
      Associate(a, b', x);
      FirstOccurrencesSnoc(a + b', x);
      WithoutSnoc(b', x, a);
      var fa, fw := FirstOccurrences(a), FirstOccurrences(w);
      assert a + b == (a + b') + [x];
      if x in a {
        assert x in a + b';
        assert Without(b, a) == w;
        assert FirstOccurrences(a + b) == fa + fw;
      } else {
        FirstOccurrencesSnoc(w, x);
        assert Without(b, a) == w + [x];
        assert x in a + b' <==> x in w;
        if x in w {
          assert FirstOccurrences(a + b) == fa + fw;
        } else {
          assert FirstOccurrences(a + b) == (fa + fw) + [x];
          Associate(fa, fw, x);
        }
      }
    }
  }

  lemma SplitLast<T>(b: seq<T>) returns (b': seq<T>, x: T)
    requires |b| > 0
    ensures b == b' + [x] && |b'| < |b|
  {
    b', x := b[..|b| - 1], b[|b| - 1];
  }

  lemma Associate<T>(a: seq<T>, b: seq<T>, x: T)
    ensures a + (b + [x]) == (a + b) + [x]
  {
  }

  /** A list that is already duplicate-free is its own first occurrences. */
  lemma {:induction false} FirstOccurrencesOfDistinct<T(!new)>(s: seq<T>)
    requires Distinct(s)
    ensures FirstOccurrences(s) == s
  {
    if |s| > 0 {
      FirstOccurrencesOfDistinct(s[..|s| - 1]);
    }
  }

  /** The position of the first element satisfying `p`, or `|s|` when there is none. */
  function FirstIndex<T>(s: seq<T>, p: T -> bool): (i: nat)
    ensures i <= |s|
    ensures i < |s| ==> p(s[i])
    ensures forall j :: 0 <= j < i ==> !p(s[j])
  {
    if |s| == 0 then 0
    else if p(s[0]) then 0
    else 1 + FirstIndex(s[1..], p)
  }

  /** `s[:n]`. */
  function Take<T(==,!new)>(s: seq<T>, n: nat): (r: seq<T>)
    ensures |r| <= n && r <= s
    ensures |s| >= n ==> |r| == n
    ensures forall x :: x in r ==> x in s
  {
    if |s| <= n then s else s[..n]
  }

  /** Appending a new element keeps a list duplicate-free. */
  lemma DistinctSnoc<T(!new)>(s: seq<T>, x: T)
    requires Distinct(s) && x !in s
    ensures Distinct(s + [x])
  {
  }

  /** Dropping the head of a duplicate-free list removes exactly that element. */
  lemma DistinctTail<T(!new)>(s: seq<T>)
    requires Distinct(s) && |s| > 0
    ensures Distinct(s[1..])
    ensures forall x :: x in s[1..] <==> x in s && x != s[0]
  {
    forall x | x in s && x != s[0]
      ensures x in s[1..]
    {
      var k :| 0 <= k < |s| && s[k] == x;
      assert s[1..][k - 1] == x;
    }
  }

  /** A prefix of length `n` is what taking `n` elements yields. */
  lemma TakePrefix<T(!new)>(p: seq<T>, s: seq<T>, n: nat)
    requires p <= s && |p| == n
    ensures Take(s, n) == p
  {
  }

  /** Python's `s.remove(x)`: drops the first occurrence of `x`. */
  function RemoveFirst<T(==,!new)>(s: seq<T>, x: T): (r: seq<T>)
    requires x in s
    ensures multiset(r) == multiset(s) - multiset{x}
    ensures |r| == |s| - 1
    ensures forall y :: y != x ==> (y in r <==> y in s)
  {
    if s[0] == x then
      assert s == [s[0]] + s[1..];
      s[1..]
    else
      assert s == [s[0]] + s[1..];
      [s[0]] + RemoveFirst(s[1..], x)
  }

  /** Removing one element keeps a duplicate-free list duplicate-free and drops that element. */
  lemma RemoveFirstDistinct<T(!new)>(s: seq<T>, x: T)
    requires x in s && Distinct(s)
    ensures Distinct(RemoveFirst(s, x))
    ensures x !in RemoveFirst(s, x)
  {
    var r := RemoveFirst(s, x);
    assert multiset(s)[x] == 1 by {
      var k :| 0 <= k < |s| && s[k] == x;
      CountOne(s, k);
    }
    assert x !in multiset(r);
    DistinctByMultiset(s, r);
  }

  lemma {:induction false} CountOne<T(!new)>(s: seq<T>, k: int)
    requires Distinct(s) && 0 <= k < |s|
    ensures multiset(s)[s[k]] == 1
  {
    if k == |s| - 1 {
      assert s == s[..k] + [s[k]];
      assert s[k] !in s[..k];
      assert multiset(s[..k])[s[k]] == 0;
    } else {
      var init := s[..|s| - 1];
      assert s == init + [s[|s| - 1]];
      CountOne(init, k);
      assert init[k] == s[k];
    }
  }

  /** A list whose element counts are at most those of a duplicate-free list is duplicate-free. */
  lemma DistinctByMultiset<T(!new)>(s: seq<T>, r: seq<T>)
    requires Distinct(s) && multiset(r) <= multiset(s)
    ensures Distinct(r)
  {
    forall i, j | 0 <= i < j < |r| && r[i] == r[j]
      ensures false
    {
      var x := r[i];
      assert multiset(r)[x] >= 2 by {
        assert r == r[..i] + [r[i]] + r[i + 1..j] + [r[j]] + r[j + 1..];
      }
      var k :| 0 <= k < |s| && s[k] == x;
      CountOne(s, k);
    }
  }

  /** The remove-or-append toggle of a preference list. */
  function Flip<T(==,!new)>(s: seq<T>, x: T): (r: seq<T>)
    ensures forall y :: y != x ==> (y in r <==> y in s)
    ensures x !in s ==> x in r
  {
    if x in s then RemoveFirst(s, x) else s + [x]
  }

  /** On a duplicate-free list the toggle flips membership and keeps the list duplicate-free. */
  lemma FlipDistinct<T(!new)>(s: seq<T>, x: T)
    requires Distinct(s)
    ensures Distinct(Flip(s, x))
    ensures x in Flip(s, x) <==> x !in s
  {
    if x in s {
      RemoveFirstDistinct(s, x);
    }
  }

  /** Toggling the same element twice restores membership of every element. */
  lemma FlipTwice<T(!new)>(s: seq<T>, x: T, y: T)
    requires Distinct(s)
    ensures y in Flip(Flip(s, x), x) <==> y in s
  {
    FlipDistinct(s, x);
    FlipDistinct(Flip(s, x), x);
  }
}

=== FILE: subscribers.dfy ===
/**
 * Subscriber preferences (the values of `subscriptions`) and the changes the
 * bot's buttons make to them (Telegrambot/ui.py), together with the keyword
 * set a subscriber's choices select from the taxonomy.
 *
 * Timestamps are integer seconds. Every entry the buttons create holds the
 * two lists and the subcategory dict; a missing timestamp or flag reads as
 * absent or false. An entry created by the admin's approval alone is
 * modelled as fresh preferences (see `Callbacks.AdminCallback`).
 */
module Subscribers {
  import opened Wrappers
  import opened Seqs
  import opened Json
  import opened Taxonomy

  const DaySeconds: int := 86400
  /** The trial length, two days. */
  const TrialSeconds: int := 2 * DaySeconds

  datatype Prefs = Prefs(
    categories: seq<string>,
    locations: seq<string>,
    subcats: map<string, seq<string>>,
    trialStart: Option<int>,
    subscriptionEnd: Option<int>,
    trialExpiredNotified: bool,
    paidExpiredNotified: bool,
    awaitingScreenshot: bool)

  /** `{'categories': [], 'locations': [], 'subcats': {}}`. */
  const Fresh: Prefs := Prefs([], [], map[], None, None, false, false, false)

  /** `prefs['subcats'].get(cat, [])`. */
  function Selected(p: Prefs, cat: string): seq<string> {
    if cat in p.subcats then p.subcats[cat] else []
  }

  // ---------------------------------------------------------------------------
  // Preference changes made by the callback buttons
  // ---------------------------------------------------------------------------

  /**
   * `subcat:<cat>:<sub>`: flips `sub` in the category's selection, then adds
   * the category when the selection is non-empty and removes it when empty.
   */
  function ToggleSubcat(p: Prefs, cat: string, sub: string): (r: Prefs)
    ensures Selected(r, cat) == Flip(Selected(p, cat), sub)
    ensures cat in r.subcats
    ensures forall c :: c != cat ==> (c in r.subcats <==> c in p.subcats)
    ensures forall c :: c != cat && c in p.subcats ==> r.subcats[c] == p.subcats[c]
    ensures forall c :: c != cat ==> (c in r.categories <==> c in p.categories)
    ensures Distinct(p.categories) ==>
              Distinct(r.categories) && (cat in r.categories <==> |Selected(r, cat)| > 0)
    ensures r.locations == p.locations && r.trialStart == p.trialStart
    ensures r.subscriptionEnd == p.subscriptionEnd && r.awaitingScreenshot == p.awaitingScreenshot
    ensures r.trialExpiredNotified == p.trialExpiredNotified && r.paidExpiredNotified == p.paidExpiredNotified
  {
    var selected := Flip(Selected(p, cat), sub);
    p.(subcats := p.subcats[cat := selected], categories := SyncCategory(p.categories, cat, |selected| > 0))
  }

  /**
   * The category list after a subcategory toggle: `cat` appended when it
   * gained a selection, its first copy removed when it lost the last.
   */
  function SyncCategory(cats: seq<string>, cat: string, selected: bool): (r: seq<string>)
    ensures forall c :: c != cat ==> (c in r <==> c in cats)
    ensures Distinct(cats) ==> Distinct(r) && (cat in r <==> selected)
  {
    if selected && cat !in cats then
      assert Distinct(cats) ==> Distinct(cats + [cat]) by {
        if Distinct(cats) { DistinctSnoc(cats, cat); }
      }
      cats + [cat]
    else if !selected && cat in cats then
      assert Distinct(cats) ==> Distinct(RemoveFirst(cats, cat)) && cat !in RemoveFirst(cats, cat) by {
        if Distinct(cats) { RemoveFirstDistinct(cats, cat); }
      }
      RemoveFirst(cats, cat)
    else cats
  }

  /** Pressing the same subcategory twice restores which subcategories and categories are chosen. */
  lemma ToggleSubcatTwice(p: Prefs, cat: string, sub: string, x: string)
    requires Distinct(Selected(p, cat)) && Distinct(p.categories)
    requires cat in p.categories <==> |Selected(p, cat)| > 0
    ensures var r := ToggleSubcat(ToggleSubcat(p, cat, sub), cat, sub);
            && (x in Selected(r, cat) <==> x in Selected(p, cat))
            && (x in r.categories <==> x in p.categories)
  {
    FlipTwice(Selected(p, cat), sub, x);
    FlipDistinct(Selected(p, cat), sub);
    var once := ToggleSubcat(p, cat, sub);
    FlipTwice(Selected(p, cat), sub, sub);
    FlipDistinct(Selected(once, cat), sub);
    if x == cat {
      var twice := Flip(Flip(Selected(p, cat), sub), sub);
      forall y
        ensures y in twice <==> y in Selected(p, cat)
      {
        FlipTwice(Selected(p, cat), sub, y);
      }
      SameMembershipSameEmptiness(twice, Selected(p, cat));
    }
  }

  /** Two lists with the same members are either both empty or both not. */
  lemma SameMembershipSameEmptiness(a: seq<string>, b: seq<string>)
    requires forall y :: y in a <==> y in b
    ensures |a| > 0 <==> |b| > 0
  {
    if |a| > 0 {
      assert a[0] in b;
    }
    if |b| > 0 {
      assert b[0] in a;
    }
  }

  /**
   * `cat:<cat>`: a category with subcategories only opens its menu; any
   * other category is flipped in the category list.
   */
  function ToggleCategory(t: seq<Member>, p: Prefs, cat: string): (r: Prefs)
    ensures HasSubcats(t, cat) ==> r == p
    ensures !HasSubcats(t, cat) ==> r == p.(categories := Flip(p.categories, cat))
  {
    if HasSubcats(t, cat) then p else p.(categories := Flip(p.categories, cat))
  }

  /** `loc:<loc>`: flips the location. */
  function ToggleLocation(p: Prefs, loc: string): (r: Prefs)
    ensures forall y :: y != loc ==> (y in r.locations <==> y in p.locations)
    ensures Distinct(p.locations) ==> Distinct(r.locations) && (loc in r.locations <==> loc !in p.locations)
    ensures r == p.(locations := r.locations)
  {
    assert Distinct(p.locations) ==>
             Distinct(Flip(p.locations, loc)) && (loc in Flip(p.locations, loc) <==> loc !in p.locations) by {
      if Distinct(p.locations) {
        FlipDistinct(p.locations, loc);
      }
    }
    p.(locations := Flip(p.locations, loc))
  }

  /** Toggling a plain category or a location twice restores membership of every item. */
  lemma ToggleTwice(t: seq<Member>, p: Prefs, cat: string, loc: string, x: string)
    requires Distinct(p.categories) && Distinct(p.locations)
    ensures x in ToggleCategory(t, ToggleCategory(t, p, cat), cat).categories <==> x in p.categories
    ensures x in ToggleLocation(ToggleLocation(p, loc), loc).locations <==> x in p.locations
  {
    FlipTwice(p.categories, cat, x);
    FlipTwice(p.locations, loc, x);
  }

  /** `menu:reset_filters`: clears the three filter keys and nothing else. */
  function Reset(p: Prefs): (r: Prefs)
    ensures r.categories == [] && r.locations == [] && r.subcats == map[]
    ensures r.trialStart == p.trialStart && r.subscriptionEnd == p.subscriptionEnd
    ensures r.trialExpiredNotified == p.trialExpiredNotified && r.paidExpiredNotified == p.paidExpiredNotified
    ensures r.awaitingScreenshot == p.awaitingScreenshot
  {
    p.(categories := [], locations := [], subcats := map[])
  }

  /** `menu:settings`: starts the two-day trial at `now` unless a trial start is already stored. */
  function OpenSettings(p: Prefs, now: int): (r: Prefs)
    ensures p.trialStart.Some? ==> r == p
    ensures p.trialStart.None? ==> r == p.(trialStart := Some(now))
    ensures r.trialStart.Some?
  {
    if p.trialStart.None? then p.(trialStart := Some(now)) else p
  }

  /** Opening the settings again never moves an existing trial start. */
  lemma OpenSettingsKeepsTrial(p: Prefs, now: int, later: int)
    ensures OpenSettings(OpenSettings(p, now), later) == OpenSettings(p, now)
  {
  }

  /** `menu:paid`: the user is now expected to send a payment screenshot. */
  function MarkPaid(p: Prefs): (r: Prefs)
    ensures r.awaitingScreenshot
    ensures r == p.(awaitingScreenshot := true)
  {
    p.(awaitingScreenshot := true)
  }

  datatype ScreenshotOutcome = ScreenshotOutcome(prefs: Prefs, forwarded: bool)

  /** `handle_payment_screenshot`: acts only when a screenshot is awaited, and clears that flag. */
  function TakeScreenshot(p: Prefs): (r: ScreenshotOutcome)
    ensures r.forwarded <==> p.awaitingScreenshot
    ensures !r.prefs.awaitingScreenshot
    ensures r.prefs == p.(awaitingScreenshot := false)
  {
    if p.awaitingScreenshot then ScreenshotOutcome(p.(awaitingScreenshot := false), true)
    else ScreenshotOutcome(p, false)
  }

  /** A second screenshot after a handled one is ignored. */
  lemma ScreenshotOnce(p: Prefs)
    ensures !TakeScreenshot(TakeScreenshot(p).prefs).forwarded
  {
  }

  /**
   * The state change of an admin's `approve:<uid>:<months>`: the paid period
   * ends 30 days per month after `now`, and the trial start and both notice
   * flags are removed.
   */
  function Approve(p: Prefs, now: int, months: int): (r: Prefs)
    ensures r.subscriptionEnd == Some(now + 30 * months * DaySeconds)
    ensures r.trialStart.None? && !r.trialExpiredNotified && !r.paidExpiredNotified
    ensures r.categories == p.categories && r.locations == p.locations && r.subcats == p.subcats
    ensures r.awaitingScreenshot == p.awaitingScreenshot
  {
    p.(subscriptionEnd := Some(now + 30 * months * DaySeconds),
       trialStart := None, trialExpiredNotified := false, paidExpiredNotified := false)
  }

  // ---------------------------------------------------------------------------
  // The status line of /start and the main menu
  // ---------------------------------------------------------------------------

  datatype Status = Subscribed(until: int) | OnTrial(until: int) | NoTrial

  /** A stored subscription end wins; otherwise a trial ends two days after it started. */
  function StatusOf(p: Prefs): (r: Status)
    ensures p.subscriptionEnd.Some? <==> r.Subscribed?
    ensures r.Subscribed? ==> r.until == p.subscriptionEnd.value
    ensures r.OnTrial? <==> p.subscriptionEnd.None? && p.trialStart.Some?
    ensures r.OnTrial? ==> r.until == p.trialStart.value + TrialSeconds
  {
    match p.subscriptionEnd
    case Some(end) => Subscribed(end)
    case None =>
      match p.trialStart
      case Some(start) => OnTrial(start + TrialSeconds)
      case None => NoTrial
  }

  /** After approval the status always shows the paid period. */
  lemma ApprovedStatus(p: Prefs, now: int, months: int)
    ensures StatusOf(Approve(p, now, months)) == Subscribed(now + 30 * months * DaySeconds)
  {
  }

  // ---------------------------------------------------------------------------
  // The keywords a subscriber's choices select
  // ---------------------------------------------------------------------------

  /** Some item that `extract_stems` collects from `entry` satisfies `hit`. */
  predicate EntryHit(entry: Value, hit: Value -> bool) {
    exists i :: 0 <= i < |ExtractStems(entry)| && hit(ExtractStems(entry)[i])
  }

  /**
   * Some keyword of a chosen category, or of a selected subcategory, satisfies
   * `hit`. Both the listener's pre-filter and the delivery gate collect the
   * keywords this way and differ only in how they match one.
   */
  predicate SomeKeyword(t: seq<Member>, p: Prefs, hit: Value -> bool): (r: bool)
    ensures r ==> p.categories != [] || p.subcats != map[]
  {
    || (exists c :: c in p.categories && EntryHit(Entry(t, c), hit))
    || (exists c, s :: c in p.subcats && s in p.subcats[c] && EntryHit(SubEntry(t, c, s), hit))
  }

  /** After a reset no keyword can match, so no lead reaches the subscriber. */
  lemma ResetSelectsNothing(t: seq<Member>, p: Prefs, hit: Value -> bool)
    ensures !SomeKeyword(t, Reset(p), hit)
  {
  }

  // ---------------------------------------------------------------------------
  // The subscriptions dict
  // ---------------------------------------------------------------------------

  /** `subscriptions`: user-id strings in insertion order, and their preferences. */
  datatype Store = Store(order: seq<string>, prefs: map<string, Prefs>)

  ghost predicate ValidStore(s: Store) {
    && Distinct(s.order)
    && forall u :: u in s.prefs <==> u in s.order
  }

  /** `subscriptions.get(uid, {...})`. */
  function Lookup(s: Store, uid: string): Prefs {
    if uid in s.prefs then s.prefs[uid] else Fresh
  }

  /** `subscriptions.setdefault(uid, {...})`: a new user gets fresh preferences at the end of the order. */
  function SetDefault(s: Store, uid: string): (r: Store)
    requires ValidStore(s)
    ensures ValidStore(r)
    ensures uid in r.prefs && r.prefs[uid] == Lookup(s, uid)
    ensures uid in s.prefs ==> r == s
    ensures uid !in s.prefs ==> r.order == s.order + [uid] && r.prefs == s.prefs[uid := Fresh]
  {
    if uid in s.prefs then s
    else
      DistinctSnoc(s.order, uid);
      Store(s.order + [uid], s.prefs[uid := Fresh])
  }

  /** `subscriptions[uid] = prefs` for a user already present. */
  function Update(s: Store, uid: string, p: Prefs): (r: Store)
    requires ValidStore(s) && uid in s.prefs
    ensures ValidStore(r)
    ensures r.order == s.order && r.prefs == s.prefs[uid := p]
  {
    Store(s.order, s.prefs[uid := p])
  }
}

=== FILE: taxonomy.dfy ===
/**
 * Lookups into the category taxonomy (categories.json) as the bot performs
 * them: `categories.get(cat, {})`, its "subcategories" dict, and the
 * truthiness test behind `has_subcats` (Telegrambot/ui.py).
 */
module Taxonomy {
  import opened Wrappers
  import opened Json

  /** Python truthiness of a JSON value. */
  predicate ValueTruthy(v: Value) {
    match v
    case Null => false
    case Bool(b) => b
    case Num(n) => n != 0.0
    case Str(s) => s != ""
    case List(items) => |items| > 0
    case Dict(ms) => |ms| > 0
  }

  /** `categories.get(cat, {})`. */
  function Entry(t: seq<Member>, cat: string): Value {
    Get(t, cat).GetOr(Dict([]))
  }

  /** `categories.get(cat, {}).get("subcategories", {})`. */
  function Subcategories(t: seq<Member>, cat: string): Value {
    GetOrEmpty(Entry(t, cat), SubcategoriesKey)
  }

  /** `categories.get(cat, {}).get("subcategories", {}).get(sub, {})`. */
  function SubEntry(t: seq<Member>, cat: string, sub: string): Value {
    GetOrEmpty(Subcategories(t, cat), sub)
  }

  /** `has_subcats(cat)`: the category's "subcategories" value is present and truthy. */
  function HasSubcats(t: seq<Member>, cat: string): (r: bool)
    ensures r ==> Get(t, cat).Some? && Get(t, cat).value.Dict?
    ensures r <==> Entry(t, cat).Dict? && ValueTruthy(GetOrEmpty(Entry(t, cat), SubcategoriesKey))
  {
    match Entry(t, cat)
    case Dict(ms) =>
      (match Get(ms, SubcategoriesKey)
       case Some(v) => ValueTruthy(v)
       case None => false)
    case _ => false
  }

  /** `list(categories.keys())`. */
  function Names(t: seq<Member>): (r: seq<string>)
    ensures |r| == |t| && forall i :: 0 <= i < |t| ==> r[i] == t[i].key
  {
    if |t| == 0 then [] else [t[0].key] + Names(t[1..])
  }

  /**
   * The taxonomy shape the lookups rely on: every category is a dict whose
   * "subcategories", when present, is a dict, every keyword list holds
   * strings (the bot lower-cases and stems each keyword), and no dict repeats
   * a key.
   */
  ghost predicate WellFormed(t: seq<Member>) {
    && MembersStringKeywords(t)
    && UniqueKeys(t)
    && forall i :: 0 <= i < |t| ==>
         && t[i].value.Dict?
         && UniqueKeys(t[i].value.members)
         && GetOrEmpty(t[i].value, SubcategoriesKey).Dict?
         && UniqueKeys(GetOrEmpty(t[i].value, SubcategoriesKey).members)
  }

  /** In a well-formed taxonomy each listed category's entry is its own value, and so is each of its subcategories'. */
  lemma EntryOfListed(t: seq<Member>, i: nat, j: nat)
    requires WellFormed(t)
    requires i < |t|
    ensures Entry(t, t[i].key) == t[i].value
    ensures var subs := GetOrEmpty(t[i].value, SubcategoriesKey).members;
            j < |subs| ==> SubEntry(t, t[i].key, subs[j].key) == subs[j].value
  {
    GetUnique(t, i);
    var subs := GetOrEmpty(t[i].value, SubcategoriesKey).members;
    if j < |subs| {
      GetUnique(subs, j);
    }
  }

  /** In a well-formed taxonomy every entry a subscriber can select has only string keywords. */
  lemma EntriesHaveStringKeywords(t: seq<Member>, cat: string, sub: string)
    requires WellFormed(t)
    ensures StringKeywords(Entry(t, cat))
    ensures StringKeywords(SubEntry(t, cat, sub))
  {
    if Get(t, cat).Some? {
      MembersStringKeywordsGet(t, cat);
      var i :| 0 <= i < |t| && t[i] == Member(cat, Get(t, cat).value);
      var ms := Get(t, cat).value.members;
      if Get(ms, SubcategoriesKey).Some? {
        MembersStringKeywordsGet(ms, SubcategoriesKey);
        var subs := Get(ms, SubcategoriesKey).value;
        assert subs == GetOrEmpty(t[i].value, SubcategoriesKey);
        if Get(subs.members, sub).Some? {
          MembersStringKeywordsGet(subs.members, sub);
        }
      }
    }
  }
}

=== FILE: text.dfy ===
/**
 * String primitives the bot relies on: Python's `str.lower`, substring tests,
 * `str.strip`, `str.replace`, the hashtag-removing and word-extracting regular
 * expressions of the message handler, and `str(int)` / `int(str)`.
 */
module Text {
  import opened Wrappers

  // ---------------------------------------------------------------------------
  // Lower-casing
  // ---------------------------------------------------------------------------

  /** Python's `str.lower` on one character, for the Latin and Cyrillic capitals. */
  function LowerChar(c: char): char {
    if 'A' <= c <= 'Z' then (c as int + 32) as char
    else if 'А' <= c <= 'Я' then (c as int + 32) as char   // А..Я
    else if 'Ѐ' <= c <= 'Џ' then (c as int + 80) as char   // Ѐ..Џ, including Ё
    else c
  }

  predicate IsUpper(c: char) {
    'A' <= c <= 'Z' || 'Ѐ' <= c <= 'Я'
  }

  function Lower(s: string): (r: string)
    ensures |r| == |s|
    ensures forall i :: 0 <= i < |s| ==> r[i] == LowerChar(s[i])
  {
    if |s| == 0 then "" else [LowerChar(s[0])] + Lower(s[1..])
  }

  /** A lower-cased character has no capital left to fold. */
  lemma LowerCharIdempotent(c: char)
    ensures LowerChar(LowerChar(c)) == LowerChar(c)
    ensures !IsUpper(LowerChar(c))
  {
  }

  lemma LowerIdempotent(s: string)
    ensures Lower(Lower(s)) == Lower(s)
  {
    var l := Lower(s);
    forall i | 0 <= i < |s|
      ensures Lower(l)[i] == l[i]
    {
      LowerCharIdempotent(s[i]);
    }
  }

  /** A string without capitals is its own lower case. */
  lemma LowerOfLower(s: string)
    requires forall i :: 0 <= i < |s| ==> !IsUpper(s[i])
    ensures Lower(s) == s
  {
  }

  lemma LowerConcat(a: string, b: string)
    ensures Lower(a + b) == Lower(a) + Lower(b)
  {
    assert forall i :: 0 <= i < |a + b| ==> Lower(a + b)[i] == (Lower(a) + Lower(b))[i];
  }

  // ---------------------------------------------------------------------------
  // Substrings
  // ---------------------------------------------------------------------------

  /** Python's `sub in s`. */
  predicate Contains(s: string, sub: string)
    decreases |s|
  {
    sub <= s || (|s| > 0 && Contains(s[1..], sub))
  }

  /** An occurrence of `sub` at position `i` makes `sub in s` true. */
  lemma {:induction false} ContainsAt(s: string, sub: string, i: nat)
    requires i <= |s| && sub <= s[i..]
    ensures Contains(s, sub)
    decreases i
  {
    if i > 0 {
      assert s[1..][i - 1..] == s[i..];
      ContainsAt(s[1..], sub, i - 1);
    }
  }

  /** When `sub in s` holds, some position of `s` starts an occurrence of `sub`. */
  lemma {:induction false} ContainsWitness(s: string, sub: string) returns (i: nat)
    requires Contains(s, sub)
    ensures i <= |s| && sub <= s[i..]
    decreases |s|
  {
    if sub <= s {
      i := 0;
    } else {
      var j := ContainsWitness(s[1..], sub);
      assert s[1..][j..] == s[j + 1..];
      i := j + 1;
    }
  }

  /** `sub in s` holds exactly when `sub` starts at some position of `s`. */
  lemma ContainsIff(s: string, sub: string)
    ensures Contains(s, sub) <==> exists i :: 0 <= i <= |s| && sub <= s[i..]
  {
    if Contains(s, sub) {
      var i := ContainsWitness(s, sub);
    }
    forall i | 0 <= i <= |s| && sub <= s[i..]
      ensures Contains(s, sub)
    {
      ContainsAt(s, sub, i);
    }
  }

  /** The empty string occurs in every string, and every string in itself. */
  lemma ContainsTrivial(s: string)
    ensures Contains(s, "")
    ensures Contains(s, s)
  {
  }

  /** A string containing `sub` still contains it once wrapped in more text. */
  lemma ContainsWithin(a: string, s: string, b: string, sub: string)
    requires Contains(s, sub)
    ensures Contains(a + s + b, sub)
  {
    var i := ContainsWitness(s, sub);
    assert (a + s + b)[|a| + i..] == s[i..] + b;
    ContainsAt(a + s + b, sub, |a| + i);
  }

  /** An occurrence survives lower-casing both strings. */
  lemma ContainsLower(s: string, sub: string)
    requires Contains(s, sub)
    ensures Contains(Lower(s), Lower(sub))
  {
    var i := ContainsWitness(s, sub);
    assert Lower(sub) <= Lower(s)[i..];
    ContainsAt(Lower(s), Lower(sub), i);
  }

  /** Only a string no longer than `s` occurs in it. */
  lemma ContainsShorter(s: string, sub: string)
    requires Contains(s, sub)
    ensures |sub| <= |s|
  {
    var i := ContainsWitness(s, sub);
  }

  /** Python's `any(w in s for w in words)`. */
  predicate ContainsAny(s: string, words: seq<string>) {
    exists w :: w in words && Contains(s, w)
  }

  /** A word without capitals survives lower-casing at the end of a text. */
  lemma ContainsLowerSuffix(head: string, w: string)
    requires forall i :: 0 <= i < |w| ==> !IsUpper(w[i])
    ensures Contains(Lower(head + w), w)
  {
    LowerConcat(head, w);
    LowerOfLower(w);
    ContainsTrivial(w);
    ContainsWithin(Lower(head), w, "", w);
    assert Lower(head) + w + "" == Lower(head + w);
  }

  lemma ContainsOneOf(s: string, words: seq<string>, w: string)
    requires w in words && Contains(s, w)
    ensures ContainsAny(s, words)
  {
  }

  // ---------------------------------------------------------------------------
  // Whitespace and `str.strip`
  // ---------------------------------------------------------------------------

  /** The characters for which Python's `str.isspace` is true. */
  predicate IsSpace(c: char) {
    c == ' ' || '\t' <= c <= '\r' || '\U{1C}' <= c <= '\U{1F}' || c == '\U{85}' || c == '\U{A0}'
    || c == '\U{1680}' || '\U{2000}' <= c <= '\U{200A}' || c == '\U{2028}' || c == '\U{2029}'
    || c == '\U{202F}' || c == '\U{205F}' || c == '\U{3000}'
  }

  lemma LowerCharKeepsSpace(c: char)
    ensures IsSpace(LowerChar(c)) <==> IsSpace(c)
  {
  }

  /** The end of the run of blanks that starts at `i`. */
  function BlanksFrom(s: string, i: nat): (k: nat)
    requires i <= |s|
    ensures i <= k <= |s|
    ensures forall j :: i <= j < k ==> IsSpace(s[j])
    ensures k < |s| ==> !IsSpace(s[k])
    decreases |s| - i
  {
    if i < |s| && IsSpace(s[i]) then BlanksFrom(s, i + 1) else i
  }

  /** The start of the run of blanks that ends at `e`, not going below `lo`. */
  function BlanksBefore(s: string, lo: nat, e: nat): (k: nat)
    requires lo <= e <= |s|
    ensures lo <= k <= e
    ensures forall j :: k <= j < e ==> IsSpace(s[j])
    ensures k > lo ==> !IsSpace(s[k - 1])
    decreases e
  {
    if e > lo && IsSpace(s[e - 1]) then BlanksBefore(s, lo, e - 1) else e
  }

  /** Python's `str.strip()`: the longest slice without surrounding whitespace. */
  function Strip(s: string): (r: string)
    ensures |r| <= |s|
    ensures exists i :: StripWitness(s, r, i)
    ensures |r| > 0 ==> !IsSpace(r[0]) && !IsSpace(r[|r| - 1])
  {
    var i := BlanksFrom(s, 0);
    var e := BlanksBefore(s, i, |s|);
    assert StripWitness(s, s[i..e], i);
    s[i..e]
  }

  /** A string with no blank at either end is its own `strip`. */
  lemma StripTrimmed(s: string)
    requires |s| == 0 || (!IsSpace(s[0]) && !IsSpace(s[|s| - 1]))
    ensures Strip(s) == s
  {
    assert BlanksFrom(s, 0) == 0;
    assert BlanksBefore(s, 0, |s|) == |s|;
    assert s[0..|s|] == s;
  }

  /** `r` sits at position `i` of `s` with only blanks around it. */
  predicate StripWitness(s: string, r: string, i: int) {
    && 0 <= i <= |s| - |r| && r <= s[i..]
    && (forall j :: 0 <= j < i ==> IsSpace(s[j]))
    && (forall j :: i + |r| <= j < |s| ==> IsSpace(s[j]))
  }

  // ---------------------------------------------------------------------------
  // `str.replace`
  // ---------------------------------------------------------------------------

  /** Python's `s.replace(pat, repl)`: every non-overlapping occurrence, left to right. */
  function ReplaceAll(s: string, pat: string, repl: string): (r: string)
    requires |pat| > 0
    ensures !Contains(s, pat) ==> r == s
    decreases |s|
  {
    if |s| == 0 then ""
    else if pat <= s then repl + ReplaceAll(s[|pat|..], pat, repl)
    else [s[0]] + ReplaceAll(s[1..], pat, repl)
  }

  // ---------------------------------------------------------------------------
  // Hashtags and words (the handler's two regular expressions)
  // ---------------------------------------------------------------------------

  /**
   * Python's `\w` for the scripts the bot sees: ASCII letters and digits, `_`,
   * and the letters of the Cyrillic block U+0400-U+04FF, whose only
   * non-letters are the thousands sign and the combining marks U+0482-U+0489.
   */
  predicate IsWordChar(c: char) {
    || 'a' <= c <= 'z' || 'A' <= c <= 'Z' || '0' <= c <= '9' || c == '_'
    || ('Ѐ' <= c <= 'ӿ' && !('\U{482}' <= c <= '\U{489}'))
  }

  /** Length of the longest prefix of `s` made of word characters. */
  function WordRun(s: string): (n: nat)
    ensures n <= |s|
    ensures forall i :: 0 <= i < n ==> IsWordChar(s[i])
    ensures n < |s| ==> !IsWordChar(s[n])
  {
    if |s| > 0 && IsWordChar(s[0]) then 1 + WordRun(s[1..]) else 0
  }

  /** A hashtag: `#` immediately followed by a word character. */
  predicate HashtagAt(s: string, i: int) {
    0 <= i && i + 1 < |s| && s[i] == '#' && IsWordChar(s[i + 1])
  }

  /** `re.sub(r'#\w+', '', s)`: drops every `#` together with the word that follows it. */
  function StripHashtags(s: string): (r: string)
    ensures |r| <= |s|
    ensures '#' !in s ==> r == s
    decreases |s|
  {
    if |s| == 0 then ""
    else if HashtagAt(s, 0) then StripHashtags(s[1 + WordRun(s[1..])..])
    else
      assert '#' !in s ==> '#' !in s[1..];
      assert s == [s[0]] + s[1..];
      [s[0]] + StripHashtags(s[1..])
  }

  /** Text that starts with a non-word character still does after hashtag removal. */
  lemma {:induction false} StripHashtagsHead(s: string)
    requires |s| > 0 && !IsWordChar(s[0])
    ensures |StripHashtags(s)| > 0 ==> !IsWordChar(StripHashtags(s)[0])
    decreases |s|
  {
    if HashtagAt(s, 0) {
      var t := s[1 + WordRun(s[1..])..];
      if |t| > 0 {
        StripHashtagsHead(t);
      }
    }
  }

  /** After `re.sub(r'#\w+', '', s)` no hashtag is left in the text. */
  lemma {:induction false} StripHashtagsRemovesAll(s: string)
    ensures forall i :: !HashtagAt(StripHashtags(s), i)
    decreases |s|
  {
    if |s| == 0 {
    } else if HashtagAt(s, 0) {
      StripHashtagsRemovesAll(s[1 + WordRun(s[1..])..]);
    } else {
      var rest := StripHashtags(s[1..]);
      StripHashtagsRemovesAll(s[1..]);
      var r := [s[0]] + rest;
      assert StripHashtags(s) == r;
      if s[0] == '#' && |rest| > 0 {
        StripHashtagsHead(s[1..]);
      }
      forall i | HashtagAt(r, i)
        ensures false
      {
        if i > 0 {
          assert HashtagAt(rest, i - 1);
        }
      }
    }
  }

  /**
   * The letters `[а-яa-zё]` of the handler's word pattern, matched
   * case-insensitively: their capitals, and the four characters Python's
   * case-insensitive matching folds onto a Latin letter, İ and ı (onto i),
   * ſ (onto s) and the Kelvin sign (onto k).
   */
  predicate IsLetter(c: char) {
    || 'a' <= c <= 'z' || 'A' <= c <= 'Z' || 'а' <= c <= 'я' || 'А' <= c <= 'Я'
    || c == 'ё' || c == 'Ё'
    || c == '\U{130}' || c == '\U{131}' || c == '\U{17F}' || c == '\U{212A}'
  }

  predicate AllLetters(s: string) {
    forall i :: 0 <= i < |s| ==> IsLetter(s[i])
  }

  function LetterRun(s: string): (n: nat)
    ensures n <= |s|
    ensures forall i :: 0 <= i < n ==> IsLetter(s[i])
    ensures n < |s| ==> !IsLetter(s[n])
  {
    if |s| > 0 && IsLetter(s[0]) then 1 + LetterRun(s[1..]) else 0
  }

  /** `WORD_RE.findall(s)`: the maximal runs of letters, in order. */
  function Tokens(s: string): (r: seq<string>)
    ensures forall i :: 0 <= i < |r| ==> |r[i]| > 0 && AllLetters(r[i])
    decreases |s|
  {
    if |s| == 0 then []
    else if !IsLetter(s[0]) then Tokens(s[1..])
    else
      var n := LetterRun(s);
      [s[..n]] + Tokens(s[n..])
  }

  /** The letters of `s` in order, an independent reference for `Tokens`. */
  function Letters(s: string): string {
    if |s| == 0 then "" else (if IsLetter(s[0]) then [s[0]] else "") + Letters(s[1..])
  }

  function Concat(ws: seq<string>): string {
    if |ws| == 0 then "" else ws[0] + Concat(ws[1..])
  }

  lemma {:induction false} LettersOfLetters(s: string)
    requires AllLetters(s)
    ensures Letters(s) == s
  {
    if |s| > 0 {
      LettersOfLetters(s[1..]);
    }
  }

  lemma {:induction false} LettersAppend(a: string, b: string)
    ensures Letters(a + b) == Letters(a) + Letters(b)
  {
    if |a| == 0 {
      assert a + b == b;
    } else {
      var head := if IsLetter(a[0]) then [a[0]] else "";
      assert (a + b)[0] == a[0];
      assert (a + b)[1..] == a[1..] + b;
      LettersAppend(a[1..], b);
      assert Letters(a + b) == head + Letters(a[1..] + b);
      assert Letters(a) == head + Letters(a[1..]);
    }
  }

  /** Tokenising loses no letter and invents none: the tokens spell the letters of `s`. */
  lemma {:induction false} TokensSpellLetters(s: string)
    ensures Concat(Tokens(s)) == Letters(s)
    decreases |s|
  {
    if |s| == 0 {
    } else if !IsLetter(s[0]) {
      TokensSpellLetters(s[1..]);
    } else {
      var n := LetterRun(s);
      TokensSpellLetters(s[n..]);
      assert s == s[..n] + s[n..];
      LettersAppend(s[..n], s[n..]);
      LettersOfLetters(s[..n]);
    }
  }

  // ---------------------------------------------------------------------------
  // Splitting on one character: `str.split(c)` and `str.rsplit(c, 1)`
  // ---------------------------------------------------------------------------

  /** The position of the first `c` in `s`. */
  function IndexOf(s: string, c: char): (i: nat)
    requires c in s
    ensures i < |s| && s[i] == c && c !in s[..i]
  {
    if s[0] == c then 0
    else
      assert s == [s[0]] + s[1..];
      var j := IndexOf(s[1..], c);
      assert s[..j + 1] == [s[0]] + s[1..][..j];
      j + 1
  }

  /** The position of the last `c` in `s`. */
  function LastIndexOf(s: string, c: char): (i: nat)
    requires c in s
    ensures i < |s| && s[i] == c && c !in s[i + 1..]
  {
    if s[|s| - 1] == c then |s| - 1
    else
      assert s == s[..|s| - 1] + [s[|s| - 1]];
      var j := LastIndexOf(s[..|s| - 1], c);
      assert s[j + 1..] == s[..|s| - 1][j + 1..] + [s[|s| - 1]];
      j
  }

  /** Python's `s.split(c)` for a one-character separator. */
  function Split(s: string, c: char): (r: seq<string>)
    ensures |r| >= 1
    ensures forall k :: 0 <= k < |r| ==> c !in r[k]
    decreases |s|
  {
    if c !in s then [s]
    else
      var i := IndexOf(s, c);
      [s[..i]] + Split(s[i + 1..], c)
  }

  /** Python's `c.join(parts)`. */
  function Join(parts: seq<string>, c: char): string
    requires |parts| >= 1
  {
    if |parts| == 1 then parts[0] else parts[0] + [c] + Join(parts[1..], c)
  }

  /** Joining the pieces of a split gives back the string. */
  lemma {:induction false} JoinSplit(s: string, c: char)
    ensures Join(Split(s, c), c) == s
    decreases |s|
  {
    if c in s {
      var i := IndexOf(s, c);
      JoinSplit(s[i + 1..], c);
      JoinCons(s[..i], Split(s[i + 1..], c), c);
      assert s == s[..i] + [c] + s[i + 1..];
    }
  }

  /** Joining a piece in front of at least one more puts a separator after it. */
  lemma JoinCons(a: string, rest: seq<string>, c: char)
    requires |rest| >= 1
    ensures Join([a] + rest, c) == a + [c] + Join(rest, c)
  {
    assert ([a] + rest)[1..] == rest;
  }

  /** Splitting pieces joined by a separator they do not contain gives back the pieces. */
  lemma {:induction false} SplitJoin(parts: seq<string>, c: char)
    requires |parts| >= 1
    requires forall k :: 0 <= k < |parts| ==> c !in parts[k]
    ensures Split(Join(parts, c), c) == parts
    decreases |parts|
  {
    if |parts| > 1 {
      var s := Join(parts, c);
      var rest := Join(parts[1..], c);
      assert s == parts[0] + [c] + rest;
      assert s[|parts[0]|] == c;
      assert s[..|parts[0]|] == parts[0];
      assert IndexOf(s, c) == |parts[0]|;
      assert s[|parts[0]| + 1..] == rest;
      SplitJoin(parts[1..], c);
      assert parts == [parts[0]] + parts[1..];
    }
  }

  /** Three pieces without the separator, joined by it, split back into themselves. */
  lemma SplitThree(a: string, b: string, d: string, c: char)
    requires c !in a && c !in b && c !in d
    ensures Split(a + [c] + b + [c] + d, c) == [a, b, d]
  {
    var parts := [a, b, d];
    assert parts[1..] == [b, d] && [b, d][1..] == [d];
    assert Join([b, d], c) == b + [c] + d;
    assert Join(parts, c) == a + [c] + (b + [c] + d);
    assert a + [c] + b + [c] + d == a + [c] + (b + [c] + d);
    SplitJoin(parts, c);
  }

  /** The number of occurrences of `c` in `s`: Python's `s.count(c)`. */
  function CountChar(s: string, c: char): nat {
    if |s| == 0 then 0 else (if s[0] == c then 1 else 0) + CountChar(s[1..], c)
  }

  lemma {:induction false} CountCharAppend(a: string, b: string, c: char)
    ensures CountChar(a + b, c) == CountChar(a, c) + CountChar(b, c)
    decreases |a|
  {
    if |a| > 0 {
      assert (a + b)[1..] == a[1..] + b;
      CountCharAppend(a[1..], b, c);
    } else {
      assert a + b == b;
    }
  }

  lemma {:induction false} CountCharAbsent(s: string, c: char)
    requires c !in s
    ensures CountChar(s, c) == 0
    decreases |s|
  {
    if |s| > 0 {
      assert c !in s[1..];
      CountCharAbsent(s[1..], c);
    }
  }

  /** A split yields one more piece than there are separators. */
  lemma {:induction false} SplitCount(s: string, c: char)
    ensures |Split(s, c)| == CountChar(s, c) + 1
    decreases |s|
  {
    if c !in s {
      CountCharAbsent(s, c);
    } else {
      var i := IndexOf(s, c);
      SplitCount(s[i + 1..], c);
      assert s == s[..i] + ([c] + s[i + 1..]);
      CountCharAppend(s[..i], [c] + s[i + 1..], c);
      CountCharAbsent(s[..i], c);
      assert ([c] + s[i + 1..])[1..] == s[i + 1..];
    }
  }

  // ---------------------------------------------------------------------------
  // Decimal integers: `str(n)` and `int(s)`
  // ---------------------------------------------------------------------------

  predicate IsDigit(c: char) {
    '0' <= c <= '9'
  }

  function DigitChar(d: nat): char
    requires d < 10
  {
    ('0' as int + d) as char
  }

  function NatToString(n: nat): (r: string)
    ensures |r| > 0
    ensures forall i :: 0 <= i < |r| ==> IsDigit(r[i])
  {
    if n < 10 then [DigitChar(n)] else NatToString(n / 10) + [DigitChar(n % 10)]
  }

  /** Python's `str(n)` for an integer. */
  function IntToString(n: int): (r: string)
    ensures |r| > 0
    ensures forall i :: 0 <= i < |r| ==> IsDigit(r[i]) || (i == 0 && r[i] == '-')
    ensures r[0] == '-' <==> n < 0
  {
    if n < 0 then "-" + NatToString(-n) else NatToString(n)
  }

  predicate AllDigits(s: string) {
    forall i :: 0 <= i < |s| ==> IsDigit(s[i])
  }

  /** The value of a non-empty run of decimal digits. */
  function DigitsValue(s: string): nat
    requires AllDigits(s)
  {
    if |s| == 0 then 0 else 10 * DigitsValue(s[..|s| - 1]) + (s[|s| - 1] as int - '0' as int)
  }

  /** Python's `int(s)` on a decimal literal with an optional sign. */
  function ParseInt(s: string): (r: Option<int>)
    ensures r.Some? <==> || (|s| > 0 && AllDigits(s))
                         || (|s| > 1 && (s[0] == '-' || s[0] == '+') && AllDigits(s[1..]))
    ensures r.Some? && r.value < 0 ==> s[0] == '-'
  {
    if |s| > 0 && (s[0] == '-' || s[0] == '+') then
      var body := s[1..];
      if |body| > 0 && AllDigits(body) then
        var v: int := DigitsValue(body);
        Some(if s[0] == '-' then -v else v)
      else None
    else if |s| > 0 && AllDigits(s) then Some(DigitsValue(s))
    else None
  }

  lemma {:induction false} NatToStringValue(n: nat)
    ensures DigitsValue(NatToString(n)) == n
  {
    if n >= 10 {
      NatToStringValue(n / 10);
      var s := NatToString(n);
      assert s[..|s| - 1] == NatToString(n / 10);
    }
  }

  /** `int(str(n)) == n`: printing an integer and parsing it back is the identity. */
  lemma ParseIntToString(n: int)
    ensures ParseInt(IntToString(n)) == Some(n)
  {
    if n < 0 {
      NatToStringValue(-n);
      assert IntToString(n)[1..] == NatToString(-n);
    } else {
      NatToStringValue(n);
    }
  }
}

=== FILE: wrappers.dfy ===
/** Optional values, used wherever the bot reads a key that may be absent. */
module Wrappers {

  datatype Option<+T> = None | Some(value: T) {

    /** Returns the wrapped value, or `default` when absent (Python's `d.get(k, default)`). */
    function GetOr(default: T): T {
      match this
      case Some(v) => v
      case None => default
    }
  }

  /** Python truthiness of an optional string: present and non-empty. */
  predicate Truthy(o: Option<string>) {
    o.Some? && o.value != ""
  }
}
